=== FILE: README.md ===
# Distributed testing on Kubernetes: a Dafny model

The repository is a Gradle plugin that runs a build's JUnit tests in parallel on a
Kubernetes cluster. It builds a Docker image of the source tree and pushes it to a
registry. Each `Test` task is then rewritten so that every fork runs only the tests
an allocator gives it, and skips the tests a ledger file says already passed. A
`KubesTest` task starts one pod per shard, runs the build there with up to three
attempts, and collects the binary results.

This project models the decision logic of that core as pure functions over
immutable datatypes:

- the two copies of the retry primitive;
- pod naming, the stable run identity and the pre-clean;
- a shard's attempt loop and the aggregation of shard results;
- pod shapes and their resource budget;
- the remote build command line;
- the exit code read from the exec error channel;
- the result-folder search;
- the test filter and the executed-tests ledger;
- test listing from a JUnit test plan;
- task and directory naming;
- the two kinds of parallel test group, and the infrastructure profile;
- how a group becomes a `KubesTest` task;
- the image-building plugin's property handling;
- the database sidecars.

Java exceptions become `Result` failures that carry the exception kind. Null becomes
`Option`. Java `int` arithmetic is 32-bit wrap-around (`JavaInt.Wrap`). The cluster, the
clock and the random generators are parameters.

Paths in the table are relative to the repository root. `src/` is the main source
tree. `distributed-testing-plugin/` is the plugin's own copy.

## Model

| member | source | states |
|---|---|---|
| Retry.FixedWithDelay | distributed-testing-plugin/src/main/java/com/r3/testing/retry/Retry.java:23-24 | a strategy is refused with IllegalArgumentException exactly when `times < 1`; otherwise it keeps the count and delay given |
| Retry.Fixed | distributed-testing-plugin/src/main/java/com/r3/testing/retry/Retry.java:57-59 | refused exactly when `times < 1`; an accepted strategy has no delay |
| Retry.CallFrom | distributed-testing-plugin/src/main/java/com/r3/testing/retry/Retry.java:27-44 | the loop from a given run on never exceeds the budget; every invocation but the last threw an Exception; it succeeds iff the last returned, with that value; exhaustion rethrows the last cause; a warning counts down the remaining tries; one sleep of `delay` per warning, and a negative delay escapes as IllegalArgumentException |
| Retry.Call | distributed-testing-plugin/src/main/java/com/r3/testing/retry/Retry.java:27-44 | the same, from the first invocation on, for every call of the strategy |
| Retry.SucceedsIffSomeAttemptReturns | distributed-testing-plugin/src/main/java/com/r3/testing/retry/Retry.java:30-42 | with a usable delay, a call succeeds iff some invocation within the budget returns and every earlier one threw an Exception |
| Retry.AlwaysThrowingExhausts | distributed-testing-plugin/src/main/java/com/r3/testing/retry/Retry.java:33-43 | an operation that always throws runs exactly `times` times, sleeps `times` times, and ends with its last cause |
| Retry.RunRunnable | distributed-testing-plugin/src/main/java/com/r3/testing/retry/Retry.java:47-52 | running a Runnable succeeds with `true` iff its last invocation completed; exhaustion carries the last failure |
| SrcRetry.Fixed | src/main/java/com/r3/testing/retry/Retry.java:19-20 | refused with IllegalArgumentException exactly when `times < 1` |
| SrcRetry.RunFrom | src/main/java/com/r3/testing/retry/Retry.java:23-36 | the main tree's loop: within budget, never sleeps, every invocation but the last was caught, succeeds iff the last returned, warnings count down |
| SrcRetry.Run | src/main/java/com/r3/testing/retry/Retry.java:23-36 | a whole run: exhaustion means `times` invocations and a last warning of 0 |
| SrcRetry.RunFromAgrees | src/main/java/com/r3/testing/retry/Retry.java:23-36 | from any run index, the main tree's loop and the plugin's loop with delay 0 end alike, after the same invocations, with the same warnings |
| SrcRetry.CopiesAgree | src/main/java/com/r3/testing/retry/Retry.java:19-36 | the two copies of `fixed(times)` accept the same counts, and their runs are observably identical |
| JavaInt.Add | distributed-testing-plugin/src/main/java/com/r3/testing/DistributedTesting.java:173 | Java `int` addition is the exact sum modulo 2^32 |
| JavaInt.AddThree | src/main/java/com/r3/testing/ListTests.java:39 | wrapping after each of two additions equals wrapping the exact three-term sum once |
| JavaInt.AddCommutes | src/main/java/com/r3/testing/ParallelTestGroupConfigurer.java:112 | `int` addition commutes even when it overflows |
| JavaInt.HashCode | src/main/java/com/r3/testing/ParallelTestGroupConfigurer.java:112 | `String.hashCode` is the 32-bit reduction of the polynomial sum of the characters times powers of 31 |
| JavaInt.HashCollision | src/main/java/com/r3/testing/ParallelTestGroupConfigurer.java:112 | "Aa" and "BB" hash to the same value, 2112 |
| JavaNumbers.ParseInt | src/main/java/com/r3/testing/DistributedTestingProject.java:32 | `Integer.parseInt` succeeds iff the text is an optional sign followed by at least one ASCII decimal digit (the syntax defined on its own) and the value lies in the `int` range; the value is the signed decimal value, non-positive after `-` and non-negative otherwise |
| JavaNumbers.DecimalDigitsValue | src/main/java/com/r3/testing/DistributedTestingProject.java:32 | a digit string has a decimal value iff every character is `0`-`9` |
| JavaNumbers.ParseBase36IntValue | src/main/java/com/r3/testing/ListTests.java:34-35 | a base-36 revision is accepted iff it is a signed run of ASCII base-36 digits (`0`-`9` and letters of either case); `intValue` is its low 32 bits |
| JavaNumbers.IntToString | src/main/java/com/r3/testing/KubesTest.java:599 | decimal text is non-empty, all digits for non-negative numbers, and starts with `-` for negative ones |
| JavaNumbers.ParseIntOfToString | src/main/java/com/r3/testing/DistributedTestingProject.java:31-33 | parsing what `Integer.toString` printed gives back the same `int` |
| PodNaming.GeneratePodName | src/main/java/com/r3/testing/KubesTest.java:184-191 | a pod name is the last (at most) 63 characters of the lower-cased task name, the stable run id, the random part and the index, joined by `-` |
| PodNaming.NameEndsWithIndex | src/main/java/com/r3/testing/KubesTest.java:184-191 | truncation never reaches the shard index: the segment after the last `-` is the index |
| PodNaming.PodNamesDistinct | src/main/java/com/r3/testing/KubesTest.java:99-102 | two shards of one run never share a pod name, however long the task name is |
| PodNaming.PodNames | src/main/java/com/r3/testing/KubesTest.java:99-102 | a run with `n` shards names `n` pods, all different |
| PodNaming.StableSeed | src/main/java/com/r3/testing/KubesTest.java:79-82 | the stable seed is the wrapped sum of the hashes of the build id (default "0"), the user (default "UNKNOWN_USER") and the task to execute |
| PodNaming.StableRunIdRepeats | src/main/java/com/r3/testing/KubesTest.java:79-82 | the same build, user and task give the same stable run id on a re-run |
| PodNaming.PodsToPreClean | src/main/java/com/r3/testing/KubesTest.java:88-94 | the pre-clean deletes exactly the existing pods whose names contain the stable run id |
| PodNaming.NameKeepsStableRunId | src/main/java/com/r3/testing/KubesTest.java:184-191 | when the id, random part and index fit in 63 characters, the pod name contains the whole stable run id |
| PodNaming.LeftoverPodsArePreCleaned | src/main/java/com/r3/testing/KubesTest.java:79-94 | pods left by an earlier run of the same build, user and task are deleted by the pre-clean, whatever random part that run drew |
| ExitStatus.ExitCode | src/main/java/com/r3/testing/KubesTest.java:667-683 | unreadable status fails; an absent link in the cause chain reads as 0; a null first cause is a NullPointerException; a message is parsed as an `int`, NumberFormatException otherwise |
| ExitStatus.ExitCodeRoundTrip | src/main/java/com/r3/testing/KubesTest.java:670-677 | every exit code the remote shell reports is read back unchanged |
| ExitStatus.SuccessStatusIsZero | src/main/java/com/r3/testing/KubesTest.java:670-677 | a status with no details, a null status, or an empty cause list reads as exit code 0 |
| ExitStatus.NonNumericMessageFails | src/main/java/com/r3/testing/KubesTest.java:670-679 | a non-numeric cause message fails the attempt instead of reading as 0 |
| ShardAttempts.NonZeroExitsBefore | src/main/java/com/r3/testing/KubesTest.java:289 | the retry counter at attempt `k` never exceeds `k` |
| ShardAttempts.Attempt | src/main/java/com/r3/testing/KubesTest.java:296-342 | an attempt returns only after a readable exit, a successful copy and cleanup, with its own index, log file, code and folders; a clean attempt throws (InvalidUserCodeException, so it is retried) iff it exited non-zero while the counter is below `retries - 1` |
| ShardAttempts.ExecuteShard | src/main/java/com/r3/testing/KubesTest.java:273-360 | a count below 1 aborts with IllegalArgumentException before any attempt; otherwise 1 to `retries` attempts, every one but the last retried; a completed shard reports its own index and log file, and its result is the returning attempt's, or code 255 with the recovery pod's folders once the budget is used up |
| ShardAttempts.RetriedCleanAttemptsCount | src/main/java/com/r3/testing/KubesTest.java:324-330 | clean attempts that were all retried each bumped the counter |
| ShardAttempts.CleanAttemptsNeverExhaust | src/main/java/com/r3/testing/KubesTest.java:324-342 | when every pod runs and reports cleanly, the shard completes with the first zero exit, or with the last attempt's code, and never uses the recovery pod |
| ShardAttempts.RetryThenPass | src/main/java/com/r3/testing/KubesTest.java:299-342 | a failing test run followed by a passing one completes with code 0 and the second pod's results after two attempts |
| ShardAttempts.InfrastructureFailureUsesUpTheBudget | src/main/java/com/r3/testing/KubesTest.java:324-353 | a pod that never started, then two failing runs, use up the budget, and the shard reports the recovery results under 255 |
| ShardAttempts.InterruptedRecoveryAborts | src/main/java/com/r3/testing/KubesTest.java:344-358 | when no attempt gets a pod running and the recovery is interrupted, the shard aborts |
| ShardAttempts.ErrorEndsTheShard | src/main/java/com/r3/testing/KubesTest.java:299-342 | a `java.lang.Error` is not retried: the shard aborts after one attempt |
| ShardAttempts.ReturningAttemptCompletes | src/main/java/com/r3/testing/KubesTest.java:299-342 | when attempts 0..k-1 all threw exceptions and attempt k returns, the shard completes with attempt k's result after exactly k+1 attempts |
| ShardAttempts.ErrorAbortsTheShard | src/main/java/com/r3/testing/KubesTest.java:299-358 | when attempts 0..k-1 threw exceptions and attempt k throws an Error, the shard aborts with that Error after k+1 attempts, and no recovery pod runs |
| ShardAttempts.ExhaustedAttemptsRecover | src/main/java/com/r3/testing/KubesTest.java:344-358 | when every one of the attempts throws an exception, all `retries` are used; a recovered download completes with code 255 and its folders, an interrupted one aborts, a failed one aborts with its cause |
| ShardAttempts.CompletesIff | src/main/java/com/r3/testing/KubesTest.java:299-358 | a shard completes iff some attempt returns after only exceptions before it, or every attempt threw an exception and the recovery download succeeded |
| ShardAttempts.SubmitBuild | src/main/java/com/r3/testing/KubesTest.java:231-242 | a failed volume-claim creation aborts the shard with that failure before any attempt; no attempt runs iff the claim failed or the count is below 1; with the claim made, the shard runs its attempt loop |
| Aggregation.FlattenContents | src/main/java/com/r3/testing/KubesTest.java:104-110 | flattening keeps every element of every list and adds nothing; its length is the sum of the lengths |
| Aggregation.FilesOf | src/main/java/com/r3/testing/KubesTest.java:106 | one folder list per result, in order, each that result's binary-results folders |
| Aggregation.Shards | src/main/java/com/r3/testing/KubesTest.java:99-102 | one shard run per index in `range(0, numberOfPods)`; run i is that index's claim creation and attempt loop with three attempts and its own log file |
| Aggregation.RunDistributedTests | src/main/java/com/r3/testing/KubesTest.java:99-117 | the task fails with InvalidUserCodeException iff some shard aborted; otherwise container result i is shard i's own result, and the test output is their folders in index order |
| Aggregation.TestOutputCollectsEveryShard | src/main/java/com/r3/testing/KubesTest.java:104-117 | a folder is in the test output iff it is a binary-results folder of some shard's result |
| Aggregation.CleanClusterSucceeds | src/main/java/com/r3/testing/KubesTest.java:77-117 | on a clean cluster the task succeeds, and each shard's code is 0 unless it used all its attempts |
| Aggregation.ReturnedAttemptIsReported | src/main/java/com/r3/testing/KubesTest.java:99-117 | when shard i's attempt k is the first to return, container result i is exactly that attempt's result |
| Aggregation.FailedClaimFailsTheTask | src/main/java/com/r3/testing/KubesTest.java:99-117 | a shard whose volume claim could not be created fails the whole task with InvalidUserCodeException |
| PodShape.ChooseShape | src/main/java/com/r3/testing/KubesTest.java:409-421 | the sidecar shape is chosen iff no extra argument mentions `azure` and a sidecar image is set |
| PodShape.BasePod | src/main/java/com/r3/testing/KubesTest.java:481-512 | the pod and its volume claim are named after the pod, it is never restarted, and it tolerates each taint in order with `key=<taint>:NoSchedule` |
| PodShape.BuildPodRequest | src/main/java/com/r3/testing/KubesTest.java:409-464 | one container for the worker-only shape, asking for `cores` CPUs and the bare number `memoryGb` as memory; two for the sidecar shape: the worker asks for `cores - 1` and `(memoryGb - 1)Gi` (in `int` arithmetic), the sidecar `<pod>-pg` runs the sidecar image with `1` and `1Gi`; the worker is named after the pod and runs the task's image |
| PodShape.WorkerOnlyMemoryIsBytes | src/main/java/com/r3/testing/KubesTest.java:423-435 | a worker-only pod requests `memoryGbPerFork` bytes, not gigabytes |
| PodShape.BuildPodRequestCorrected | src/main/java/com/r3/testing/KubesTest.java:409-464 | the corrected request has the same shape, names, images and per-container requests, except that the worker-only memory is `memoryGb` followed by `Gi` |
| PodShape.SidecarQuantities | src/main/java/com/r3/testing/KubesTest.java:437-464 | the sidecar requests one core and one GiB |
| PodShape.CorrectedWorkerOnlyBudget | src/main/java/com/r3/testing/KubesTest.java:423-435 | with the unit restored, a worker-only pod requests `cores` CPUs and `memoryGb` GiB |
| PodShape.SidecarBudget | src/main/java/com/r3/testing/KubesTest.java:437-464 | worker plus sidecar together request exactly `cores` CPUs and `memoryGb` GiB |
| PodShape.CorrectedPodRequestsTheBudget | src/main/java/com/r3/testing/KubesTest.java:409-464 | both corrected shapes request exactly the per-fork budget in total |
| BuildArgs.ReworkDbNames | src/main/java/com/r3/testing/KubesTest.java:608-615 | each argument, in order, with every `corda-db-test` replaced by the pod's database name |
| BuildArgs.AdditionalArgs | src/main/java/com/r3/testing/KubesTest.java:604-606 | the extra arguments on the command line are the rewritten arguments joined by spaces |
| BuildArgs.ReworkWithoutPlaceholder | src/main/java/com/r3/testing/KubesTest.java:608-615 | arguments that never mention the placeholder pass through unchanged |
| BuildArgs.PlaceholderArgumentRewritten | src/main/java/com/r3/testing/KubesTest.java:608-615 | an argument ending in the placeholder points at the pod's own database afterwards, whenever no occurrence of the placeholder starts inside the text before it |
| BuildArgs.PrefixWithOneCRewritten | src/main/java/com/r3/testing/KubesTest.java:608-615 | a prefix whose only `c` is not followed by `o` (the `jdbc` of a connection URL) satisfies that condition, so such an argument is redirected |
| BuildArgs.JdbcUrlRewritten | src/main/java/com/r3/testing/KubesTest.java:608-615 | `-Dtest.db.url=jdbc:sqlserver://h;databaseName=corda-db-test` is redirected to the pod's database |
| BuildArgs.AdditionalArgsSplit | src/main/java/com/r3/testing/KubesTest.java:604-606 | when no argument holds a space, splitting the command-line text gives the rewritten arguments back |
| BuildArgs.LoggingFlag | src/main/java/com/r3/testing/KubesTest.java:617-632 | a null level fails with NullPointerException; every level gives ` --` followed by its constant name in lower case (` --quiet`, ` --warn`, ` --info`, ` --debug`) |
| BuildArgs.LoggingFlagsDistinct | src/main/java/com/r3/testing/KubesTest.java:617-632 | different levels give different switches |
| BuildArgs.FlagValue | src/main/java/com/r3/testing/KubesTest.java:599 | `-P<name>=<v>` gives property `name` the value `v` |
| BuildArgs.ForkFlagsDoNotCrossRead | src/main/java/com/r3/testing/KubesTest.java:599 | the shard-count flag is not read as the shard-index flag, nor the other way round, although one name is a prefix of the other |
| BuildArgs.ForkFlagsReadBack | src/main/java/com/r3/testing/KubesTest.java:585-602 | the worker reads back exactly the shard index and shard count the orchestrator sent |
| ResultSearch.ChildItems | src/main/java/com/r3/testing/KubesTest.java:640-646 | a directory's children enter the queue in listing order, each with its path and its parent folder |
| ResultSearch.Step | src/main/java/com/r3/testing/KubesTest.java:634-648 | inspecting the queue's head keeps the multiset of folders still to be found, and the queue shrinks in size |
| ResultSearch.FindResultFolders | src/main/java/com/r3/testing/KubesTest.java:634-648 | the breadth-first walk reports every folder holding an entry whose path ends in `results.bin`, as often as the depth-first reference finds it, and nothing else |
| ResultSearch.DownloadedResultFolders | src/main/java/com/r3/testing/KubesTest.java:564-583 | the folders reported for a pod are those found under `<buildDir>/test-results-xml/<pod>` |
| ResultSearch.SuffixNameMatches | src/main/java/com/r3/testing/KubesTest.java:640-646 | the match is on the path's end, so a file called `old-results.bin` counts too |
| Ledger.AppendAsWritten | src/main/java/com/r3/testing/TestDistributor.java:124-136 | a non-passing test leaves the ledger alone; a passing one adds exactly its entry's characters |
| Ledger.RecordAsWrittenConcatenates | src/main/java/com/r3/testing/TestDistributor.java:124-136 | as written, a worker's passes land in the ledger one after another with nothing between them |
| Ledger.PassesRunTogether | src/main/java/com/r3/testing/TestDistributor.java:124-136 | as written, two passing tests read back as one line holding both names |
| Ledger.AppendLine | src/main/java/com/r3/testing/TestDistributor.java:124-136 | corrected: a passing test's entry is appended followed by a line feed |
| Ledger.LinesRoundTrip | src/main/java/com/r3/testing/TestDistributor.java:198 | reading a line-separated ledger gives back exactly its entries, in order |
| Ledger.RecordAppends | src/main/java/com/r3/testing/TestDistributor.java:124-136 | recording tests onto a well-formed ledger gives the well-formed ledger of the earlier entries then the new passes |
| Ledger.RecordRoundTrip | src/main/java/com/r3/testing/TestDistributor.java:124-136 | a restarted worker reads back the earlier entries, then every test that passed since, in order, and nothing else |
| TestFilter.Keep | src/main/java/com/r3/testing/TestDistributor.java:155 | the elements kept are those of the first list that occur in the second |
| TestFilter.Drop | src/main/java/com/r3/testing/TestDistributor.java:159 | `removeAll` leaves exactly the elements not in the second list |
| TestFilter.KeepDropPartition | src/main/java/com/r3/testing/TestDistributor.java:155-159 | keeping and dropping the same elements splits a list as a multiset, losing and adding nothing |
| TestFilter.FilterFor | src/main/java/com/r3/testing/TestDistributor.java:140-171 | never fails on no match; no includes excludes everything; the includes are the planned tests not yet passed; the excludes are the planned tests already passed |
| TestFilter.FilterPartitionsIncludes | src/main/java/com/r3/testing/TestDistributor.java:155-169 | no test is both included and excluded, and every planned test is one or the other |
| TestFilter.ExecutedTests | src/main/java/com/r3/testing/TestDistributor.java:195-205 | each ledger line with `*` appended, in order; an unreadable ledger gives nothing |
| TestFilter.DistributorFilter | src/main/java/com/r3/testing/TestDistributor.java:140-171 | with an unreadable ledger the distributor's filter excludes nothing that passed |
| TestFilter.PluginFilterAsWritten | distributed-testing-plugin/src/main/java/com/r3/testing/DistributedTesting.java:310-349 | as written, an unreadable ledger throws NullPointerException, and nothing else does |
| TestFilter.PluginFilter | distributed-testing-plugin/src/main/java/com/r3/testing/DistributedTesting.java:310-349 | corrected, the plugin's filter always succeeds |
| TestFilter.PluginAsWrittenRerunsEverything | distributed-testing-plugin/src/main/java/com/r3/testing/DistributedTesting.java:317-339 | as written, starred include patterns never meet raw ledger lines, so every planned test is included and none is excluded |
| TestFilter.PluginAsWrittenMissesAPassedTest | distributed-testing-plugin/src/main/java/com/r3/testing/DistributedTesting.java:317-339 | a test that passed and is planned again is rerun by the plugin's filter but skipped by the distributor's |
| TestFilter.RestartSkipsPassedTests | src/main/java/com/r3/testing/TestDistributor.java:124-169 | after a restart, a planned `entry*` is excluded iff its entry passed earlier, and included otherwise |
| TestFilter.Distribute | src/main/java/com/r3/testing/TestDistributor.java:52-67 | a task that is modified also gets a parallel task; an opted-out task gets neither |
| TestFilter.DistributeBranches | src/main/java/com/r3/testing/TestDistributor.java:52-67 | a task is modified iff requested and not opted out; it gets a parallel task iff not opted out |
| TestPlan.ConvertClassId | src/main/java/com/r3/testing/TestPlanUtils.java:57-66 | a class's unique id converts to the class name, which has no method marker |
| TestPlan.ConvertMethodId | src/main/java/com/r3/testing/TestPlanUtils.java:57-66 | a method's unique id converts to `class.method()`, and removing the marker leaves `class.method` |
| TestPlan.StripLeavesNoMarker | src/main/java/com/r3/testing/TestPlanUtils.java:30-35 | a name without `((` has no marker left once the markers are removed |
| TestPlan.StripCanLeaveMarker | src/main/java/com/r3/testing/TestPlanUtils.java:33 | one pass of `replaceAll` turns `(())` into a marker |
| TestPlan.CollectsExactlyTheDescendants | src/main/java/com/r3/testing/TestPlanUtils.java:40-52 | a name is collected iff it is the converted id of some node below some engine, test or not |
| TestPlan.EnginesAloneHaveNoNames | src/main/java/com/r3/testing/TestPlanUtils.java:40-52 | a plan holding only engines yields no names |
| TestPlan.ClassesAndMethodsPartition | src/main/java/com/r3/testing/TestPlanUtils.java:19-35 | classes and methods fail together, exactly when some descendant of an engine converts to null; otherwise every collected name is a class iff it has no marker, and a marked one yields a method |
| TestPlan.MethodsHaveNoMarker | src/main/java/com/r3/testing/TestPlanUtils.java:30-35 | when no collected name holds `((`, no listed method keeps a marker |
| TestPlan.ConvertId | src/main/java/com/r3/testing/TestPlanUtils.java:57-66 | the conversion is null iff the id has no `()` and no `class:...]` part; a vintage runner id is one such |
| TestPlan.RunnerIdIsNull | src/main/java/com/r3/testing/TestPlanUtils.java:57-66 | the vintage runner id `[engine:junit-vintage]/[runner:a.B]` converts to null |
| TestPlan.TestClasses | src/main/java/com/r3/testing/TestPlanUtils.java:19-23 | listing classes throws NullPointerException iff some collected name is null; otherwise a name is listed iff it was collected and has no `()` |
| TestPlan.TestMethods | src/main/java/com/r3/testing/TestPlanUtils.java:30-35 | listing methods throws NullPointerException iff some collected name is null; otherwise a name is listed iff it is some collected name with `()`, with every `()` removed |
| TestPlan.JUnitNamesListed | src/test/java/com/r3/testing/JUnit5LauncherTest.java:33-37 | when listing succeeds, a JUnit class holding a method is listed as a class, and the method as `class.method` |
| ListTests.Distribution | src/main/java/com/r3/testing/ListTests.java:30-31 | an absent or empty property means METHOD; any other value must name the constant it selects, or IllegalArgumentException |
| ListTests.DistributionNameSelects | src/main/java/com/r3/testing/ListTests.java:30-31 | naming either constant selects it |
| ListTests.DistributionAccepts | src/main/java/com/r3/testing/ListTests.java:30-31 | a value is accepted iff it is empty, `METHOD` or `CLASS` |
| ListTests.DiscoverTests | src/main/java/com/r3/testing/ListTests.java:48-65 | discovery fails with NullPointerException iff some collected name is null; by class a name is kept iff collected without a marker; by method iff it is a collected marked name with the marker removed |
| ListTests.RunnerInPlanFailsDiscovery | src/main/java/com/r3/testing/ListTests.java:48-65 | a plan holding a vintage runner below its first engine fails discovery with NullPointerException, by class and by method alike |
| ListTests.DiscoverNamesJUnitTests | src/main/java/com/r3/testing/ListTests.java:48-65 | a JUnit class with a method is offered as `cls.meth` by method and as `cls` by class |
| ListTests.SeedToUse | src/main/java/com/r3/testing/ListTests.java:39 | without a seed, 0; otherwise seed + path hash + revision, modulo 2^32 |
| ListTests.TestsForFork | src/main/java/com/r3/testing/ListTests.java:33-41 | an unreadable revision fails with NumberFormatException first; then the request fails with IllegalArgumentException iff `fork >= forks`; otherwise it is the allocator's answer for the seed built from the request seed, the task path and the revision's base-36 value cut to an `int` (0 without a revision) |
| ListTests.DefaultRevisionAddsNothing | src/main/java/com/r3/testing/ListTests.java:34-35 | without a revision property the revision adds nothing to the seed |
| ListTests.UnseededRequestsIgnorePath | src/main/java/com/r3/testing/ListTests.java:39 | without a seed the answer does not depend on the task path |
| ListTests.NegativeForkPassesTheCheck | src/main/java/com/r3/testing/ListTests.java:36-38 | a negative fork index passes the one-sided bounds check |
| ListTests.BadRevisionFailsFirst | src/main/java/com/r3/testing/ListTests.java:34-38 | an unreadable revision fails before the fork index is checked |
| TaskNaming.Capitalize | distributed-testing-plugin/src/main/java/com/r3/testing/DistributedTesting.java:405-407 | fails iff the name is empty; otherwise same length, same tail, and the first letter is not lower-case |
| TaskNaming.CapitalizeIdempotent | distributed-testing-plugin/src/main/java/com/r3/testing/DistributedTesting.java:405-407 | capitalising twice changes nothing more |
| TaskNaming.NewTaskName | src/main/java/com/r3/testing/DistributedTestingProject.java:136-139 | fails iff the name is empty; otherwise the prefix followed by the name with only its first letter changed |
| TaskNaming.TasksForTest | src/test/java/com/r3/testing/KubernetizerTest.java:25-28 | a task `test` gets `listTestsForTest`, `printTestsForTest` and `parallelTest` |
| TaskNaming.TaskNamesKeepTheRest | src/main/java/com/r3/testing/DistributedTestingSubProject.java:62-65 | names whose tails differ get different task names under one prefix |
| TaskNaming.UserDefinedNamesCanCollide | src/main/java/com/r3/testing/DistributedTestingProject.java:120-126 | the group `reportsA`'s test task and the group `a`'s reports task get the same name |
| TaskNaming.AllocationTaskNamesDiffer | src/main/java/com/r3/testing/DistributedTestingProject.java:112-118 | a group's pre- and de-allocation task names always differ |
| TaskNaming.ClassesTaskName | src/main/java/com/r3/testing/DistributedTestingSubProject.java:50-52 | the task name followed by `Classes` |
| TaskNaming.ReportsDir | src/main/java/com/r3/testing/DistributedTestingSubProject.java:54-56 | under `/test-runs/test-reports/`, ending with `-<task>` |
| TaskNaming.ReportsDirsDiffer | src/main/java/com/r3/testing/DistributedTestingSubProject.java:54-56 | two tasks of one sub-project report into different directories |
| TaskNaming.UserDefinedReportsDir | src/main/java/com/r3/testing/DistributedTestingProject.java:132-134 | the root build directory joined with the group's reports task name; fails iff that name does |
| TaskNaming.PropertyAsInt | src/main/java/com/r3/testing/DistributedTestingProject.java:31-33 | the default when absent; NumberFormatException iff present and not an `int`; otherwise the parsed value of the property |
| TaskNaming.PropertyReadBack | src/main/java/com/r3/testing/DistributedTestingProject.java:31-33 | a property set to a printed `int` reads back as that `int`, whatever the default |
| TaskNaming.GlobalAllocatorForks | src/main/java/com/r3/testing/DistributedTestingProject.java:44-46 | without `dockerForks`, one fork; with it, the parsed value, or NumberFormatException when it is not an `int` |
| TaskNaming.PrintedTests | src/main/java/com/r3/testing/TestDistributor.java:97-102 | an unreadable fork index or fork count fails the print task |
| TaskNaming.PrintDefaults | src/main/java/com/r3/testing/TestDistributor.java:97-102 | with no properties the print task shows fork 0 of 1, with seed 42 plus the path hash |
| TaskNaming.PrintForkOutOfRange | src/main/java/com/r3/testing/TestDistributor.java:97-102 | asking for fork `n` of `n` fails the bounds check |
| SupportedDatabase.AsLowerCase | src/main/java/com/r3/testing/SupportedDatabase.java:13-15 | the lower-case name has the constant name's length |
| SupportedDatabase.LowerCaseNames | src/main/java/com/r3/testing/SupportedDatabase.java:11-65 | the names are `postgres`, `mssql` and `azure`, and they tell the databases apart |
| SupportedDatabase.ContainerSuffix | src/main/java/com/r3/testing/SupportedDatabase.java:17-59 | Azure has no sidecar (IllegalStateException); the others have `-` and their initial |
| SupportedDatabase.SuffixesDiffer | src/main/java/com/r3/testing/SupportedDatabase.java:18-39 | the two sidecar suffixes differ |
| SupportedDatabase.PasswordParts | src/main/java/com/r3/testing/SupportedDatabase.java:76-77 | at most one part per argument, and no part holds `=` |
| SupportedDatabase.MssqlPassword | src/main/java/com/r3/testing/SupportedDatabase.java:71-79 | fails with IllegalArgumentException iff no argument mentions the password key |
| SupportedDatabase.NoPartsWithoutKey | src/main/java/com/r3/testing/SupportedDatabase.java:76-77 | arguments that never mention the key contribute no part |
| SupportedDatabase.PasswordHasNoEquals | src/main/java/com/r3/testing/SupportedDatabase.java:76-77 | a password that is read never contains `=` |
| SupportedDatabase.PasswordRead | src/main/java/com/r3/testing/SupportedDatabase.java:71-79 | one `key=pw` argument among unrelated ones yields `pw` |
| SupportedDatabase.ArgWithoutEqualsKeptWhole | src/main/java/com/r3/testing/SupportedDatabase.java:76-77 | a password argument without `=` is taken whole |
| SupportedDatabase.TwoPasswordArgsConcatenate | src/main/java/com/r3/testing/SupportedDatabase.java:76-77 | two password arguments are run together in order |
| SupportedDatabase.EnvVars | src/main/java/com/r3/testing/SupportedDatabase.java:23-64 | Postgres trusts every host; Azure has no variables; MSSQL accepts the EULA and carries the password, failing iff the password cannot be found |
| SupportedDatabase.MssqlContainerGetsThePassword | src/main/java/com/r3/testing/SupportedDatabase.java:42-48 | an MSSQL group configured with one password argument hands that password to the container |
| InfrastructureProfile.Set | src/main/java/com/r3/testing/InfrastructureProfile.java:13-51 | a setter's getter then returns the value given, unvalidated, and no other getter changes |
| InfrastructureProfile.LastSettingWins | src/main/java/com/r3/testing/InfrastructureProfile.java:13-51 | each getter returns the last value its setter was given |
| InfrastructureProfile.UnsetFieldKept | src/main/java/com/r3/testing/InfrastructureProfile.java:7-11 | a field no call sets keeps its initial value |
| InfrastructureProfile.OnlyShardsSet | src/main/java/com/r3/testing/InfrastructureProfile.java:7-11 | a fresh profile given only a shard count keeps the defaults 4 cores, 4 GB, streamed output, no taints |
| PluginTestGroup.Apply | distributed-testing-plugin/src/main/java/com/r3/testing/ParallelTestGroup.java:77-128 | a setter stores its value; the list calls append their items; no other field changes |
| PluginTestGroup.LastSettingWins | distributed-testing-plugin/src/main/java/com/r3/testing/ParallelTestGroup.java:26-100 | each scalar getter returns the value of the last call to its setter |
| PluginTestGroup.UntouchedFieldKept | distributed-testing-plugin/src/main/java/com/r3/testing/ParallelTestGroup.java:15-24 | a field no call touches keeps its default |
| PluginTestGroup.ListsOnlyGrow | distributed-testing-plugin/src/main/java/com/r3/testing/ParallelTestGroup.java:102-128 | groups, extra arguments and taints hold their initial items, then every item added, in call order |
| PluginTestGroup.TestGroupsInOrder | distributed-testing-plugin/src/main/java/com/r3/testing/ParallelTestGroup.java:102-108 | `testGroups(a, b)` on a fresh group gives exactly `[a, b]` |
| SrcTestGroup.Apply | src/main/java/com/r3/testing/ParallelTestGroup.java:54-88 | `profile(p)` and the setters replace; `testGroups` and `additionalArgs` append; no other field changes |
| SrcTestGroup.LastSettingWins | src/main/java/com/r3/testing/ParallelTestGroup.java:54-88 | each replacing call's value stands until the next call to the same method |
| SrcTestGroup.ListsOnlyGrow | src/main/java/com/r3/testing/ParallelTestGroup.java:70-88 | groups and extra arguments hold every item added, in call order |
| SrcTestGroup.FromProfile | src/main/java/com/r3/testing/ParallelTestGroup.java:26-40 | a resource getter fails with NullPointerException iff there is no profile |
| SrcTestGroup.ReadsTheLastProfile | src/main/java/com/r3/testing/ParallelTestGroup.java:26-60 | a group reads each resource from the last setting of the last profile handed to it |
| SrcTestGroup.NoProfileNoResources | src/main/java/com/r3/testing/ParallelTestGroup.java:11-40 | without any `profile(...)` call, every resource getter fails |
| ImageBuilding.MarkerLengths | distributed-testing-plugin/src/main/java/com/r3/testing/ImageBuilding.java:61-62 | the fixed `substring` offsets 23 and 31 are the markers' lengths |
| ImageBuilding.Property | distributed-testing-plugin/src/main/java/com/r3/testing/ImageBuilding.java:46 | a property is missing iff no entry has that name |
| ImageBuilding.LastForwardedWins | distributed-testing-plugin/src/main/java/com/r3/testing/ImageBuilding.java:59-67 | a forwarded key carries the value of the last property forwarded under it |
| ImageBuilding.OnlyForwardedKeys | distributed-testing-plugin/src/main/java/com/r3/testing/ImageBuilding.java:95-103 | nothing is forwarded under a key that no property name yields |
| ImageBuilding.BuildArgForwarded | distributed-testing-plugin/src/main/java/com/r3/testing/ImageBuilding.java:59-67 | `docker.image.build.arg.K=v` becomes build argument `K=v` |
| ImageBuilding.MarkerInsideNameIsCutEarly | distributed-testing-plugin/src/main/java/com/r3/testing/ImageBuilding.java:61-62 | a name with text before the marker is forwarded under a key that keeps part of the marker |
| ImageBuilding.Dockerfile | distributed-testing-plugin/src/main/java/com/r3/testing/ImageBuilding.java:58 | the Dockerfile is `testing/` followed by `docker.dockerfile` when that is set, and `testing/Dockerfile` otherwise |
| ImageBuilding.WorkDir | distributed-testing-plugin/src/main/java/com/r3/testing/ImageBuilding.java:74-76 | a non-empty `docker.work.dir` is the base; otherwise `java.io.tmpdir`; NullPointerException iff both are unusable |
| ImageBuilding.EmptyWorkDirFallsBack | distributed-testing-plugin/src/main/java/com/r3/testing/ImageBuilding.java:74-76 | an empty work directory counts as unset |
| ImageBuilding.WorkDirWins | distributed-testing-plugin/src/main/java/com/r3/testing/ImageBuilding.java:74-76 | a non-empty work directory wins |
| ImageBuilding.CacheBinds | distributed-testing-plugin/src/main/java/com/r3/testing/ImageBuilding.java:91-94 | `<base>/gradle` is bound to `/tmp/gradle` and `<base>/maven` to `/home/root/.m2`, two distinct host directories |
| ImageBuilding.BaseImageTag | distributed-testing-plugin/src/main/java/com/r3/testing/ImageBuilding.java:43-47 | the value of `docker.buildbase.tag` when set, and `latest` otherwise |
| ImageBuilding.ImageTag | distributed-testing-plugin/src/main/java/com/r3/testing/ImageBuilding.java:141 | the build tag if set, even empty; else the first 12 characters of a UUID, lower-cased |
| ImageBuilding.Pushed | distributed-testing-plugin/src/main/java/com/r3/testing/ImageBuilding.java:146-151 | the pushed image goes to the registry with the tag task's tag: `docker.build.tag` when set, else the lower-cased first 12 UUID characters |
| ImageBuilding.CheckBuildExit | distributed-testing-plugin/src/main/java/com/r3/testing/ImageBuilding.java:124-128 | the build passes iff the container exits with 0, else GradleException |
| ImageBuilding.EmptyKeepImageStillKeeps | distributed-testing-plugin/src/main/java/com/r3/testing/ImageBuilding.java:177-179 | even an empty `docker.keep.image` keeps the image |
| ImageBuilding.CleansUpAfterPush | distributed-testing-plugin/src/main/java/com/r3/testing/ImageBuilding.java:177-179 | the clean-up tasks run iff no property is named `docker.keep.image` |
| GroupConfig.TestTasks | distributed-testing-plugin/src/main/java/com/r3/testing/DistributedTesting.java:59-73 | exactly the `Test` tasks among the candidates |
| GroupConfig.Named | distributed-testing-plugin/src/main/java/com/r3/testing/DistributedTesting.java:66 | exactly the tasks with that name |
| GroupConfig.GroupingByName | distributed-testing-plugin/src/main/java/com/r3/testing/DistributedTesting.java:59-73 | a name is a key iff some task has it, and its list is that name's tasks in order |
| GroupConfig.GroupTests | src/main/java/com/r3/testing/ParallelTestGroupConfigurer.java:29-31 | the lookup succeeds iff every listed name is a key, and a missing name throws NullPointerException |
| GroupConfig.GroupOfOne | src/main/java/com/r3/testing/ParallelTestGroupConfigurer.java:29-31 | one name contributes exactly its group |
| GroupConfig.GroupTestsAppend | src/main/java/com/r3/testing/ParallelTestGroupConfigurer.java:29-31 | listing `a` then `b` runs `a`'s tasks, then `b`'s |
| GroupConfig.GroupRunsOnlyItsTests | src/main/java/com/r3/testing/DistributedTestingProject.java:92-102 | every task a group runs is a `Test` task whose name the group lists |
| GroupConfig.GroupRunsAllItsTests | src/main/java/com/r3/testing/DistributedTestingProject.java:92-102 | every `Test` task whose name a group lists is run by the group |
| GroupConfig.Paths | src/main/java/com/r3/testing/ParallelTestGroupConfigurer.java:34-36 | one path per task, in order |
| GroupConfig.SuperListSplitsBack | src/main/java/com/r3/testing/ParallelTestGroupConfigurer.java:34-36 | splitting the task list at spaces gives back the paths when none contains a space |
| GroupConfig.TaskToExecuteNameIsAmbiguous | src/main/java/com/r3/testing/ParallelTestGroupConfigurer.java:78 | group names that contain `And` can give two groups one task name |
| GroupConfig.TaskToExecuteNameNamesEveryGroup | src/main/java/com/r3/testing/ParallelTestGroupConfigurer.java:78 | the executing task's name contains every group name of the group |
| GroupConfig.DockerTag | src/main/java/com/r3/testing/ParallelTestGroupConfigurer.java:86-88 | with a run tag, the registry image with that tag; without one, the pushed image with its tag |
| GroupConfig.RunTagOfTheBuildNamesThePushedImage | distributed-testing-plugin/src/main/java/com/r3/testing/DistributedTesting.java:139-141 | running with the tag just built names the same image as giving no run tag |
| GroupConfig.Wire | src/main/java/com/r3/testing/ParallelTestGroupConfigurer.java:40-73 | fails iff the group name is empty; the build waits for the pre-allocation iff the push is followed by the de-allocation, iff that task was requested; the tests wait for the push iff no run tag, and for the de-allocation iff it was requested |
| GroupConfig.NothingRequestedNoAllocation | src/main/java/com/r3/testing/ParallelTestGroupConfigurer.java:45-48 | requesting nothing adds no allocation dependency |
| GroupConfig.AllocationSeed | src/main/java/com/r3/testing/ParallelTestGroupConfigurer.java:108-112 | fails with GradleException iff the tag is missing; else the tag's and the group's hash polynomials summed modulo 2^32 |
| GroupConfig.DeAllocateTag | src/main/java/com/r3/testing/ParallelTestGroupConfigurer.java:125-127 | a non-empty run tag is used whatever the build tag is; otherwise the build tag; missing iff the run tag is empty and the build tag missing |
| GroupConfig.SrcSettings | src/main/java/com/r3/testing/ParallelTestGroup.java:26-40 | reading a group's settings fails with NullPointerException iff it has no profile |
| GroupConfig.SettingsAgree | src/main/java/com/r3/testing/ParallelTestGroupConfigurer.java:75-85 | a profiled group with the plugin group's values configures its task exactly like the plugin group |
| GroupConfig.FreshGroupsAgreeOnceProfiled | src/main/java/com/r3/testing/ParallelTestGroup.java:11-16 | fresh groups of the two kinds agree once the second is given a default profile |
| GroupConfig.PreAllocate | src/main/java/com/r3/testing/ParallelTestGroupConfigurer.java:105-120 | fails iff the build tag is missing; books the group's shards, cores, memory and taints under the prefix drawn from the seed |
| GroupConfig.DeAllocate | src/main/java/com/r3/testing/ParallelTestGroupConfigurer.java:122-135 | fails iff no tag is found; tears down the prefix drawn from the seed of the tag found |
| GroupConfig.TearDownFindsTheBookedPods | src/main/java/com/r3/testing/ParallelTestGroupConfigurer.java:105-135 | with no run tag, or the build tag repeated as run tag, the tear-down targets exactly the booked prefix |
| GroupConfig.RunTagDecidesTheTearDown | src/main/java/com/r3/testing/ParallelTestGroupConfigurer.java:122-135 | with a non-empty run tag the tear-down prefix is the one seeded by the run tag, whatever the build tag |
| GroupConfig.DifferentTagsCanShareAPrefix | src/main/java/com/r3/testing/ParallelTestGroupConfigurer.java:112 | two different build tags give one group the same seed |
| GroupConfig.ConfigureGroup | src/main/java/com/r3/testing/ParallelTestGroupConfigurer.java:28-89 | a missing group name throws first, an empty group name next, then a missing profile (with that error); success iff none of these; the task name is the user-defined name of the group, it runs the group's paths, its execute name joins the groups with `And`, it copies the nine profile settings, and it has the wiring and image above |
| GroupConfig.TaskTakesLastSetting | src/main/java/com/r3/testing/ParallelTestGroupConfigurer.java:75-85 | a configured group's task carries the last value given to each single-valued setting |
| GroupConfig.PluginGroupConfigures | distributed-testing-plugin/src/main/java/com/r3/testing/DistributedTesting.java:97-142 | a plugin group configures whenever its names are known and its name is not empty |
| GroupConfig.UnprofiledGroupFails | src/main/java/com/r3/testing/ParallelTestGroupConfigurer.java:75-85 | a group never given a profile fails once its tests are found |
| GroupConfig.ParallelTaskFor | src/main/java/com/r3/testing/TestDistributor.java:174-192 | fails iff the task name is empty; named `parallel...`, always streams output, waits for the push iff no run tag |
| GroupConfig.ParallelTaskIsAOneTaskGroup | distributed-testing-plugin/src/main/java/com/r3/testing/DistributedTesting.java:200-219 | a single task's parallel run has the command, image and push dependency of a one-task group |
| GroupConfig.ParallelTargets | distributed-testing-plugin/src/main/java/com/r3/testing/DistributedTesting.java:268-290 | a parallel task exists exactly for each `Test` task not opted out |

## Left out

- Kubernetes client calls are left out: creating pods, exec sessions, copying files and
  deleting pods. Each attempt's outcome is a `PodRun` value, and the recovery pod is a
  `Recovery` value. The unbounded poll that waits for a pod's deletion is not modelled.
- Concurrency is left out: the thread pool, futures and the synchronised lists. Shards
  are evaluated one after another, in index order.
- `java.util.Random` and `new BigInteger(64, rnd).toString(36)` become a parameter
  `rnd: Int32 -> string`. The model only relies on it being a function of the seed.
- `UUID.randomUUID()` is a 36-character parameter.
- The test allocator (`BucketingAllocatorTask`, `ListShufflerAndAllocator`) is a function
  parameter. So are `PodAllocator`'s pod booking and tear-down, beyond the request they receive.
- These are not part of this model: `KubesReporting`, the zip and upload tasks,
  `TestDurationArtifacts`, `Properties.setRootProjectType`, `DistributeTestsBy.java` and
  `PodLogLevel.java`. The model's enums stand in for the last two.
- The Azure SQL actions (`AzureSQLPreTestAction`, `AzureSQLPostTestAction`,
  `tearDownAzureSQLDbs`) are left out. They are external service calls.
- JUnit discovery itself is left out. A test plan is given as a tree of unique ids.
- File I/O is left out. The ledger is a string and a downloaded folder is an `Entry` tree.
  `File.getAbsolutePath` resolution is not modelled: paths are joined with `/`.
- Gradle's task graph is not modelled beyond the dependency flags a group sets. This covers
  task registration, lazy configuration and `afterEvaluate` ordering.
- System-property iteration order is an input, the order of the property sequence.
  HashSet iteration order and the shared-versus-copied lists are not modelled. Examples are
  `getNodeTaints` returning the live list and `getAllTestsDiscovered` returning a copy.
- Logging, `printStackTrace` and the `InterruptedException` of `Thread.sleep` are left out.
- Non-ASCII case mapping and UTF-16 hashing are left out. `toLowerCase`/`toUpperCase` act on
  ASCII letters. `hashCode` treats each character as one code unit.
- `Files.readAllLines` treating `\r` as a line end is left out; only `\n` ends a line. In
  `replaceAll(".*=", "")`, `.` not matching line terminators is also left out.
- JavaNumbers.ParseInt / JavaNumbers.ParseBase36IntValue: digits are ASCII only. Java reads
  digits through `Character.digit`, which also accepts other Unicode decimal digits and
  full-width letters, so `Integer.parseInt("٣")` is 3 where the model fails.
- ImageBuilding.Property: states only when a property is missing. With duplicate names it
  returns the first, which `java.util.Properties` cannot hold anyway.
- TaskNaming.PrintedTests: states only its failure cases. Its success value is pinned
  down by `TaskNaming.PrintDefaults` and `TaskNaming.PrintForkOutOfRange`.
- TestFilter.PluginFilter: states only that it succeeds. Its value is the distributor's
  filter, which `TestFilter.RestartSkipsPassedTests` characterises.
- ShardAttempts: the attempt rule compares the count of non-zero exits, not of attempts,
  with the budget. It is modelled as written, and `InfrastructureFailureUsesUpTheBudget`
  shows the consequence. It is not claimed as a defect, since the intent is not evident.
- SrcTestGroup.ReadsTheLastProfile: `profile(p)` keeps a reference to `p`, so setter calls
  made on `p` after the hand-over are still seen by the group. The model copies the
  profile's value at the hand-over, so such later calls are not modelled.
- The volume claim's specification (access mode, 100Mi request, storage class) and the
  shutdown hooks that delete claims and pods are left out. Whether creating a shard's claim
  failed is an input, `ShardEnv.pvc`.
- GroupConfig.ConfigureGroup: follows the configurer's three-parameter signature and its
  lookup order (`src/main/java/com/r3/testing/ParallelTestGroupConfigurer.java:28-31`). The call
  site in `src/main/java/com/r3/testing/DistributedTestingProject.java:97-101` passes two
  arguments and does its own lookup; that mismatched call is not modelled.
- ImageBuilding: markers are matched with `contains` but cut at a fixed offset. This is
  modelled as written (`MarkerInsideNameIsCutEarly`) and not claimed as a defect.

## Findings

| source | as written | input that shows it | evidently intended | confidence | as-written member | corrected member |
|---|---|---|---|---|---|---|
| src/main/java/com/r3/testing/TestDistributor.java:124-136 | a passing test's `class.name` is appended to the ledger with no line separator | two passing tests `a.B.t` and `a.B.u`: the ledger reads back as the single line `a.B.ta.B.u` | one entry per line, so `readAllLines` gives back each passed test | not executed | Ledger.AppendAsWritten, Ledger.PassesRunTogether | Ledger.AppendLine, Ledger.RecordRoundTrip |
| distributed-testing-plugin/src/main/java/com/r3/testing/DistributedTesting.java:316-339 | the result of `String.join("*", executedTests)` is discarded, so raw ledger lines are compared with starred include patterns | ledger `a.B.t` and include `a.B.t*`: the passed test is included again and nothing is excluded | star each ledger entry, as the distributor's copy does, so passed tests are excluded on restart | not executed | TestFilter.PluginFilterAsWritten, TestFilter.PluginAsWrittenMissesAPassedTest | TestFilter.PluginFilter, TestFilter.RestartSkipsPassedTests |
| src/main/java/com/r3/testing/KubesTest.java:423-435 | the worker-only pod's memory request is `memoryGbPerFork` with no unit, which Kubernetes reads as bytes | `memoryGbPerFork = 6`: the pod asks for 6 bytes, while the sidecar shape asks for 6 GiB in total | request `memoryGbPerFork` GiB, as the sidecar shape does | not executed | PodShape.BuildPodRequest, PodShape.WorkerOnlyMemoryIsBytes | PodShape.BuildPodRequestCorrected, PodShape.CorrectedPodRequestsTheBudget |

=== FILE: aggregation.dfy ===
/**
 * `KubesTest.runDistributedTests` after the pods are named: one shard per index, each run
 * through `ShardAttempts.ExecuteShard` with three attempts, then the results gathered in
 * index order.
 */
module Aggregation {
  import opened Wrappers
  import opened JavaNumbers
  import opened ShardAttempts

  /**
   * What the cluster does to one shard: whether creating its volume claim throws, its
   * attempts and its recovery pod.
   */
  datatype ShardEnv = ShardEnv(pvc: Option<Throwable>, attempts: nat -> PodRun, recovery: Recovery)

  /** The task's results: `containerResults` and `testOutput`. */
  datatype RunResult = RunResult(containerResults: seq<KubePodResult>, testOutput: seq<string>)

  /** The log file of shard `i`: `<buildDir>/pod-logs/<task>/container-<i>.log`. */
  function LogFile(buildDir: string, task: string, i: int): string {
    buildDir + "/pod-logs/" + task + "/container-" + IntToString(i) + ".log"
  }

  /** The number of shards `IntStream.range(0, numberOfPods)` yields. */
  function ShardCount(numberOfPods: int): nat {
    if numberOfPods < 0 then 0 else numberOfPods
  }

  /** The in-order concatenation of a list of lists (`flatMap(Collection::stream)`). */
  function Flatten(xss: seq<seq<string>>): seq<string> {
    if |xss| == 0 then [] else xss[0] + Flatten(xss[1..])
  }

  function SumOfLengths(xss: seq<seq<string>>): nat {
    if |xss| == 0 then 0 else |xss[0]| + SumOfLengths(xss[1..])
  }

  /** Flattening keeps every element of every list, and nothing else. */
  lemma {:induction false} FlattenContents(xss: seq<seq<string>>)
    ensures |Flatten(xss)| == SumOfLengths(xss)
    ensures forall x :: x in Flatten(xss) <==> exists i :: 0 <= i < |xss| && x in xss[i]
  {
    FlattenLength(xss);
    forall x | x in Flatten(xss)
      ensures exists i :: 0 <= i < |xss| && x in xss[i]
    {
      var i := FlattenedFrom(xss, x);
    }
    forall x, i | 0 <= i < |xss| && x in xss[i]
      ensures x in Flatten(xss)
    {
      FlattenKeeps(xss, x, i);
    }
  }

  lemma {:induction false} FlattenLength(xss: seq<seq<string>>)
    ensures |Flatten(xss)| == SumOfLengths(xss)
  {
    if |xss| > 0 {
      FlattenLength(xss[1..]);
    }
  }

  /** An element of the flattened list comes from one of the lists, whose index is returned. */
  lemma {:induction false} FlattenedFrom(xss: seq<seq<string>>, x: string) returns (i: int)
    requires x in Flatten(xss)
    ensures 0 <= i < |xss| && x in xss[i]
  {
    assert Flatten(xss) == xss[0] + Flatten(xss[1..]);
    if x in xss[0] {
      i := 0;
    } else {
      var j := FlattenedFrom(xss[1..], x);
      assert xss[1..][j] == xss[j + 1];
      i := j + 1;
    }
  }

  lemma {:induction false} FlattenKeeps(xss: seq<seq<string>>, x: string, i: int)
    requires 0 <= i < |xss| && x in xss[i]
    ensures x in Flatten(xss)
  {
    assert Flatten(xss) == xss[0] + Flatten(xss[1..]);
    if i > 0 {
      assert xss[1..][i - 1] == xss[i];
      FlattenKeeps(xss[1..], x, i - 1);
    }
  }

  /** The binary-results folders of each result, in order. */
  function FilesOf(results: seq<KubePodResult>): (files: seq<seq<string>>)
    ensures |files| == |results|
    ensures forall i :: 0 <= i < |results| ==> files[i] == results[i].binaryResults
  {
    seq(|results|, i requires 0 <= i < |results| => results[i].binaryResults)
  }

  /** The shard with index `i`, submitted with three attempts. */
  function Shard(buildDir: string, task: string, envs: nat -> ShardEnv, i: nat): ShardRun {
    SubmitBuild(i, NumberOfRetries, LogFile(buildDir, task, i), envs(i).pvc, envs(i).attempts, envs(i).recovery)
  }

  /** The shards of a run, in index order. */
  function Shards(numberOfPods: int, buildDir: string, task: string, envs: nat -> ShardEnv): (runs: seq<ShardRun>)
    ensures |runs| == ShardCount(numberOfPods)
    ensures forall i: nat :: i < |runs| ==> runs[i] == Shard(buildDir, task, envs, i)
  {
    seq(ShardCount(numberOfPods), (i: nat) => Shard(buildDir, task, envs, i))
  }

  predicate AllCompleted(runs: seq<ShardRun>) {
    forall i :: 0 <= i < |runs| ==> runs[i].outcome.Completed?
  }

  /**
   * Gathering the futures: any aborted shard fails the task with `InvalidUserCodeException`;
   * otherwise the results come back one per shard, in index order, each carrying its
   * own index and log file, and the test output is their files in the same order.
   */
  function RunDistributedTests(numberOfPods: int, buildDir: string, task: string, envs: nat -> ShardEnv): (r: Result<RunResult, Exc>)
    ensures r.Failure? <==> !AllCompleted(Shards(numberOfPods, buildDir, task, envs))
    ensures r.Failure? ==> r.error == InvalidUserCode
    ensures r.Success? ==>
      && |r.value.containerResults| == ShardCount(numberOfPods)
      && (forall i: nat :: i < |r.value.containerResults| ==>
            r.value.containerResults[i] == Shard(buildDir, task, envs, i).outcome.result)
      && (forall i :: 0 <= i < |r.value.containerResults| ==>
            && r.value.containerResults[i].podIdx == i
            && r.value.containerResults[i].output == LogFile(buildDir, task, i))
      && r.value.testOutput == Flatten(FilesOf(r.value.containerResults))
  {
    var runs := Shards(numberOfPods, buildDir, task, envs);
    if AllCompleted(runs) then
      var results := seq(|runs|, i requires 0 <= i < |runs| => runs[i].outcome.result);
      Success(RunResult(results, Flatten(FilesOf(results))))
    else
      Failure(InvalidUserCode)
  }

  /** A result file of any shard is in the task's test output, and every output file comes from some shard. */
  lemma TestOutputCollectsEveryShard(numberOfPods: int, buildDir: string, task: string, envs: nat -> ShardEnv)
    requires RunDistributedTests(numberOfPods, buildDir, task, envs).Success?
    ensures var res := RunDistributedTests(numberOfPods, buildDir, task, envs).value;
      forall f :: f in res.testOutput <==>
        exists i :: 0 <= i < |res.containerResults| && f in res.containerResults[i].binaryResults
  {
    var res := RunDistributedTests(numberOfPods, buildDir, task, envs).value;
    FlattenContents(FilesOf(res.containerResults));
  }

  /**
   * A shard whose claim was created and whose attempt `k` returned after only caught
   * failures is reported with exactly that attempt's result, and so its exit code and folders.
   */
  lemma ReturnedAttemptIsReported(numberOfPods: int, buildDir: string, task: string, envs: nat -> ShardEnv, i: nat, k: nat)
    requires RunDistributedTests(numberOfPods, buildDir, task, envs).Success?
    requires i < ShardCount(numberOfPods) && envs(i).pvc.None? && k < NumberOfRetries
    requires CaughtBefore(i, NumberOfRetries, LogFile(buildDir, task, i), envs(i).attempts, k)
    requires Attempt(i, NumberOfRetries, LogFile(buildDir, task, i), envs(i).attempts, k).Returned?
    ensures RunDistributedTests(numberOfPods, buildDir, task, envs).value.containerResults[i]
         == Attempt(i, NumberOfRetries, LogFile(buildDir, task, i), envs(i).attempts, k).value
  {
    ReturningAttemptCompletes(i, NumberOfRetries, LogFile(buildDir, task, i), envs(i).attempts, envs(i).recovery, k);
  }

  /** A shard whose volume claim cannot be created fails the whole task. */
  lemma FailedClaimFailsTheTask(numberOfPods: int, buildDir: string, task: string, envs: nat -> ShardEnv, i: nat)
    requires i < ShardCount(numberOfPods) && envs(i).pvc.Some?
    ensures RunDistributedTests(numberOfPods, buildDir, task, envs) == Failure(InvalidUserCode)
  {
    assert !Shards(numberOfPods, buildDir, task, envs)[i].outcome.Completed?;
  }

  /**
   * When every pod of every shard starts and reports cleanly, the task never fails, and
   * every shard's code is 0 unless the shard used all its attempts.
   */
  lemma CleanClusterSucceeds(numberOfPods: int, buildDir: string, task: string, envs: nat -> ShardEnv)
    requires forall i :: 0 <= i < ShardCount(numberOfPods) ==> envs(i).pvc.None?
    requires forall i, k :: 0 <= i < ShardCount(numberOfPods) && 0 <= k < NumberOfRetries ==> Clean(envs(i).attempts(k))
    ensures RunDistributedTests(numberOfPods, buildDir, task, envs).Success?
    ensures forall i :: 0 <= i < ShardCount(numberOfPods) ==>
      var run := Shards(numberOfPods, buildDir, task, envs)[i];
      run.outcome.Completed? && (run.outcome.result.resultCode == 0 || run.attempts == NumberOfRetries)
  {
    var runs := Shards(numberOfPods, buildDir, task, envs);
    forall i | 0 <= i < |runs|
      ensures runs[i].outcome.Completed? && (runs[i].outcome.result.resultCode == 0 || runs[i].attempts == NumberOfRetries)
    {
      CleanAttemptsNeverExhaust(i, NumberOfRetries, LogFile(buildDir, task, i), envs(i).attempts, envs(i).recovery);
    }
  }
}

=== FILE: build_args.dfy ===
/**
 * The arguments a shard's remote Gradle build receives (`KubesTest.getBuildCommand` and
 * its helpers): the database-name placeholder rewritten per pod, the logging flag, and the
 * fork flags that tell the worker which shard it is.
 */
module BuildArgs {
  import opened Wrappers
  import opened JavaInt
  import opened JavaStrings
  import opened JavaNumbers

  /** The database name that extra arguments use as a placeholder. */
  const Placeholder: string := "corda-db-test"

  /** The database a pod's build uses instead of the placeholder. */
  function PodDatabase(podName: string): string {
    podName + "-db"
  }

  /** `reworkDbNameForASQL`: every argument with every placeholder replaced, in order. */
  function ReworkDbNames(args: seq<string>, podName: string): (r: seq<string>)
    ensures |r| == |args|
    ensures forall i :: 0 <= i < |args| ==> r[i] == ReplaceAll(args[i], Placeholder, PodDatabase(podName))
  {
    seq(|args|, i requires 0 <= i < |args| => ReplaceAll(args[i], Placeholder, PodDatabase(podName)))
  }

  /** `getAdditionalArgs`: "" for no arguments, else the rewritten arguments joined by spaces. */
  function AdditionalArgs(args: seq<string>, podName: string): (r: string)
    ensures r == Join(" ", ReworkDbNames(args, podName))
  {
    if |args| == 0 then "" else Join(" ", ReworkDbNames(args, podName))
  }

  /** Arguments that never mention the placeholder pass through unchanged. */
  lemma ReworkWithoutPlaceholder(args: seq<string>, podName: string)
    requires forall i :: 0 <= i < |args| ==> !Contains(args[i], Placeholder)
    ensures ReworkDbNames(args, podName) == args
  {
    forall i | 0 <= i < |args|
      ensures ReworkDbNames(args, podName)[i] == args[i]
    {
      ReplaceAllWithoutMatch(args[i], Placeholder, PodDatabase(podName));
    }
  }

  /**
   * An argument ending in the placeholder, such as
   * `-Dtest.db.url=jdbc:sqlserver://h;databaseName=corda-db-test`, points at the pod's own
   * database afterwards, provided no earlier occurrence of the placeholder starts in front of it.
   */
  lemma PlaceholderArgumentRewritten(prefix: string, podName: string)
    requires NoOccurrenceIn(prefix + Placeholder, Placeholder, 0, |prefix|)
    ensures ReworkDbNames([prefix + Placeholder], podName) == [prefix + PodDatabase(podName)]
  {
    var p, r := Placeholder, PodDatabase(podName);
    ReplaceAllAfterPrefix(prefix, p, p, r);
    ReplaceWholeTarget(p, r);
  }

  /**
   * A prefix whose one `c` is not followed by `o`, such as the `jdbc` of a connection URL,
   * cannot hide an occurrence of the placeholder, so the argument is redirected.
   */
  lemma PrefixWithOneCRewritten(a: string, b: string, podName: string)
    requires 'c' !in a && 'c' !in b && |b| > 0 && b[0] != 'o'
    ensures ReworkDbNames([a + "c" + b + Placeholder], podName) == [a + "c" + b + PodDatabase(podName)]
  {
    var prefix := a + "c" + b;
    var s := prefix + Placeholder;
    assert Placeholder[0] == 'c' && Placeholder[1] == 'o';
    forall j | 0 <= j < |prefix|
      ensures !OccursAt(s, Placeholder, j)
    {
      if j + |Placeholder| <= |s| {
        var w := s[j..j + |Placeholder|];
        assert w[0] == s[j] && w[1] == s[j + 1];
        if j < |a| {
          assert s[j] == a[j];
        } else if j == |a| {
          assert s[j + 1] == b[0];
        } else {
          assert s[j] == b[j - |a| - 1];
        }
      }
    }
    PlaceholderArgumentRewritten(prefix, podName);
  }

  /**
   * A SQL Server connection URL naming the placeholder database,
   * `-Dtest.db.url=jdbc:sqlserver://h;databaseName=corda-db-test`, is redirected to the pod's database.
   */
  lemma JdbcUrlRewritten(a: string, b: string, podName: string)
    requires a == "-Dtest.db.url=jdb" && b == ":sqlserver://h;databaseName="
    ensures ReworkDbNames([a + "c" + b + Placeholder], podName) == [a + "c" + b + PodDatabase(podName)]
  {
    assert 'c' !in a && 'c' !in b && b[0] == ':';
    PrefixWithOneCRewritten(a, b, podName);
  }

  /** The rewritten arguments can be read back from the command line when none contains a space. */
  lemma AdditionalArgsSplit(args: seq<string>, podName: string)
    requires |args| > 0
    requires forall i :: 0 <= i < |args| ==> ' ' !in ReworkDbNames(args, podName)[i]
    ensures Split(AdditionalArgs(args, podName), ' ') == ReworkDbNames(args, podName)
  {
    SplitJoin(ReworkDbNames(args, podName), ' ');
  }

  /** The remote build's verbosity. */
  datatype PodLogLevel = Quiet | Warn | Info | Debug

  /** The level's Java constant name, as `PodLogLevel.name()` gives it. */
  function ConstantName(level: PodLogLevel): string {
    match level
    case Quiet => "QUIET"
    case Warn => "WARN"
    case Info => "INFO"
    case Debug => "DEBUG"
  }

  /**
   * `getLoggingLevel`: Gradle's command-line switch for the level, which is ` --` followed by
   * the constant's name in lower case; a null level fails when the switch reads it.
   */
  function LoggingFlag(level: Option<PodLogLevel>): (r: Result<string, Exc>)
    ensures r.Failure? <==> level.None?
    ensures r.Failure? ==> r.error == NullPointer
    ensures r.Success? ==> r.value == " --" + ToLower(ConstantName(level.value))
  {
    match level
    case None => Failure(NullPointer)
    case Some(Info) => Success(" --info")
    case Some(Warn) => Success(" --warn")
    case Some(Quiet) => Success(" --quiet")
    case Some(Debug) => Success(" --debug")
  }

  /** Each level gets a switch of its own. */
  lemma LoggingFlagsDistinct(a: PodLogLevel, b: PodLogLevel)
    requires a != b
    ensures LoggingFlag(Some(a)) != LoggingFlag(Some(b))
  {
  }

  /** The Gradle project properties that tell the worker its shard: `-PdockerFork=i -PdockerForks=n`. */
  function ForkFlags(podIdx: Int32, numberOfPods: Int32): seq<string> {
    ["-PdockerFork=" + IntToString(podIdx), "-PdockerForks=" + IntToString(numberOfPods)]
  }

  /** The value a `-P<name>=<value>` argument gives the property `name`, if it is that property's flag. */
  function PropertyFlagValue(arg: string, name: string): Option<string> {
    var key := "-P" + name + "=";
    if StartsWith(arg, key) then Some(arg[|key|..]) else None
  }

  /** The value Gradle sees for a property: the last flag naming it wins. */
  function ProjectProperty(args: seq<string>, name: string): Option<string> {
    if |args| == 0 then None
    else match ProjectProperty(args[..|args| - 1], name)
      case r =>
        match PropertyFlagValue(args[|args| - 1], name)
        case Some(v) => Some(v)
        case None => r
  }

  lemma FlagValue(name: string, v: string)
    ensures PropertyFlagValue("-P" + name + "=" + v, name) == Some(v)
  {
    var key := "-P" + name + "=";
    assert (key + v)[..|key|] == key;
    assert (key + v)[|key|..] == v;
  }

  /** Neither fork flag is read as the other, though one name is a prefix of the other. */
  lemma ForkFlagsDoNotCrossRead(count: string, index: string)
    ensures PropertyFlagValue("-PdockerForks=" + count, "dockerFork") == None
    ensures PropertyFlagValue("-PdockerFork=" + index, "dockerForks") == None
  {
    assert ("-PdockerForks=" + count)[12] == 's';
    assert ("-P" + "dockerFork" + "=")[12] == '=';
    assert ("-PdockerFork=" + index)[12] == '=';
    assert ("-P" + "dockerForks" + "=")[12] == 's';
  }

  /** The worker reads back exactly the shard index and shard count the orchestrator sent. */
  lemma ForkFlagsReadBack(podIdx: Int32, numberOfPods: Int32)
    ensures ProjectProperty(ForkFlags(podIdx, numberOfPods), "dockerFork") == Some(IntToString(podIdx))
    ensures ProjectProperty(ForkFlags(podIdx, numberOfPods), "dockerForks") == Some(IntToString(numberOfPods))
  {
    var i, n := IntToString(podIdx), IntToString(numberOfPods);
    var flags := ForkFlags(podIdx, numberOfPods);
    assert "-PdockerFork=" + i == "-P" + "dockerFork" + "=" + i;
    assert "-PdockerForks=" + n == "-P" + "dockerForks" + "=" + n;
    FlagValue("dockerFork", i);
    FlagValue("dockerForks", n);
    ForkFlagsDoNotCrossRead(n, i);
    assert flags[..1] == ["-PdockerFork=" + i];
    assert flags[..1][..0] == [];
  }
}

=== FILE: exit_status.dfy ===
/**
 * The exit code of a remote build, read from the Kubernetes error channel when the exec
 * session closes (`KubesTest.buildExecListenerForPod`, `onClose`).
 */
module ExitStatus {
  import opened Wrappers
  import opened JavaInt
  import opened JavaNumbers

  /** A `StatusCause`; its `message` may be null. */
  datatype StatusCause = StatusCause(message: Option<string>)

  /** `StatusDetails`; the cause list may be null and its elements may be null. */
  datatype StatusDetails = StatusDetails(causes: Option<seq<Option<StatusCause>>>)

  /** A Kubernetes `Status`; its details may be null. */
  datatype Status = Status(details: Option<StatusDetails>)

  /**
   * The error channel after unmarshalling: text that does not unmarshal, or a status
   * that is null when the channel held nothing.
   */
  datatype ErrorChannel = Unreadable | Decoded(status: Option<Status>)

  /** What the optional chain `status -> details -> causes -> first -> message` reaches. */
  datatype FirstMessage = NoMessage | NullFirstCause | Message(text: string)

  function FirstCauseMessage(status: Option<Status>): FirstMessage {
    match status
    case None => NoMessage
    case Some(st) =>
      match st.details
      case None => NoMessage
      case Some(d) =>
        match d.causes
        case None => NoMessage
        case Some(cs) =>
          if |cs| == 0 then NoMessage
          else
            match cs[0]
            case None => NullFirstCause
            case Some(c) =>
              match c.message
              case None => NoMessage
              case Some(m) => Message(m)
  }

  /**
   * The result code the waiting future completes with, or the exception it completes
   * exceptionally with: 0 when any link of the chain is absent, `NullPointerException`
   * when the first cause is null (`findFirst` rejects null), the parsed message otherwise.
   */
  function ExitCode(channel: ErrorChannel): (r: Result<Int32, Exc>)
    ensures channel.Unreadable? ==> r.Failure?
    ensures channel.Decoded? && FirstCauseMessage(channel.status).NoMessage? ==> r == Success(0)
    ensures channel.Decoded? && FirstCauseMessage(channel.status).NullFirstCause? ==> r == Failure(NullPointer)
    ensures channel.Decoded? && FirstCauseMessage(channel.status).Message? ==>
      var m := FirstCauseMessage(channel.status).text;
      && (r.Success? <==> ParseInt(m).Some?)
      && (r.Success? ==> r.value == ParseInt(m).value)
      && (r.Failure? ==> r.error == NumberFormat)
  {
    match channel
    case Unreadable => Failure(Other("KubernetesClientException"))
    case Decoded(status) =>
      match FirstCauseMessage(status)
      case NoMessage => Success(0)
      case NullFirstCause => Failure(NullPointer)
      case Message(m) =>
        match ParseInt(m)
        case Some(n) => Success(n)
        case None => Failure(NumberFormat)
  }

  /** The status a remote shell that exited with `code` reports: its code as the first cause's message. */
  function ReportedExit(code: Int32): ErrorChannel {
    Decoded(Some(Status(Some(StatusDetails(Some([Some(StatusCause(Some(IntToString(code))))]))))))
  }

  /** Every exit code the remote shell reports is read back unchanged. */
  lemma ExitCodeRoundTrip(code: Int32)
    ensures ExitCode(ReportedExit(code)) == Success(code)
  {
    ParseIntOfToString(code);
  }

  /** A successful exec carries no status details and reads as exit code 0. */
  lemma SuccessStatusIsZero()
    ensures ExitCode(Decoded(Some(Status(None)))) == Success(0)
    ensures ExitCode(Decoded(None)) == Success(0)
    ensures ExitCode(Decoded(Some(Status(Some(StatusDetails(Some([]))))))) == Success(0)
  {
  }

  /** A message that is not a number makes the attempt fail rather than read as 0. */
  lemma NonNumericMessageFails()
    ensures ExitCode(Decoded(Some(Status(Some(StatusDetails(Some([Some(StatusCause(Some("exit")))]))))))) == Failure(NumberFormat)
  {
    assert ParseSigned("exit", 10).None? by {
      assert DigitValue('e', 10).None?;
    }
  }
}

=== FILE: group_config.dfy ===
/**
 * How a parallel test group becomes a `userDefined...` KubesTest task. The group's test
 * tasks are looked up by name among the build's `Test` tasks, their paths are joined into
 * the command the pods run, and the group's settings are copied onto the task. The module
 * also covers the seeds of the pre- and de-allocation tasks, which must agree for the
 * tear-down to find the pre-booked pods, and the per-`Test` `parallel...` task.
 */
module GroupConfig {
  import opened Wrappers
  import opened JavaInt
  import opened JavaStrings
  import TaskNaming
  import ImageBuilding
  import BuildArgs
  import ListTests
  import InfrastructureProfile
  import PluginTestGroup
  import SrcTestGroup

  /** A task of some project: its name, its path, and whether it is a `Test` task. */
  datatype ProjectTask = ProjectTask(name: string, path: string, isTest: bool)

  /** The tasks of every project, in iteration order. */
  function Flatten(xss: seq<seq<ProjectTask>>): seq<ProjectTask>
  {
    if |xss| == 0 then [] else Flatten(xss[..|xss| - 1]) + xss[|xss| - 1]
  }

  /** The tasks that are grouped: the sub-projects' if there are any, else the root project's. */
  function CandidateTasks(root: seq<ProjectTask>, subprojects: seq<seq<ProjectTask>>): seq<ProjectTask>
  {
    if |subprojects| != 0 then Flatten(subprojects) else root
  }

  /** The `Test` tasks among `ts`, in order. */
  function TestTasks(ts: seq<ProjectTask>): (r: seq<ProjectTask>)
    ensures forall i :: 0 <= i < |r| ==> r[i].isTest && r[i] in ts
    ensures forall i :: 0 <= i < |ts| && ts[i].isTest ==> ts[i] in r
  {
    if |ts| == 0 then []
    else
      var init := TestTasks(ts[..|ts| - 1]);
      var last := ts[|ts| - 1];
      assert forall i :: 0 <= i < |ts| - 1 ==> ts[i] == ts[..|ts| - 1][i];
      if last.isTest then init + [last] else init
  }

  /** The tasks of `ts` called `name`, in order: the reference for one group of the grouping. */
  function Named(ts: seq<ProjectTask>, name: string): (r: seq<ProjectTask>)
    ensures forall i :: 0 <= i < |r| ==> r[i].name == name && r[i] in ts
    ensures forall i :: 0 <= i < |ts| && ts[i].name == name ==> ts[i] in r
    ensures (forall i :: 0 <= i < |ts| ==> ts[i].name != name) ==> r == []
  {
    if |ts| == 0 then []
    else
      var init := Named(ts[..|ts| - 1], name);
      var last := ts[|ts| - 1];
      assert forall i :: 0 <= i < |ts| - 1 ==> ts[i] == ts[..|ts| - 1][i];
      if last.name == name then init + [last] else init
  }

  /**
   * `Collectors.groupingBy(Task::getName)`: one key per name that occurs, holding the
   * tasks of that name in encounter order (see `GroupingByName`).
   */
  function GroupByName(ts: seq<ProjectTask>): map<string, seq<ProjectTask>>
  {
    if |ts| == 0 then map[]
    else
      var m0 := GroupByName(ts[..|ts| - 1]);
      var last := ts[|ts| - 1];
      if last.name in m0 then m0[last.name := m0[last.name] + [last]]
      else m0[last.name := [last]]
  }

  /** A name is a key exactly when some task has it, and its list is that name's tasks in order. */
  lemma {:induction false} GroupingByName(ts: seq<ProjectTask>, n: string)
    ensures n in GroupByName(ts) <==> exists i :: 0 <= i < |ts| && ts[i].name == n
    ensures n in GroupByName(ts) ==> GroupByName(ts)[n] == Named(ts, n)
  {
    if |ts| > 0 {
      var init := ts[..|ts| - 1];
      var last := ts[|ts| - 1];
      GroupingByName(init, n);
      assert forall i :: 0 <= i < |init| ==> ts[i] == init[i];
      if (exists i :: 0 <= i < |init| && init[i].name == n) {
        var i :| 0 <= i < |init| && init[i].name == n;
        assert ts[i].name == n;
      }
      if last.name == n {
        assert ts[|ts| - 1].name == n;
      }
    }
  }

  /** The grouping the plugins build before configuring any group. */
  function TestsGroupedByType(root: seq<ProjectTask>, subprojects: seq<seq<ProjectTask>>): map<string, seq<ProjectTask>>
  {
    GroupByName(TestTasks(CandidateTasks(root, subprojects)))
  }

  /**
   * The flat-map over a group's names: the tasks of each name in turn. A name nobody's
   * task has makes `get` return null, and streaming it throws.
   */
  function GroupTests(grouped: map<string, seq<ProjectTask>>, names: seq<string>): (r: Result<seq<ProjectTask>, Exc>)
    ensures r.Success? <==> forall i :: 0 <= i < |names| ==> names[i] in grouped
    ensures r.Failure? ==> r.error == NullPointer
  {
    if |names| == 0 then Success([])
    else if names[0] !in grouped then Failure(NullPointer)
    else
      match GroupTests(grouped, names[1..])
      case Failure(e) =>
        Failure(e)
      case Success(rest) =>
        assert forall i :: 1 <= i < |names| ==> names[i] == names[1..][i - 1];
        Success(grouped[names[0]] + rest)
  }

  /** One name contributes exactly its group. */
  lemma GroupOfOne(grouped: map<string, seq<ProjectTask>>, name: string)
    requires name in grouped
    ensures GroupTests(grouped, [name]) == Success(grouped[name])
  {
    assert [name][1..] == [];
    assert grouped[name] + [] == grouped[name];
  }

  /** Listing names `a` then `b` runs the tasks of `a`, then those of `b`. */
  lemma {:induction false} GroupTestsAppend(grouped: map<string, seq<ProjectTask>>, a: seq<string>, b: seq<string>)
    requires GroupTests(grouped, a + b).Success?
    ensures GroupTests(grouped, a).Success? && GroupTests(grouped, b).Success?
    ensures GroupTests(grouped, a + b).value == GroupTests(grouped, a).value + GroupTests(grouped, b).value
  {
    forall i | 0 <= i < |a|
      ensures a[i] in grouped
    {
      assert (a + b)[i] == a[i];
    }
    forall i | 0 <= i < |b|
      ensures b[i] in grouped
    {
      assert (a + b)[|a| + i] == b[i];
    }
    if |a| == 0 {
      assert a + b == b;
    } else {
      assert (a + b)[1..] == a[1..] + b;
      assert (a + b)[0] == a[0];
      GroupTestsAppend(grouped, a[1..], b);
    }
  }

  /** Every task a group runs is a `Test` task whose name the group lists. */
  lemma {:induction false} GroupRunsOnlyItsTests(ts: seq<ProjectTask>, names: seq<string>, k: int)
    requires GroupTests(GroupByName(TestTasks(ts)), names).Success?
    requires 0 <= k < |GroupTests(GroupByName(TestTasks(ts)), names).value|
    ensures GroupTests(GroupByName(TestTasks(ts)), names).value[k].isTest
    ensures GroupTests(GroupByName(TestTasks(ts)), names).value[k] in ts
    ensures GroupTests(GroupByName(TestTasks(ts)), names).value[k].name in names
  {
    var grouped := GroupByName(TestTasks(ts));
    var r := GroupTests(grouped, names).value;
    assert |names| > 0;
    var first := grouped[names[0]];
    var rest := GroupTests(grouped, names[1..]).value;
    assert r == first + rest;
    if k < |first| {
      GroupingByName(TestTasks(ts), names[0]);
      assert r[k] == first[k];
    } else {
      assert r[k] == rest[k - |first|];
      GroupRunsOnlyItsTests(ts, names[1..], k - |first|);
    }
  }

  /** Every `Test` task whose name a group lists is run by the group. */
  lemma {:induction false} GroupRunsAllItsTests(ts: seq<ProjectTask>, names: seq<string>, j: int, i: int)
    requires GroupTests(GroupByName(TestTasks(ts)), names).Success?
    requires 0 <= j < |ts| && ts[j].isTest
    requires 0 <= i < |names| && names[i] == ts[j].name
    ensures ts[j] in GroupTests(GroupByName(TestTasks(ts)), names).value
  {
    var tests := TestTasks(ts);
    var grouped := GroupByName(tests);
    var first := grouped[names[0]];
    var rest := GroupTests(grouped, names[1..]).value;
    assert GroupTests(grouped, names).value == first + rest;
    if i == 0 {
      GroupingByName(tests, names[0]);
      assert ts[j] in tests;
      var p :| 0 <= p < |tests| && tests[p] == ts[j];
      assert ts[j] in Named(tests, names[0]);
    } else {
      assert names[1..][i - 1] == names[i];
      GroupRunsAllItsTests(ts, names[1..], j, i - 1);
    }
  }

  /** The paths of some tasks. */
  function Paths(ts: seq<ProjectTask>): (r: seq<string>)
    ensures |r| == |ts| && forall i :: 0 <= i < |ts| ==> r[i] == ts[i].path
  {
    if |ts| == 0 then [] else [ts[0].path] + Paths(ts[1..])
  }

  /** `superListOfTasks`: the paths joined with single spaces. */
  function SuperList(ts: seq<ProjectTask>): string
  {
    Join(" ", Paths(ts))
  }

  /** The pod splits the task list at spaces; paths without spaces come back one by one. */
  lemma SuperListSplitsBack(ts: seq<ProjectTask>)
    requires |ts| > 0
    requires forall i :: 0 <= i < |ts| ==> ' ' !in ts[i].path
    ensures Split(SuperList(ts), ' ') == Paths(ts)
  {
    assert " " == [' '];
    SplitJoin(Paths(ts), ' ');
  }

  /** `taskToExecuteName`: the group names joined with `And`. */
  function TaskToExecuteName(groups: seq<string>): string
  {
    Join("And", groups)
  }

  /** The executing task's name mentions every group it runs. */
  lemma TaskToExecuteNameNamesEveryGroup(groups: seq<string>)
    ensures forall i :: 0 <= i < |groups| ==> Contains(TaskToExecuteName(groups), groups[i])
  {
    forall i | 0 <= i < |groups|
      ensures Contains(TaskToExecuteName(groups), groups[i])
    {
      JoinHoldsEach("And", groups, i);
    }
  }

  /** Group names that already hold `And` can give two groups one task name. */
  lemma TaskToExecuteNameIsAmbiguous()
    ensures TaskToExecuteName(["aAnd", "b"]) == TaskToExecuteName(["a", "Andb"])
  {
    assert ["aAnd", "b"][1..] == ["b"];
    assert ["a", "Andb"][1..] == ["Andb"];
    assert "aAnd" + "And" + "b" == "a" + "And" + "Andb";
  }

  /**
   * The image a KubesTest task runs: the registry image with the run tag when
   * `docker.run.tag` is non-empty, else the image the push task sent.
   */
  function DockerTag(runTag: Option<string>, pushed: ImageBuilding.PushedImage): (r: string)
    ensures !IsEmpty(runTag) ==> StartsWith(r, ImageBuilding.RegistryName + ":")
    ensures !IsEmpty(runTag) ==> r[|ImageBuilding.RegistryName| + 1..] == runTag.value
    ensures IsEmpty(runTag) ==> StartsWith(r, pushed.imageName + ":")
    ensures IsEmpty(runTag) ==> r[|pushed.imageName| + 1..] == pushed.tag
  {
    if !IsEmpty(runTag) then
      var r := ImageBuilding.RegistryName + ":" + runTag.value;
      assert r[..|ImageBuilding.RegistryName + ":"|] == ImageBuilding.RegistryName + ":";
      r
    else
      var r := pushed.imageName + ":" + pushed.tag;
      assert r[..|pushed.imageName + ":"|] == pushed.imageName + ":";
      r
  }

  /** Running with the tag just built and pushed names the same image as not giving a run tag. */
  lemma RunTagOfTheBuildNamesThePushedImage(props: ImageBuilding.Properties, uuid: string, tag: string)
    requires |uuid| == 36 && |tag| > 0
    requires ImageBuilding.Property(props, ImageBuilding.BuildTagProperty) == Some(tag)
    ensures DockerTag(Some(tag), ImageBuilding.Pushed(props, uuid)) == DockerTag(None, ImageBuilding.Pushed(props, uuid))
  {
  }

  /** Whether the task that runs `names` was asked for. */
  predicate Requested(requested: set<string>, name: Result<string, Exc>) {
    name.Success? && TaskNaming.IsTaskRequested(requested, name.value)
  }

  /** The task dependencies a group adds. */
  datatype Wiring = Wiring(
    buildDependsOnPreAllocate: bool,
    pushFinalizedByDeAllocate: bool,
    testDependsOnPush: bool,
    testDependsOnDeAllocate: bool)

  /**
   * The dependencies: the image build waits for the pre-allocation and the push is followed
   * by the de-allocation when the pre-allocation task was asked for; the group's tests wait
   * for the push unless a run tag names an existing image, and for the de-allocation when
   * that was asked for.
   */
  function Wire(group: string, runTag: Option<string>, requested: set<string>): (w: Result<Wiring, Exc>)
    ensures w.Failure? <==> |group| == 0
    ensures w.Failure? ==> w.error == IndexOutOfBounds
    ensures w.Success? ==> w.value.buildDependsOnPreAllocate == w.value.pushFinalizedByDeAllocate
    ensures w.Success? ==> (w.value.testDependsOnPush <==> IsEmpty(runTag))
    ensures w.Success? ==> (w.value.buildDependsOnPreAllocate <==> Requested(requested, TaskNaming.NewTaskName(TaskNaming.PreAllocateFor, group)))
    ensures w.Success? ==> (w.value.testDependsOnDeAllocate <==> Requested(requested, TaskNaming.NewTaskName(TaskNaming.DeAllocateFor, group)))
  {
    if |group| == 0 then Failure(IndexOutOfBounds)
    else
      var pre := TaskNaming.NewTaskName(TaskNaming.PreAllocateFor, group).value;
      var de := TaskNaming.NewTaskName(TaskNaming.DeAllocateFor, group).value;
      var preRequested := TaskNaming.IsTaskRequested(requested, pre);
      Success(Wiring(preRequested, preRequested, IsEmpty(runTag), TaskNaming.IsTaskRequested(requested, de)))
  }

  /** Asking for nothing adds no allocation dependency, whatever the group. */
  lemma NothingRequestedNoAllocation(group: string, runTag: Option<string>)
    requires |group| > 0
    ensures !Wire(group, runTag, {}).value.buildDependsOnPreAllocate
    ensures !Wire(group, runTag, {}).value.testDependsOnDeAllocate
  {
  }

  /**
   * `dockerTag.hashCode() + testGrouping.getName().hashCode()` with `int` wrap-around; a
   * missing tag aborts the task.
   */
  function AllocationSeed(tag: Option<string>, group: string): (r: Result<Int32, Exc>)
    ensures r.Failure? <==> tag.None?
    ensures r.Failure? ==> r.error == Gradle
    ensures r.Success? ==> Congruent(r.value, HashPolynomial(tag.value) + HashPolynomial(group))
  {
    match tag
    case None => Failure(Gradle)
    case Some(t) =>
      var s := Add(HashCode(t), HashCode(group));
      CongruentScaleShift(HashCode(t), HashPolynomial(t), 1, HashCode(group));
      CongruentScaleShift(HashCode(group), HashPolynomial(group), 1, HashPolynomial(t));
      CongruentTrans(s, HashCode(t) + HashCode(group), HashPolynomial(t) + HashCode(group));
      CongruentTrans(s, HashPolynomial(t) + HashCode(group), HashPolynomial(t) + HashPolynomial(group));
      Success(s)
  }

  /** The pre-allocation reads the build tag. */
  function PreAllocateTag(props: ImageBuilding.Properties): Option<string>
  {
    ImageBuilding.Property(props, ImageBuilding.BuildTagProperty)
  }

  /** The de-allocation reads the run tag when it is non-empty, else the build tag. */
  function DeAllocateTag(props: ImageBuilding.Properties): (r: Option<string>)
    ensures r.None? <==> IsEmpty(ImageBuilding.Property(props, ImageBuilding.RunTagProperty)) && PreAllocateTag(props).None?
    ensures !IsEmpty(ImageBuilding.Property(props, ImageBuilding.RunTagProperty)) ==>
              r == ImageBuilding.Property(props, ImageBuilding.RunTagProperty)
    ensures IsEmpty(ImageBuilding.Property(props, ImageBuilding.RunTagProperty)) ==>
              r == ImageBuilding.Property(props, ImageBuilding.BuildTagProperty)
  {
    var run := ImageBuilding.Property(props, ImageBuilding.RunTagProperty);
    if !IsEmpty(run) then run else PreAllocateTag(props)
  }

  /** The pods a pre-allocation asks for. */
  datatype PodRequest = PodRequest(pods: Int32, coresPerPod: Int32, memoryGbPerPod: Int32, prefix: string, taints: seq<string>)

  /** The resource settings a KubesTest task copies from its group. */
  datatype Settings = Settings(
    shardCount: Int32,
    coresToUse: Int32,
    gbOfMemory: Int32,
    printToStdOut: bool,
    distribution: ListTests.DistributeTestsBy,
    logLevel: BuildArgs.PodLogLevel,
    taints: seq<string>,
    sidecarImage: Option<string>,
    additionalArgs: seq<string>)

  /** The plugin's group keeps every setting itself. */
  function PluginSettings(g: PluginTestGroup.Group): Settings
  {
    Settings(g.shardCount, g.coresToUse, g.gbOfMemory, g.printToStdOut, g.distribution, g.logLevel,
             g.taints, g.sidecarImage, g.additionalArgs)
  }

  /** The other group reads its resources from its profile, and throws without one. */
  function SrcSettings(g: SrcTestGroup.Group): (r: Result<Settings, Exc>)
    ensures r.Failure? <==> g.profile.None?
    ensures r.Failure? ==> r.error == NullPointer
  {
    match g.profile
    case None => Failure(NullPointer)
    case Some(p) =>
      Success(Settings(p.numberOfShards, p.coresPerFork, p.memoryInGbPerFork, p.streamOutput, g.distribution,
                       g.logLevel, p.nodeTaints, g.sidecarImage, g.additionalArgs))
  }

  /**
   * A group of the second kind whose profile carries the plugin group's resources, with
   * the other settings equal, configures its tasks exactly like the plugin's group.
   */
  lemma SettingsAgree(pg: PluginTestGroup.Group, sg: SrcTestGroup.Group)
    requires sg.profile == Some(InfrastructureProfile.Profile(pg.shardCount, pg.printToStdOut, pg.coresToUse, pg.gbOfMemory, pg.taints))
    requires sg.distribution == pg.distribution && sg.logLevel == pg.logLevel
    requires sg.sidecarImage == pg.sidecarImage && sg.additionalArgs == pg.additionalArgs
    ensures SrcSettings(sg) == Success(PluginSettings(pg))
  {
  }

  /** Freshly registered groups of the two kinds differ only in that the second has no profile. */
  lemma FreshGroupsAgreeOnceProfiled()
    ensures SrcSettings(SrcTestGroup.Default.(profile := Some(InfrastructureProfile.Default))) ==
      Success(PluginSettings(PluginTestGroup.Default))
  {
  }

  /**
   * The pre-allocation task's action: the pod prefix is `rnd` of the seed from the build
   * tag and the group name, and the request carries the group's shards, cores, memory and taints.
   */
  function PreAllocate(group: string, s: Settings, props: ImageBuilding.Properties, rnd: Int32 -> string): (r: Result<PodRequest, Exc>)
    ensures r.Failure? <==> PreAllocateTag(props).None?
    ensures r.Failure? ==> r.error == Gradle
    ensures r.Success? ==> r.value.pods == s.shardCount && r.value.coresPerPod == s.coresToUse
    ensures r.Success? ==> r.value.memoryGbPerPod == s.gbOfMemory && r.value.taints == s.taints
    ensures r.Success? ==> r.value.prefix == rnd(AllocationSeed(PreAllocateTag(props), group).value)
  {
    var seed :- AllocationSeed(PreAllocateTag(props), group);
    Success(PodRequest(s.shardCount, s.coresToUse, s.gbOfMemory, rnd(seed), s.taints))
  }

  /** The de-allocation task's action: the prefix of the pods it tears down. */
  function DeAllocate(group: string, props: ImageBuilding.Properties, rnd: Int32 -> string): (r: Result<string, Exc>)
    ensures r.Failure? <==> DeAllocateTag(props).None?
    ensures r.Failure? ==> r.error == Gradle
    ensures r.Success? ==> r.value == rnd(AllocationSeed(DeAllocateTag(props), group).value)
  {
    var seed :- AllocationSeed(DeAllocateTag(props), group);
    Success(rnd(seed))
  }

  /**
   * A non-empty run tag decides which pods the de-allocation tears down, whatever the build
   * tag is: it is the prefix seeded by the run tag.
   */
  lemma RunTagDecidesTheTearDown(group: string, props: ImageBuilding.Properties, rnd: Int32 -> string)
    requires !IsEmpty(ImageBuilding.Property(props, ImageBuilding.RunTagProperty))
    ensures var run := ImageBuilding.Property(props, ImageBuilding.RunTagProperty);
            DeAllocate(group, props, rnd) == Success(rnd(AllocationSeed(run, group).value))
  {
  }

  /**
   * Without a run tag, or with the build tag repeated as the run tag, the de-allocation
   * tears down exactly the pods the pre-allocation booked.
   */
  lemma TearDownFindsTheBookedPods(group: string, s: Settings, props: ImageBuilding.Properties, rnd: Int32 -> string)
    requires PreAllocate(group, s, props, rnd).Success?
    requires IsEmpty(ImageBuilding.Property(props, ImageBuilding.RunTagProperty)) ||
             ImageBuilding.Property(props, ImageBuilding.RunTagProperty) == PreAllocateTag(props)
    ensures DeAllocate(group, props, rnd) == Success(PreAllocate(group, s, props, rnd).value.prefix)
  {
  }

  /** Two different build tags can give one group the same seed, and so the same pod prefix. */
  lemma DifferentTagsCanShareAPrefix(group: string, rnd: Int32 -> string)
    ensures AllocationSeed(Some("Aa"), group) == AllocationSeed(Some("BB"), group)
  {
    HashCollision();
  }

  /** The settings of a group's `userDefined...` KubesTest task. */
  datatype KubesTestConfig = KubesTestConfig(
    taskName: string,
    numberOfPods: Int32,
    printOutput: bool,
    fullTaskToExecutePath: string,
    taskToExecuteName: string,
    memoryGbPerFork: Int32,
    numberOfCoresPerFork: Int32,
    distribution: ListTests.DistributeTestsBy,
    podLogLevel: BuildArgs.PodLogLevel,
    taints: seq<string>,
    sidecarImage: Option<string>,
    additionalArgs: seq<string>,
    wiring: Wiring,
    dockerTag: string)

  /** The task carries every setting `configureKubesTest` copies from its group. */
  predicate CopiesSettings(c: KubesTestConfig, s: Settings) {
    && c.numberOfPods == s.shardCount
    && c.printOutput == s.printToStdOut
    && c.memoryGbPerFork == s.gbOfMemory
    && c.numberOfCoresPerFork == s.coresToUse
    && c.distribution == s.distribution
    && c.podLogLevel == s.logLevel
    && c.taints == s.taints
    && c.sidecarImage == s.sidecarImage
    && c.additionalArgs == s.additionalArgs
  }

  /**
   * `configureTestGrouping` / `configureParallelTestGroup`: the group's tasks are looked up
   * first (a missing name throws), then the allocation and test tasks are named after the
   * group, and only then are the settings read (which throws for a group without a profile).
   */
  function ConfigureGroup(group: string, groups: seq<string>, settings: Result<Settings, Exc>,
                          grouped: map<string, seq<ProjectTask>>, props: ImageBuilding.Properties,
                          requested: set<string>, pushed: ImageBuilding.PushedImage): (r: Result<KubesTestConfig, Exc>)
    ensures GroupTests(grouped, groups).Failure? ==> r == Failure(NullPointer)
    ensures GroupTests(grouped, groups).Success? && |group| == 0 ==> r == Failure(IndexOutOfBounds)
    ensures GroupTests(grouped, groups).Success? && |group| > 0 && settings.Failure? ==> r == Failure(settings.error)
    ensures r.Success? <==> GroupTests(grouped, groups).Success? && |group| > 0 && settings.Success?
    ensures r.Success? ==> TaskNaming.NewTaskName(TaskNaming.UserDefined, group) == Success(r.value.taskName)
    ensures r.Success? ==> r.value.fullTaskToExecutePath == SuperList(GroupTests(grouped, groups).value)
    ensures r.Success? ==> r.value.taskToExecuteName == TaskToExecuteName(groups)
    ensures r.Success? ==> CopiesSettings(r.value, settings.value)
    ensures r.Success? ==> r.value.wiring == Wire(group, ImageBuilding.Property(props, ImageBuilding.RunTagProperty), requested).value
    ensures r.Success? ==> r.value.dockerTag == DockerTag(ImageBuilding.Property(props, ImageBuilding.RunTagProperty), pushed)
  {
    var tests :- GroupTests(grouped, groups);
    var runTag := ImageBuilding.Property(props, ImageBuilding.RunTagProperty);
    if |group| == 0 then Failure(IndexOutOfBounds)
    else
    var wiring := Wire(group, runTag, requested).value;
    var name := TaskNaming.NewTaskName(TaskNaming.UserDefined, group).value;
    var s :- settings;
    Success(KubesTestConfig(name, s.shardCount, s.printToStdOut, SuperList(tests), TaskToExecuteName(groups),
                            s.gbOfMemory, s.coresToUse, s.distribution, s.logLevel, s.taints, s.sidecarImage,
                            s.additionalArgs, wiring, DockerTag(runTag, pushed)))
  }

  /** A plugin group configures whenever its names are known and its name is not empty. */
  lemma PluginGroupConfigures(group: string, g: PluginTestGroup.Group, grouped: map<string, seq<ProjectTask>>,
                              props: ImageBuilding.Properties, requested: set<string>, pushed: ImageBuilding.PushedImage)
    requires |group| > 0 && forall i :: 0 <= i < |g.groups| ==> g.groups[i] in grouped
    ensures ConfigureGroup(group, g.groups, Success(PluginSettings(g)), grouped, props, requested, pushed).Success?
  {
  }

  /**
   * The task of a plugin group configured by the calls `cs` runs with the value of the last
   * call to each scalar setter.
   */
  lemma TaskTakesLastSetting(group: string, cs: seq<PluginTestGroup.Call>, i: int, grouped: map<string, seq<ProjectTask>>,
                             props: ImageBuilding.Properties, requested: set<string>, pushed: ImageBuilding.PushedImage)
    requires |group| > 0
    requires var g := PluginTestGroup.Configure(PluginTestGroup.Default, cs);
      forall n :: 0 <= n < |g.groups| ==> g.groups[n] in grouped
    requires 0 <= i < |cs| && !PluginTestGroup.Appends(cs[i])
    requires forall j :: i < j < |cs| ==> PluginTestGroup.Field(cs[j]) != PluginTestGroup.Field(cs[i])
    ensures
      var g := PluginTestGroup.Configure(PluginTestGroup.Default, cs);
      var c := ConfigureGroup(group, g.groups, Success(PluginSettings(g)), grouped, props, requested, pushed);
      && c.Success?
      && (cs[i].NumberOfShards? ==> c.value.numberOfPods == cs[i].shards)
      && (cs[i].CoresPerFork? ==> c.value.numberOfCoresPerFork == cs[i].cores)
      && (cs[i].MemoryInGbPerFork? ==> c.value.memoryGbPerFork == cs[i].gb)
      && (cs[i].StreamOutput? ==> c.value.printOutput == cs[i].toStdOut)
      && (cs[i].PodLogLevel? ==> c.value.podLogLevel == cs[i].level)
      && (cs[i].Distribute? ==> c.value.distribution == cs[i].dist)
      && (cs[i].SidecarImage? ==> c.value.sidecarImage == cs[i].image)
  {
    PluginTestGroup.LastSettingWins(PluginTestGroup.Default, cs, i);
  }

  /** A group of the second kind that was never given a profile fails once its tests are found. */
  lemma UnprofiledGroupFails(group: string, g: SrcTestGroup.Group, grouped: map<string, seq<ProjectTask>>,
                             props: ImageBuilding.Properties, requested: set<string>, pushed: ImageBuilding.PushedImage)
    requires |group| > 0 && g.profile.None?
    requires forall i :: 0 <= i < |g.groups| ==> g.groups[i] in grouped
    ensures ConfigureGroup(group, g.groups, SrcSettings(g), grouped, props, requested, pushed) == Failure(NullPointer)
  {
  }

  /** The `parallel...` task made for a single `Test` task. */
  datatype ParallelTask = ParallelTask(
    taskName: string,
    printOutput: bool,
    fullTaskToExecutePath: string,
    taskToExecuteName: string,
    testDependsOnPush: bool,
    dockerTag: string)

  /**
   * `generateParallelTestingTask`: runs just that task's path, always streaming output, on
   * the same image a group would use.
   */
  function ParallelTaskFor(t: ProjectTask, props: ImageBuilding.Properties, pushed: ImageBuilding.PushedImage): (r: Result<ParallelTask, Exc>)
    ensures r.Failure? <==> |t.name| == 0
    ensures r.Success? ==> StartsWith(r.value.taskName, TaskNaming.Parallel) && r.value.printOutput
    ensures r.Success? ==> (r.value.testDependsOnPush <==> IsEmpty(ImageBuilding.Property(props, ImageBuilding.RunTagProperty)))
  {
    var name :- TaskNaming.NewTaskName(TaskNaming.Parallel, t.name);
    var runTag := ImageBuilding.Property(props, ImageBuilding.RunTagProperty);
    Success(ParallelTask(name, true, t.path, t.name, IsEmpty(runTag), DockerTag(runTag, pushed)))
  }

  /** A single task's parallel run is a one-task group: the same command, image and push dependency. */
  lemma ParallelTaskIsAOneTaskGroup(t: ProjectTask, group: string, g: PluginTestGroup.Group,
                                    props: ImageBuilding.Properties, requested: set<string>, pushed: ImageBuilding.PushedImage)
    requires |t.name| > 0 && |group| > 0 && g.groups == [t.name]
    ensures
      var grouped := map[t.name := [t]];
      var c := ConfigureGroup(group, g.groups, Success(PluginSettings(g)), grouped, props, requested, pushed);
      var p := ParallelTaskFor(t, props, pushed);
      c.Success? && p.Success? &&
      c.value.fullTaskToExecutePath == p.value.fullTaskToExecutePath &&
      c.value.taskToExecuteName == p.value.taskToExecuteName &&
      c.value.dockerTag == p.value.dockerTag &&
      c.value.wiring.testDependsOnPush == p.value.testDependsOnPush
  {
    var grouped := map[t.name := [t]];
    GroupOfOne(grouped, t.name);
    assert Paths([t]) == [t.path];
    assert [t][1..] == [];
  }

  /**
   * The plugin makes a `parallel...` task for every `Test` task not marked
   * `ignoreForDistribution`, whether or not it was asked for.
   */
  function ParallelTargets(tests: seq<ProjectTask>, ignored: set<string>): (r: seq<ProjectTask>)
    ensures forall i :: 0 <= i < |r| ==> r[i] in tests && r[i].path !in ignored
    ensures forall i :: 0 <= i < |tests| && tests[i].path !in ignored ==> tests[i] in r
  {
    if |tests| == 0 then []
    else
      var init := ParallelTargets(tests[..|tests| - 1], ignored);
      var last := tests[|tests| - 1];
      assert forall i :: 0 <= i < |tests| - 1 ==> tests[i] == tests[..|tests| - 1][i];
      if last.path !in ignored then init + [last] else init
  }
}

=== FILE: image_building.dfy ===
/**
 * The image-building plugin's choices that depend only on system properties: which
 * properties become Docker build arguments and container environment variables, where
 * the build caches live, which Dockerfile is used, and how the image is tagged.
 * System properties are given as a sequence of (name, value) pairs in iteration order.
 */
module ImageBuilding {
  import opened Wrappers
  import opened JavaStrings

  const RegistryName: string := "stefanotestingcr.azurecr.io/testing"
  const BuildTagProperty: string := "docker.build.tag"
  const RunTagProperty: string := "docker.run.tag"
  const BuildArgMarker: string := "docker.image.build.arg."
  const EnvMarker: string := "docker.container.env.parameter."

  /** The hard-coded `substring` offsets are the lengths of the two markers. */
  lemma MarkerLengths()
    ensures |BuildArgMarker| == 23 && |EnvMarker| == 31
  {
  }

  type Properties = seq<(string, string)>

  /** `System.getProperty(name)`: the value of the first entry with that name, if any. */
  function Property(props: Properties, name: string): (r: Option<string>)
    ensures r.None? <==> forall i :: 0 <= i < |props| ==> props[i].0 != name
  {
    if |props| == 0 then None
    else if props[0].0 == name then Some(props[0].1)
    else Property(props[1..], name)
  }

  /** A name that contains a marker is at least as long as it. */
  lemma MarkedNameIsLong(name: string, marker: string)
    requires Contains(name, marker)
    ensures |marker| <= |name|
  {
  }

  /** The key a marked property name is forwarded under: the name minus its first `|marker|` characters. */
  function ForwardedKey(name: string, marker: string): string
    requires Contains(name, marker)
  {
    MarkedNameIsLong(name, marker);
    name[|marker|..]
  }

  /**
   * The build-argument loop (marker `docker.image.build.arg.`) and the environment loop
   * (marker `docker.container.env.parameter.`): every property whose name contains the
   * marker is put under its forwarded key; a later property with the same key overwrites.
   */
  function Forwarded(props: Properties, marker: string): map<string, string>
  {
    if |props| == 0 then map[]
    else
      var m := Forwarded(props[..|props| - 1], marker);
      var (name, value) := props[|props| - 1];
      if Contains(name, marker) then m[ForwardedKey(name, marker) := value] else m
  }

  /** Whether entry `i` is forwarded under key `k`. */
  predicate ForwardsTo(props: Properties, marker: string, i: int, k: string)
    requires 0 <= i < |props|
  {
    Contains(props[i].0, marker) && ForwardedKey(props[i].0, marker) == k
  }

  /** A forwarded key carries the value of the last property forwarded under it. */
  lemma {:induction false} LastForwardedWins(props: Properties, marker: string, i: int, k: string)
    requires 0 <= i < |props| && ForwardsTo(props, marker, i, k)
    requires forall j :: i < j < |props| ==> !ForwardsTo(props, marker, j, k)
    ensures k in Forwarded(props, marker) && Forwarded(props, marker)[k] == props[i].1
  {
    var init := props[..|props| - 1];
    if i < |props| - 1 {
      forall j | i < j < |init|
        ensures !ForwardsTo(init, marker, j, k)
      {
        assert !ForwardsTo(props, marker, j, k);
        assert init[j] == props[j];
      }
      assert init[i] == props[i];
      LastForwardedWins(init, marker, i, k);
      assert !ForwardsTo(props, marker, |props| - 1, k);
    }
  }

  /** Nothing is forwarded under a key that no property name yields. */
  lemma {:induction false} OnlyForwardedKeys(props: Properties, marker: string, k: string)
    requires forall j :: 0 <= j < |props| ==> !ForwardsTo(props, marker, j, k)
    ensures k !in Forwarded(props, marker)
  {
    if |props| > 0 {
      var init := props[..|props| - 1];
      forall j | 0 <= j < |init|
        ensures !ForwardsTo(init, marker, j, k)
      {
        assert !ForwardsTo(props, marker, j, k);
        assert init[j] == props[j];
      }
      OnlyForwardedKeys(init, marker, k);
      assert !ForwardsTo(props, marker, |props| - 1, k);
    }
  }

  /** `-Ddocker.image.build.arg.K=v` becomes build argument `K` with value `v`. */
  lemma BuildArgForwarded(k: string, v: string)
    ensures Forwarded([(BuildArgMarker + k, v)], BuildArgMarker) == map[k := v]
  {
    var name := BuildArgMarker + k;
    assert OccursAt(name, BuildArgMarker, 0);
    ContainsIff(name, BuildArgMarker);
    assert name[|BuildArgMarker|..] == k;
    assert [(name, v)][..0] == [];
  }

  /**
   * The match is `contains`, but the cut is at a fixed offset: a name with text before the
   * marker is forwarded under a key that still holds the marker's tail.
   */
  lemma MarkerInsideNameIsCutEarly(v: string)
    ensures Forwarded([("x." + BuildArgMarker + "K", v)], BuildArgMarker) == map["g.K" := v]
  {
    var name := "x." + BuildArgMarker + "K";
    assert name[2..2 + |BuildArgMarker|] == BuildArgMarker;
    assert OccursAt(name, BuildArgMarker, 2);
    ContainsIff(name, BuildArgMarker);
    assert name[|BuildArgMarker|..] == "g.K";
    assert [(name, v)][..0] == [];
  }

  /** The Dockerfile: `testing/` + `docker.dockerfile`, by default `Dockerfile`. */
  function Dockerfile(props: Properties): (r: string)
    ensures StartsWith(r, "testing/")
    ensures Property(props, "docker.dockerfile").None? ==> r == "testing/Dockerfile"
    ensures Property(props, "docker.dockerfile").Some? ==> r == "testing/" + Property(props, "docker.dockerfile").value
  {
    var r := "testing/" + Property(props, "docker.dockerfile").GetOr("Dockerfile");
    assert r[..|"testing/"|] == "testing/";
    r
  }

  /**
   * The base of the build caches: `docker.work.dir` when set and non-empty, else
   * `java.io.tmpdir`; `new File(null)` throws when that is missing too.
   */
  function WorkDir(props: Properties): (r: Result<string, Exc>)
    ensures r.Failure? <==> IsEmpty(Property(props, "docker.work.dir")) && Property(props, "java.io.tmpdir").None?
    ensures r.Failure? ==> r.error == NullPointer
    ensures !IsEmpty(Property(props, "docker.work.dir")) ==> r == Success(Property(props, "docker.work.dir").value)
    ensures IsEmpty(Property(props, "docker.work.dir")) && Property(props, "java.io.tmpdir").Some? ==>
              r == Success(Property(props, "java.io.tmpdir").value)
  {
    var work := Property(props, "docker.work.dir");
    if !IsEmpty(work) then Success(work.value)
    else
      match Property(props, "java.io.tmpdir")
      case Some(tmp) => Success(tmp)
      case None => Failure(NullPointer)
  }

  /** An empty `docker.work.dir` counts as unset: the temporary directory is used. */
  lemma EmptyWorkDirFallsBack(tmp: string)
    ensures WorkDir([("docker.work.dir", ""), ("java.io.tmpdir", tmp)]) == Success(tmp)
  {
    var props := [("docker.work.dir", ""), ("java.io.tmpdir", tmp)];
    assert props[1..] == [("java.io.tmpdir", tmp)];
    assert "docker.work.dir"[0] != "java.io.tmpdir"[0];
    assert Property(props, "java.io.tmpdir") == Some(tmp);
  }

  /** A non-empty `docker.work.dir` wins over the temporary directory. */
  lemma WorkDirWins(dir: string, rest: Properties)
    requires |dir| > 0
    ensures WorkDir([("docker.work.dir", dir)] + rest) == Success(dir)
  {
  }

  /** The host directories bound into the build container, and where they appear inside it. */
  function CacheBinds(base: string): (binds: map<string, string>)
    ensures |binds.Keys| == 2
    ensures binds.Values == {"/tmp/gradle", "/home/root/.m2"}
    ensures base + "/gradle" in binds && binds[base + "/gradle"] == "/tmp/gradle"
    ensures base + "/maven" in binds && binds[base + "/maven"] == "/home/root/.m2"
  {
    var gradle := base + "/gradle";
    var maven := base + "/maven";
    assert gradle[|base| + 1] != maven[|base| + 1];
    assert map[gradle := "/tmp/gradle", maven := "/home/root/.m2"].Keys == {gradle, maven};
    map[gradle := "/tmp/gradle", maven := "/home/root/.m2"]
  }

  /** The tag of the pulled base image. */
  function BaseImageTag(props: Properties): (r: string)
    ensures Property(props, "docker.buildbase.tag").None? ==> r == "latest"
    ensures Property(props, "docker.buildbase.tag").Some? ==> r == Property(props, "docker.buildbase.tag").value
  {
    Property(props, "docker.buildbase.tag").GetOr("latest")
  }

  /**
   * The tag given to the built image and pushed: `docker.build.tag` if set (even if empty),
   * else the first 12 characters of a random UUID's text in lower case.
   */
  function ImageTag(props: Properties, uuid: string): (r: string)
    requires |uuid| == 36
    ensures Property(props, BuildTagProperty).Some? ==> r == Property(props, BuildTagProperty).value
    ensures Property(props, BuildTagProperty).None? ==> |r| == 12 && r == ToLower(uuid[..12])
  {
    match Property(props, BuildTagProperty)
    case Some(t) => t
    case None =>
      assert ToLower(uuid)[..12] == ToLower(uuid[..12]);
      ToLower(uuid)[..12]
  }

  /** The image the push task sends: always to the registry, with the build tag. */
  datatype PushedImage = PushedImage(imageName: string, tag: string)

  function Pushed(props: Properties, uuid: string): (p: PushedImage)
    requires |uuid| == 36
    ensures p.imageName == RegistryName
    ensures p.tag == ImageTag(props, uuid)
    ensures Property(props, BuildTagProperty).Some? ==> p.tag == Property(props, BuildTagProperty).value
    ensures Property(props, BuildTagProperty).None? ==> p.tag == ToLower(uuid[..12])
  {
    PushedImage(RegistryName, ImageTag(props, uuid))
  }

  /** The build container's exit code: anything but 0 aborts the build. */
  function CheckBuildExit(exitCode: int): (r: Result<(), Exc>)
    ensures r.Success? <==> exitCode == 0
    ensures r.Failure? ==> r.error == Gradle
  {
    if exitCode != 0 then Failure(Gradle) else Success(())
  }

  /** The clean-up tasks run after the push unless `docker.keep.image` is set to anything at all. */
  predicate CleansUpAfterPush(props: Properties)
    ensures CleansUpAfterPush(props) <==> forall i :: 0 <= i < |props| ==> props[i].0 != "docker.keep.image"
  {
    Property(props, "docker.keep.image").None?
  }

  /** Even an empty `docker.keep.image` keeps the image. */
  lemma EmptyKeepImageStillKeeps(rest: Properties)
    ensures !CleansUpAfterPush([("docker.keep.image", "")] + rest)
  {
  }
}

=== FILE: infrastructure_profile.dfy ===
/**
 * `InfrastructureProfile`: the pod resources a test group asks for. A build script
 * configures one through a sequence of setter calls; each call is a `Setting`.
 */
module InfrastructureProfile {
  import opened JavaInt

  datatype Profile = Profile(
    numberOfShards: Int32,
    streamOutput: bool,
    coresPerFork: Int32,
    memoryInGbPerFork: Int32,
    nodeTaints: seq<string>)

  /** A freshly constructed profile. */
  const Default: Profile := Profile(20, true, 4, 4, [])

  /** One setter call, with the value passed to it. */
  datatype Setting =
    | NumberOfShards(shards: Int32)
    | StreamOutput(stream: bool)
    | CoresPerFork(cores: Int32)
    | MemoryInGbPerFork(gb: Int32)
    | NodeTaints(taints: seq<string>)

  /** Which field a setter writes. */
  function Field(s: Setting): nat {
    match s
    case NumberOfShards(_) => 0
    case StreamOutput(_) => 1
    case CoresPerFork(_) => 2
    case MemoryInGbPerFork(_) => 3
    case NodeTaints(_) => 4
  }

  /** What the getter of `s`'s field returns, as the setting that would store it. */
  function Get(p: Profile, s: Setting): (g: Setting)
    ensures Field(g) == Field(s)
  {
    match s
    case NumberOfShards(_) => NumberOfShards(p.numberOfShards)
    case StreamOutput(_) => StreamOutput(p.streamOutput)
    case CoresPerFork(_) => CoresPerFork(p.coresPerFork)
    case MemoryInGbPerFork(_) => MemoryInGbPerFork(p.memoryInGbPerFork)
    case NodeTaints(_) => NodeTaints(p.nodeTaints)
  }

  /** A setter: its getter then returns the value given, unvalidated, and no other getter changes. */
  function Set(p: Profile, s: Setting): (r: Profile)
    ensures Get(r, s) == s
    ensures forall t :: Field(t) != Field(s) ==> Get(r, t) == Get(p, t)
  {
    match s
    case NumberOfShards(n) => p.(numberOfShards := n)
    case StreamOutput(b) => p.(streamOutput := b)
    case CoresPerFork(n) => p.(coresPerFork := n)
    case MemoryInGbPerFork(n) => p.(memoryInGbPerFork := n)
    case NodeTaints(ts) => p.(nodeTaints := ts)
  }

  /** The setter calls of a build script, applied in order. */
  function Configure(p: Profile, ss: seq<Setting>): Profile
  {
    if |ss| == 0 then p else Set(Configure(p, ss[..|ss| - 1]), ss[|ss| - 1])
  }

  /** Each getter returns the value of the last call to its setter. */
  lemma {:induction false} LastSettingWins(p: Profile, ss: seq<Setting>, i: int)
    requires 0 <= i < |ss|
    requires forall j :: i < j < |ss| ==> Field(ss[j]) != Field(ss[i])
    ensures Get(Configure(p, ss), ss[i]) == ss[i]
  {
    if i < |ss| - 1 {
      LastSettingWins(p, ss[..|ss| - 1], i);
    }
  }

  /** A field that no call sets keeps the value it started with. */
  lemma {:induction false} UnsetFieldKept(p: Profile, ss: seq<Setting>, t: Setting)
    requires forall j :: 0 <= j < |ss| ==> Field(ss[j]) != Field(t)
    ensures Get(Configure(p, ss), t) == Get(p, t)
  {
    if |ss| > 0 {
      UnsetFieldKept(p, ss[..|ss| - 1], t);
    }
  }

  /** A profile configured from scratch with only a shard count keeps the other defaults. */
  lemma OnlyShardsSet(n: Int32)
    ensures Configure(Default, [NumberOfShards(n)]) == Profile(n, true, 4, 4, [])
  {
    assert [NumberOfShards(n)][..0] == [];
  }
}

=== FILE: java_int.dfy ===
/**
 * Java `int` arithmetic: 32-bit two's complement with silent wrap-around, and
 * `String.hashCode`, which the plugin uses to derive seeds and name prefixes.
 */
module JavaInt {

  const TWO_32: int := 0x1_0000_0000
  const MIN_INT: int := -0x8000_0000
  const MAX_INT: int := 0x7fff_ffff

  /** The values a Java `int` can hold. */
  type Int32 = x: int | MIN_INT <= x <= MAX_INT

  /** Two integers that a Java `int` cannot tell apart. */
  predicate Congruent(x: int, y: int) {
    (x - y) % TWO_32 == 0
  }

  /** Reduces an exact integer to the Java `int` with the same low 32 bits. */
  function Wrap(x: int): (r: Int32)
    ensures Congruent(r, x)
    ensures MIN_INT <= x <= MAX_INT ==> r == x
  {
    var m := (x - MIN_INT) % TWO_32;
    assert x - MIN_INT == TWO_32 * ((x - MIN_INT) / TWO_32) + m;
    MultipleIsCongruent(-((x - MIN_INT) / TWO_32));
    m + MIN_INT
  }

  lemma MultipleIsCongruent(k: int)
    ensures (TWO_32 * k) % TWO_32 == 0
  {
  }

  /** Two `int` values with the same low 32 bits are equal. */
  lemma CongruentInt32sAreEqual(a: Int32, b: Int32)
    requires Congruent(a, b)
    ensures a == b
  {
    var q := (a - b) / TWO_32;
    assert a - b == TWO_32 * q;
  }

  lemma CongruentTrans(x: int, y: int, z: int)
    requires Congruent(x, y) && Congruent(y, z)
    ensures Congruent(x, z)
  {
    var p := (x - y) / TWO_32;
    var q := (y - z) / TWO_32;
    assert x - y == TWO_32 * p;
    assert y - z == TWO_32 * q;
    assert x - z == TWO_32 * (p + q);
    MultipleIsCongruent(p + q);
  }

  lemma CongruentSym(x: int, y: int)
    requires Congruent(x, y)
    ensures Congruent(y, x)
  {
    var p := (x - y) / TWO_32;
    assert x - y == TWO_32 * p;
    assert y - x == TWO_32 * -p;
    MultipleIsCongruent(-p);
  }

  lemma CongruentScaleShift(x: int, y: int, a: int, b: int)
    requires Congruent(x, y)
    ensures Congruent(a * x + b, a * y + b)
  {
    var p := (x - y) / TWO_32;
    assert x - y == TWO_32 * p;
    assert (a * x + b) - (a * y + b) == a * (x - y);
    assert a * (x - y) == TWO_32 * (a * p);
    MultipleIsCongruent(a * p);
  }

  /** `Wrap` is determined by the congruence class alone. */
  lemma {:induction false} WrapCongruent(x: int, y: int)
    requires Congruent(x, y)
    ensures Wrap(x) == Wrap(y)
  {
    CongruentTrans(Wrap(x), x, y);
    CongruentSym(Wrap(y), y);
    CongruentTrans(Wrap(x), y, Wrap(y));
    CongruentInt32sAreEqual(Wrap(x), Wrap(y));
  }

  /** Java `a + b` on two `int`s. */
  function Add(a: Int32, b: Int32): (r: Int32)
    ensures Congruent(r, a + b)
  {
    Wrap(a + b)
  }

  /**
   * Wrapping after each addition gives the same `int` as wrapping the exact sum once,
   * so `a + b + c` in Java is the exact sum reduced to 32 bits.
   */
  lemma {:induction false} AddThree(a: Int32, b: Int32, c: Int32)
    ensures Add(Add(a, b), c) == Wrap(a + b + c)
  {
    CongruentScaleShift(Wrap(a + b), a + b, 1, c);
    WrapCongruent(Wrap(a + b) + c, a + b + c);
  }

  /** Java `a + b` on `int`s is commutative even when it overflows. */
  lemma AddCommutes(a: Int32, b: Int32)
    ensures Add(a, b) == Add(b, a)
  {
  }

  /** The exact polynomial `s[0]*31^(n-1) + ... + s[n-1]` that `String.hashCode` reduces. */
  function HashPolynomial(s: string): int
  {
    if |s| == 0 then 0 else 31 * HashPolynomial(s[..|s| - 1]) + s[|s| - 1] as int
  }

  /**
   * `String.hashCode`: `h = 31 * h + c` for each character, in `int` arithmetic.
   * Characters are Dafny chars; Java hashes UTF-16 code units, which agree below U+10000.
   */
  function HashCode(s: string): (h: Int32)
    ensures h == Wrap(HashPolynomial(s))
  {
    if |s| == 0 then 0
    else
      var prev := HashCode(s[..|s| - 1]);
      CongruentScaleShift(prev, HashPolynomial(s[..|s| - 1]), 31, s[|s| - 1] as int);
      WrapCongruent(31 * prev + s[|s| - 1] as int, HashPolynomial(s));
      Wrap(31 * prev + s[|s| - 1] as int)
  }

  /** Different strings can share a hash: "Aa" and "BB" both hash to 2112. */
  lemma HashCollision()
    ensures HashCode("Aa") == HashCode("BB") == 2112
  {
    assert "Aa"[..1] == "A";
    assert "BB"[..1] == "B";
  }
}

=== FILE: java_numbers.dfy ===
/**
 * Decimal text and back: `Integer.toString`, `Integer.parseInt` and
 * `new BigInteger(s, radix).intValue()`, restricted to ASCII digits and letters.
 */
module JavaNumbers {
  import opened Wrappers
  import opened JavaInt

  /** `Character.digit(c, radix)` for ASCII characters, with `None` for -1. */
  function DigitValue(c: char, radix: nat): (r: Option<nat>)
    ensures r.Some? ==> r.value < radix
  {
    var v :=
      if '0' <= c <= '9' then c as int - '0' as int
      else if 'a' <= c <= 'z' then c as int - 'a' as int + 10
      else if 'A' <= c <= 'Z' then c as int - 'A' as int + 10
      else -1;
    if 0 <= v < radix then Some(v) else None
  }

  /** The value of a run of digits read most significant first; `None` if any is not a digit. */
  function DigitsValue(ds: string, radix: nat): Option<nat>
  {
    if |ds| == 0 then Some(0)
    else
      match (DigitsValue(ds[..|ds| - 1], radix), DigitValue(ds[|ds| - 1], radix))
      case (Some(v), Some(d)) => Some(v * radix + d)
      case _ => None
  }

  predicate IsDecimalDigit(c: char) {
    '0' <= c <= '9'
  }

  /** The text `parseInt` accepts before the range check: an optional sign, then one or more decimal digits. */
  predicate DecimalSyntax(s: string) {
    && |s| > 0
    && (s[0] == '-' || s[0] == '+' ==> |s| > 1)
    && forall i :: 0 <= i < |s| && !(i == 0 && (s[0] == '-' || s[0] == '+')) ==> IsDecimalDigit(s[i])
  }

  /** Decimal digits are exactly the characters that have a value in radix 10. */
  lemma {:induction false} DecimalDigitsValue(ds: string)
    ensures DigitsValue(ds, 10).Some? <==> forall i :: 0 <= i < |ds| ==> IsDecimalDigit(ds[i])
  {
    if |ds| > 0 {
      var init := ds[..|ds| - 1];
      DecimalDigitsValue(init);
      assert forall i :: 0 <= i < |init| ==> init[i] == ds[i];
    }
  }

  /** An optional `+` or `-` followed by at least one digit, as both parsers accept it. */
  function ParseSigned(s: string, radix: nat): (r: Option<int>)
    ensures |s| == 0 ==> r.None?
    ensures |s| == 1 && (s[0] == '-' || s[0] == '+') ==> r.None?
    ensures radix == 10 ==> (r.Some? <==> DecimalSyntax(s))
  {
    if |s| == 0 then None
    else
      DecimalDigitsValue(s);
      DecimalDigitsValue(s[1..]);
      assert forall i :: 1 <= i < |s| ==> s[i] == s[1..][i - 1];
      if s[0] == '-' || s[0] == '+' then
        if |s| == 1 then None
        else
          match DigitsValue(s[1..], radix)
          case None => None
          case Some(v) =>
            var signed: int := if s[0] == '-' then -(v as int) else v as int;
            Some(signed)
      else
        match DigitsValue(s, radix)
        case None => None
        case Some(v) => Some(v)
  }

  /**
   * `Integer.parseInt(s)`; `None` stands for the `NumberFormatException`. Accepted are an
   * optional sign and decimal digits whose value fits an `int`; a leading `-` negates.
   */
  function ParseInt(s: string): (r: Option<Int32>)
    ensures r.Some? <==> DecimalSyntax(s) && MIN_INT <= ParseSigned(s, 10).value <= MAX_INT
    ensures r.Some? ==> r.value == ParseSigned(s, 10).value
    ensures r.Some? && s[0] == '-' ==> r.value <= 0
    ensures r.Some? && s[0] != '-' ==> r.value >= 0
  {
    match ParseSigned(s, 10)
    case Some(v) => if MIN_INT <= v <= MAX_INT then Some(v) else None
    case None => None
  }

  /** `new BigInteger(s, 36).intValue()`: the low 32 bits of an unbounded base-36 value. */
  function ParseBase36IntValue(s: string): (r: Option<Int32>)
    ensures r.Some? <==> ParseSigned(s, 36).Some?
    ensures r.Some? ==> Congruent(r.value, ParseSigned(s, 36).value)
  {
    match ParseSigned(s, 36)
    case Some(v) => Some(Wrap(v))
    case None => None
  }

  function DigitChar(d: nat): (c: char)
    requires d < 10
    ensures '0' <= c <= '9'
  {
    ('0' as int + d) as char
  }

  /** Decimal digits of a natural number, without leading zeros. */
  function NatToString(n: nat): (r: string)
    ensures |r| >= 1
    ensures forall i :: 0 <= i < |r| ==> '0' <= r[i] <= '9'
  {
    if n < 10 then [DigitChar(n)] else NatToString(n / 10) + [DigitChar(n % 10)]
  }

  /** `Integer.toString(n)` / `"" + n`. */
  function IntToString(n: int): (r: string)
    ensures |r| >= 1
    ensures n >= 0 ==> forall i :: 0 <= i < |r| ==> '0' <= r[i] <= '9'
    ensures n < 0 ==> r[0] == '-'
  {
    if n < 0 then "-" + NatToString(-n) else NatToString(n)
  }

  lemma {:induction false} NatToStringRoundTrip(n: nat)
    ensures DigitsValue(NatToString(n), 10) == Some(n)
  {
    var s := NatToString(n);
    if n >= 10 {
      NatToStringRoundTrip(n / 10);
      assert s[..|s| - 1] == NatToString(n / 10);
    }
  }

  /** Reading back what `Integer.toString` printed gives the same `int`. */
  lemma ParseIntOfToString(n: Int32)
    ensures ParseInt(IntToString(n)) == Some(n)
  {
    var s := IntToString(n);
    if n < 0 {
      var m: nat := -(n as int);
      NatToStringRoundTrip(m);
      assert s[1..] == NatToString(m);
      assert ParseSigned(s, 10) == Some(n);
    } else {
      NatToStringRoundTrip(n);
      assert '0' <= s[0] <= '9';
      assert ParseSigned(s, 10) == Some(n);
    }
  }

  /** Different naturals print differently. */
  lemma NatToStringInjective(a: nat, b: nat)
    requires NatToString(a) == NatToString(b)
    ensures a == b
  {
    NatToStringRoundTrip(a);
    NatToStringRoundTrip(b);
  }
}

=== FILE: java_strings.dfy ===
/**
 * The parts of `java.lang.String` and commons-lang `StringUtils` the plugin relies on,
 * over Dafny strings. Case mapping covers ASCII letters only.
 */
module JavaStrings {
  import opened Wrappers

  function LowerChar(c: char): char {
    if 'A' <= c <= 'Z' then (c as int - 'A' as int + 'a' as int) as char else c
  }

  function UpperChar(c: char): char {
    if 'a' <= c <= 'z' then (c as int - 'a' as int + 'A' as int) as char else c
  }

  /** `String.toLowerCase()`. */
  function ToLower(s: string): (r: string)
    ensures |r| == |s|
    ensures forall i :: 0 <= i < |s| ==> r[i] == LowerChar(s[i])
  {
    if |s| == 0 then "" else [LowerChar(s[0])] + ToLower(s[1..])
  }

  /** `StringUtils.isEmpty`: null or "". */
  predicate IsEmpty(s: Option<string>) {
    s.None? || |s.value| == 0
  }

  predicate StartsWith(s: string, p: string) {
    |p| <= |s| && s[..|p|] == p
  }

  predicate EndsWith(s: string, p: string) {
    |p| <= |s| && s[|s| - |p|..] == p
  }

  /** `p` occurs in `s` starting at index `i`. */
  predicate OccursAt(s: string, p: string, i: int) {
    0 <= i && i + |p| <= |s| && s[i..i + |p|] == p
  }

  /** `s.indexOf(p, from)`, with `None` for -1. */
  function IndexOfFrom(s: string, p: string, from: nat): (r: Option<nat>)
    ensures r.Some? ==> from <= r.value && OccursAt(s, p, r.value)
    ensures r.Some? ==> forall j :: from <= j < r.value ==> !OccursAt(s, p, j)
    ensures r.None? ==> forall j :: from <= j ==> !OccursAt(s, p, j)
    decreases |s| - from
  {
    if from + |p| > |s| then None
    else if s[from..from + |p|] == p then Some(from)
    else IndexOfFrom(s, p, from + 1)
  }

  /** `s.contains(p)`. */
  predicate Contains(s: string, p: string) {
    IndexOfFrom(s, p, 0).Some?
  }

  lemma ContainsIff(s: string, p: string)
    ensures Contains(s, p) <==> exists i :: OccursAt(s, p, i)
  {
    if Contains(s, p) {
      assert OccursAt(s, p, IndexOfFrom(s, p, 0).value);
    }
  }

  lemma ContainsInTail(s: string, p: string)
    requires |s| > 0
    ensures Contains(s[1..], p) ==> Contains(s, p)
  {
    if Contains(s[1..], p) {
      ContainsExtended([s[0]], s[1..], "", p);
      assert [s[0]] + s[1..] + "" == s;
    }
  }

  /** Text that contains `p` keeps containing it when extended on either side. */
  lemma ContainsExtended(a: string, s: string, b: string, p: string)
    requires Contains(s, p)
    ensures Contains(a + s + b, p)
  {
    var i := IndexOfFrom(s, p, 0).value;
    assert (a + s + b)[|a| + i..|a| + i + |p|] == s[i..i + |p|];
    assert OccursAt(a + s + b, p, |a| + i);
    ContainsIff(a + s + b, p);
  }

  /**
   * `s.replace(p, r)` for a non-empty target: every occurrence of `p`, found left to right
   * without overlap, is replaced by `r`. Java `replaceAll` with a literal pattern is the same.
   */
  function ReplaceAll(s: string, p: string, r: string): string
    requires |p| > 0
    decreases |s|
  {
    if |s| == 0 then ""
    else if StartsWith(s, p) then r + ReplaceAll(s[|p|..], p, r)
    else [s[0]] + ReplaceAll(s[1..], p, r)
  }

  /** Text without the target is left as it is. */
  lemma {:induction false} ReplaceAllWithoutMatch(s: string, p: string, r: string)
    requires |p| > 0
    requires !Contains(s, p)
    ensures ReplaceAll(s, p, r) == s
    decreases |s|
  {
    if |s| > 0 {
      ContainsIff(s, p);
      assert !OccursAt(s, p, 0);
      ContainsInTail(s, p);
      ReplaceAllWithoutMatch(s[1..], p, r);
    }
  }

  /** A prefix in which no occurrence of `p` starts is copied unchanged by the replacement. */
  lemma {:induction false} ReplaceAllAfterPrefix(a: string, rest: string, p: string, r: string)
    requires |p| > 0
    requires forall i :: 0 <= i < |a| ==> !OccursAt(a + rest, p, i)
    ensures ReplaceAll(a + rest, p, r) == a + ReplaceAll(rest, p, r)
  {
    if |a| == 0 {
      assert a + rest == rest;
    } else {
      var s := a + rest;
      assert !OccursAt(s, p, 0);
      assert !StartsWith(s, p);
      assert s[1..] == a[1..] + rest;
      forall i | 0 <= i < |a[1..]|
        ensures !OccursAt(a[1..] + rest, p, i)
      {
        assert !OccursAt(s, p, i + 1);
      }
      ReplaceAllAfterPrefix(a[1..], rest, p, r);
    }
  }

  lemma OccursAtHead(s: string, p: string, i: int)
    requires |p| > 0
    ensures OccursAt(s, p, i) ==> s[i] == p[0]
  {
    if OccursAt(s, p, i) {
      assert s[i..i + |p|][0] == s[i];
    }
  }

  /** Where `p` occurs, each of its characters is found at the matching offset. */
  lemma OccursAtChar(s: string, p: string, i: int, k: int)
    requires 0 <= k < |p|
    ensures OccursAt(s, p, i) ==> s[i + k] == p[k]
  {
    if OccursAt(s, p, i) {
      assert s[i..i + |p|][k] == s[i + k];
    }
  }

  /** No occurrence of `p` starts inside a prefix that lacks `p`'s first character. */
  lemma NoOccurrenceInPrefix(a: string, rest: string, p: string)
    requires |p| > 0 && p[0] !in a
    ensures forall i :: 0 <= i < |a| ==> !OccursAt(a + rest, p, i)
  {
    forall i | 0 <= i < |a|
      ensures !OccursAt(a + rest, p, i)
    {
      OccursAtHead(a + rest, p, i);
      assert (a + rest)[i] == a[i];
    }
  }

  lemma ReplaceWholeTarget(p: string, r: string)
    requires |p| > 0
    ensures ReplaceAll(p, p, r) == r
  {
    assert StartsWith(p, p);
    assert p[|p|..] == "";
  }

  /** `String.join(sep, xs)` and `Collectors.joining(sep)`. */
  function Join(sep: string, xs: seq<string>): string
  {
    if |xs| == 0 then ""
    else if |xs| == 1 then xs[0]
    else xs[0] + sep + Join(sep, xs[1..])
  }

  /** Every element of a joined list can be found in the joined text. */
  lemma {:induction false} JoinHoldsEach(sep: string, xs: seq<string>, i: int)
    requires 0 <= i < |xs|
    ensures Contains(Join(sep, xs), xs[i])
    decreases |xs|
  {
    if i == 0 {
      assert OccursAt(xs[0], xs[0], 0);
      ContainsIff(xs[0], xs[0]);
      var tail := if |xs| == 1 then "" else sep + Join(sep, xs[1..]);
      ContainsExtended("", xs[0], tail, xs[0]);
      assert "" + xs[0] + tail == Join(sep, xs);
    } else {
      JoinHoldsEach(sep, xs[1..], i - 1);
      ContainsExtended(xs[0] + sep, Join(sep, xs[1..]), "", xs[i]);
      assert xs[0] + sep + Join(sep, xs[1..]) + "" == Join(sep, xs);
    }
  }

  /** Concatenation without separator: `Collectors.joining()`. */
  function Concat(xs: seq<string>): (r: string)
    ensures |xs| == 0 ==> r == ""
  {
    if |xs| == 0 then "" else xs[0] + Concat(xs[1..])
  }

  /** Cuts `s` at every occurrence of `c`; the reference inverse of `Join`. */
  function Split(s: string, c: char): (r: seq<string>)
    ensures |r| >= 1
  {
    if |s| == 0 then [""]
    else if s[0] == c then [""] + Split(s[1..], c)
    else
      var t := Split(s[1..], c);
      [[s[0]] + t[0]] + t[1..]
  }

  lemma {:induction false} SplitWithout(x: string, c: char)
    requires c !in x
    ensures Split(x, c) == [x]
  {
    if |x| > 0 {
      SplitWithout(x[1..], c);
      assert [x[0]] + x[1..] == x;
    }
  }

  lemma {:induction false} SplitAfter(x: string, rest: string, c: char)
    requires c !in x
    ensures Split(x + [c] + rest, c) == [x] + Split(rest, c)
  {
    if |x| == 0 {
      assert x + [c] + rest == [c] + rest;
      assert ([c] + rest)[1..] == rest;
    } else {
      assert (x + [c] + rest)[1..] == x[1..] + [c] + rest;
      SplitAfter(x[1..], rest, c);
      assert [x[0]] + x[1..] == x;
    }
  }

  /**
   * Joining with a one-character separator loses nothing when no element contains it:
   * splitting the joined text gives the elements back.
   */
  lemma {:induction false} SplitJoin(xs: seq<string>, c: char)
    requires |xs| > 0
    requires forall i :: 0 <= i < |xs| ==> c !in xs[i]
    ensures Split(Join([c], xs), c) == xs
  {
    if |xs| == 1 {
      SplitWithout(xs[0], c);
    } else {
      SplitJoin(xs[1..], c);
      SplitAfter(xs[0], Join([c], xs[1..]), c);
      assert [xs[0]] + xs[1..] == xs;
    }
  }

  /**
   * commons-lang `StringUtils.substringBetween(s, open, close)`: the text after the first
   * `open` and before the first `close` that follows it, or null.
   */
  function SubstringBetween(s: string, open: string, close: string): Option<string>
  {
    match IndexOfFrom(s, open, 0)
    case None => None
    case Some(start) =>
      match IndexOfFrom(s, close, start + |open|)
      case None => None
      case Some(end) => Some(s[start + |open|..end])
  }

  /** No occurrence of `p` in `s` starts at an index in `from..to`. */
  predicate NoOccurrenceIn(s: string, p: string, from: int, to: int) {
    forall j :: from <= j < to ==> !OccursAt(s, p, j)
  }

  /**
   * The first occurrence of `p` at or after `from` in `a + p + rest` is the one right after
   * `a` when none starts earlier, inside `a` or straddling its end.
   */
  lemma FirstOccurrenceAfter(a: string, p: string, rest: string, from: nat)
    requires |p| > 0 && from <= |a|
    requires NoOccurrenceIn(a + p[..|p| - 1], p, from, |a|)
    ensures IndexOfFrom(a + p + rest, p, from) == Some(|a|)
  {
    var s := a + p + rest;
    var y := a + p[..|p| - 1];
    assert s[|a|..|a| + |p|] == p;
    assert OccursAt(s, p, |a|);
    forall j | from <= j < |a|
      ensures !OccursAt(s, p, j)
    {
      assert !OccursAt(y, p, j);
      assert j + |p| <= |y|;
      assert s[j..j + |p|] == y[j..j + |p|];
    }
  }

  /**
   * `substringBetween` returns the text between `open` and `close` when `open` is first found
   * right after `a` and the text itself holds no character that could start `close`.
   */
  lemma BetweenFound(a: string, open: string, x: string, close: string, b: string)
    requires |open| > 0 && |close| > 0
    requires NoOccurrenceIn(a + open[..|open| - 1], open, 0, |a|)
    requires close[0] !in x
    ensures SubstringBetween(a + open + x + close + b, open, close) == Some(x)
  {
    var u := a + open;
    var s := u + x + close + b;
    OpenFirst(a, open, x, close, b);
    CloseAfter(u, x, close, b);
    assert |a| + |open| == |u|;
    Middle(u, x, close, b);
    BetweenAt(s, open, close, |a|, |u| + |x|, x);
  }

  /** Searching from the end of `a`, `close` is first found right after `x` when `x` lacks its first character. */
  lemma CloseAfter(a: string, x: string, close: string, b: string)
    requires |close| > 0 && close[0] !in x
    ensures IndexOfFrom(a + x + close + b, close, |a|) == Some(|a| + |x|)
  {
    var ax := a + x;
    var y := ax + close[..|close| - 1];
    forall j | |a| <= j < |ax|
      ensures !OccursAt(y, close, j)
    {
      OccursAtHead(y, close, j);
      assert y[j] == x[j - |a|];
    }
    FirstOccurrenceAfter(ax, close, b, |a|);
  }

  lemma OpenFirst(a: string, open: string, x: string, close: string, b: string)
    requires |open| > 0
    requires NoOccurrenceIn(a + open[..|open| - 1], open, 0, |a|)
    ensures IndexOfFrom(a + open + x + close + b, open, 0) == Some(|a|)
  {
    assert a + open + (x + close + b) == a + open + x + close + b;
    FirstOccurrenceAfter(a, open, x + close + b, 0);
  }

  lemma Middle(u: string, x: string, c: string, b: string)
    ensures (u + x + c + b)[|u|..|u| + |x|] == x
  {
    assert (u + x + c + b)[|u|..|u| + |x|] == (u + x)[|u|..|u| + |x|];
  }

  lemma BetweenAt(s: string, open: string, close: string, i: nat, j: nat, x: string)
    requires IndexOfFrom(s, open, 0) == Some(i)
    requires IndexOfFrom(s, close, i + |open|) == Some(j)
    requires i + |open| <= j <= |s| && s[i + |open|..j] == x
    ensures SubstringBetween(s, open, close) == Some(x)
  {
    var start := i + |open|;
    assert SubstringBetween(s, open, close) == Some(s[start..j]);
  }

  /** Text that lacks the first character of `p` does not contain `p`. */
  lemma LacksFirstChar(s: string, p: string)
    requires |p| > 0 && p[0] !in s
    ensures !Contains(s, p)
  {
    NoOccurrenceInPrefix(s, "", p);
    assert s + "" == s;
    ContainsIff(s, p);
  }

  /** The text after the last `c` in `s` (all of `s` when there is none). */
  function LastSegment(s: string, c: char): (r: string)
    ensures c !in r
    ensures |r| <= |s| && r == s[|s| - |r|..]
    ensures |r| < |s| ==> s[|s| - |r| - 1] == c
    ensures c !in s ==> r == s
  {
    if |s| == 0 || s[|s| - 1] == c then "" else LastSegment(s[..|s| - 1], c) + [s[|s| - 1]]
  }

  lemma {:induction false} LastSegmentAfter(a: string, d: string, c: char)
    requires c !in d
    ensures LastSegment(a + [c] + d, c) == d
  {
    var s := a + [c] + d;
    if |d| > 0 {
      assert s[..|s| - 1] == a + [c] + d[..|d| - 1];
      LastSegmentAfter(a, d[..|d| - 1], c);
    }
  }

  /** Java's string concatenation renders a null reference as "null". */
  function NullToText(s: Option<string>): string {
    s.GetOr("null")
  }
}

=== FILE: ledger.dfy ===
/**
 * The executed-tests ledger `/test-runs/executedTests.txt`: every test that passes on a
 * worker is appended to it (`afterTest`), and a restarted worker reads it back
 * (`Files.readAllLines`) to skip what already passed.
 */
module Ledger {
  import opened JavaStrings

  /** Where the ledger lives on the shared test-run volume. */
  const LedgerPath: string := "/test-runs/executedTests.txt"

  datatype ResultType = Success | Failure | Skipped

  /** A finished test as `afterTest` sees it. */
  datatype TestEvent = TestEvent(className: string, name: string, result: ResultType)

  /** The ledger entry for a test: `className + "." + name`. */
  function Entry(e: TestEvent): string {
    e.className + "." + e.name
  }

  /**
   * `Files.readAllLines`: the text cut at line feeds, where a final line feed ends the last
   * line instead of starting an empty one, and an empty file has no lines.
   */
  function Lines(text: string): seq<string> {
    if |text| == 0 then []
    else
      var parts := Split(text, '\n');
      if parts[|parts| - 1] == "" then parts[..|parts| - 1] else parts
  }

  /** `afterTest` as written: a passing test's entry is appended with no line separator. */
  function AppendAsWritten(ledger: string, e: TestEvent): (r: string)
    ensures e.result != Success ==> r == ledger
    ensures e.result == Success ==> |r| == |ledger| + |Entry(e)|
  {
    if e.result == Success then ledger + Entry(e) else ledger
  }

  function RecordAsWritten(ledger: string, events: seq<TestEvent>): string
    decreases |events|
  {
    if |events| == 0 then ledger else RecordAsWritten(AppendAsWritten(ledger, events[0]), events[1..])
  }

  /** As written, a worker's passes are appended to the ledger one after another, with nothing between them. */
  lemma {:induction false} RecordAsWrittenConcatenates(ledger: string, events: seq<TestEvent>)
    ensures RecordAsWritten(ledger, events) == ledger + Concat(Passed(events))
    decreases |events|
  {
    if |events| > 0 {
      var e, rest := events[0], events[1..];
      var grown := AppendAsWritten(ledger, e);
      RecordAsWrittenConcatenates(grown, rest);
      if e.result == Success {
        assert Concat(Passed(events)) == Entry(e) + Concat(Passed(rest)) by {
          assert Passed(events) == [Entry(e)] + Passed(rest);
          assert ([Entry(e)] + Passed(rest))[1..] == Passed(rest);
        }
        assert grown + Concat(Passed(rest)) == ledger + (Entry(e) + Concat(Passed(rest)));
      } else {
        assert Passed(events) == Passed(rest) by {
          assert Passed(events) == [] + Passed(rest);
        }
      }
    }
  }

  /**
   * As written, two passing tests become one ledger line holding both names, so a
   * restarted worker recognises neither of them.
   */
  lemma PassesRunTogether(a: TestEvent, b: TestEvent)
    requires a.result == Success && b.result == Success
    requires '\n' !in Entry(a) + Entry(b)
    ensures Lines(RecordAsWritten("", [a, b])) == [Entry(a) + Entry(b)]
  {
    assert [a, b][1..] == [b];
    assert [b][1..] == [];
    assert RecordAsWritten("", [a, b]) == RecordAsWritten("" + Entry(a), [b]);
    assert RecordAsWritten("" + Entry(a), [b]) == RecordAsWritten("" + Entry(a) + Entry(b), []);
    assert "" + Entry(a) + Entry(b) == Entry(a) + Entry(b);
    SplitWithout(Entry(a) + Entry(b), '\n');
  }

  /** `afterTest` with a line separator after each entry, as the reader expects. */
  function AppendLine(ledger: string, e: TestEvent): (r: string)
    ensures e.result != Success ==> r == ledger
    ensures e.result == Success ==> r == ledger + Entry(e) + "\n"
  {
    if e.result == Success then ledger + Entry(e) + "\n" else ledger
  }

  /** The ledger after a worker's tests finished, in order. */
  function Record(ledger: string, events: seq<TestEvent>): string
    decreases |events|
  {
    if |events| == 0 then ledger else Record(AppendLine(ledger, events[0]), events[1..])
  }

  /** The entries of the tests that passed, in the order they finished. */
  function Passed(events: seq<TestEvent>): (entries: seq<string>)
    ensures |entries| <= |events|
  {
    if |events| == 0 then []
    else (if events[0].result == Success then [Entry(events[0])] else []) + Passed(events[1..])
  }

  /** Reference definition of a well-formed ledger: each entry followed by a line feed. */
  function LinesText(xs: seq<string>): string {
    if |xs| == 0 then "" else xs[0] + "\n" + LinesText(xs[1..])
  }

  lemma {:induction false} LinesTextSnoc(xs: seq<string>, x: string)
    ensures LinesText(xs) + x + "\n" == LinesText(xs + [x])
  {
    if |xs| == 0 {
      assert xs + [x] == [x];
      assert [x][1..] == [];
    } else {
      assert (xs + [x])[1..] == xs[1..] + [x];
      LinesTextSnoc(xs[1..], x);
    }
  }

  lemma {:induction false} SplitLinesText(xs: seq<string>)
    requires forall i :: 0 <= i < |xs| ==> '\n' !in xs[i]
    ensures Split(LinesText(xs), '\n') == xs + [""]
  {
    if |xs| > 0 {
      SplitLinesText(xs[1..]);
      SplitAfter(xs[0], LinesText(xs[1..]), '\n');
      assert xs[0] + "\n" + LinesText(xs[1..]) == xs[0] + ['\n'] + LinesText(xs[1..]);
      assert [xs[0]] + (xs[1..] + [""]) == xs + [""];
    }
  }

  /** Reading a well-formed ledger gives back exactly its entries, in order. */
  lemma LinesRoundTrip(xs: seq<string>)
    requires forall i :: 0 <= i < |xs| ==> '\n' !in xs[i]
    ensures Lines(LinesText(xs)) == xs
  {
    if |xs| > 0 {
      SplitLinesText(xs);
      assert (xs + [""])[..|xs|] == xs;
    }
  }

  lemma {:induction false} RecordAppends(prev: seq<string>, events: seq<TestEvent>)
    ensures Record(LinesText(prev), events) == LinesText(prev + Passed(events))
    decreases |events|
  {
    if |events| == 0 {
      assert prev + [] == prev;
    } else {
      var e := events[0];
      var rest := events[1..];
      if e.result == Success {
        var grown := prev + [Entry(e)];
        LinesTextSnoc(prev, Entry(e));
        assert AppendLine(LinesText(prev), e) == LinesText(grown);
        RecordAppends(grown, rest);
        assert Passed(events) == [Entry(e)] + Passed(rest);
        assert grown + Passed(rest) == prev + Passed(events);
      } else {
        RecordAppends(prev, rest);
        assert Passed(events) == Passed(rest);
      }
    }
  }

  predicate NoLineFeeds(events: seq<TestEvent>) {
    forall i :: 0 <= i < |events| ==> '\n' !in Entry(events[i])
  }

  lemma {:induction false} PassedHasNoLineFeeds(events: seq<TestEvent>)
    requires NoLineFeeds(events)
    ensures forall i :: 0 <= i < |Passed(events)| ==> '\n' !in Passed(events)[i]
  {
    if |events| > 0 {
      PassedHasNoLineFeeds(events[1..]);
    }
  }

  /**
   * With a separator after each entry, a restarted worker reads back the earlier entries
   * followed by every test that passed since, in order, and nothing else.
   */
  lemma RecordRoundTrip(prev: seq<string>, events: seq<TestEvent>)
    requires forall i :: 0 <= i < |prev| ==> '\n' !in prev[i]
    requires NoLineFeeds(events)
    ensures Lines(Record(LinesText(prev), events)) == prev + Passed(events)
  {
    RecordAppends(prev, events);
    PassedHasNoLineFeeds(events);
    LinesRoundTrip(prev + Passed(events));
  }
}

=== FILE: list_tests.dfy ===
/**
 * The test-listing task: which JUnit names a sub-project offers for distribution,
 * and how one shard's request reaches the allocator (the allocator itself is a parameter).
 */
module ListTests {
  import opened Wrappers
  import opened JavaInt
  import opened JavaNumbers
  import opened JavaStrings
  import TestPlan

  /** The system property choosing the granularity of distribution. */
  const DistributionProperty: string := "distributeBy"

  /** The project property carrying the source revision, read in base 36. */
  const RevisionProperty: string := "corda_revision"

  /** Whether shards receive individual test methods or whole test classes. */
  datatype DistributeTestsBy = Method | Class

  /** The enum constant's Java name. */
  function DistributionName(d: DistributeTestsBy): string {
    match d
    case Method => "METHOD"
    case Class => "CLASS"
  }

  /**
   * The distribution a listing task starts with: `METHOD` when the property is absent or
   * empty, otherwise `DistributeTestsBy.valueOf` of its value, which rejects any other name.
   */
  function Distribution(property: Option<string>): (r: Result<DistributeTestsBy, Exc>)
    ensures property.None? || property == Some("") ==> r == Success(Method)
    ensures r.Success? && property.Some? && property.value != "" ==> DistributionName(r.value) == property.value
    ensures r.Failure? ==> r.error == IllegalArgument
  {
    match property
    case None => Success(Method)
    case Some(p) =>
      if p == "" then Success(Method)
      else if p == "METHOD" then Success(Method)
      else if p == "CLASS" then Success(Class)
      else Failure(IllegalArgument)
  }

  /** Naming either constant selects it. */
  lemma DistributionNameSelects(d: DistributeTestsBy)
    ensures Distribution(Some(DistributionName(d))) == Success(d)
  {
  }

  /** A property value is accepted exactly when it is empty or names a constant. */
  lemma DistributionAccepts(p: string)
    ensures Distribution(Some(p)).Success? <==> p == "" || p == DistributionName(Method) || p == DistributionName(Class)
  {
  }

  /**
   * `discoverTests`: the method names or the class names of the discovered plan; either
   * listing throws `NullPointerException` when some node's id converts to null.
   */
  function DiscoverTests(plan: TestPlan.Plan, d: DistributeTestsBy): (r: Result<set<string>, Exc>)
    ensures r.Failure? <==> None in TestPlan.ConvertToSet(plan)
    ensures r.Failure? ==> r.error == NullPointer
    ensures r.Success? && d == Class ==> forall x :: x in r.value <==>
      Some(x) in TestPlan.ConvertToSet(plan) && !Contains(x, TestPlan.MethodMarker)
    ensures r.Success? && d == Method ==> forall x :: x in r.value <==>
      exists y :: Some(y) in TestPlan.ConvertToSet(plan) && Contains(y, TestPlan.MethodMarker) && TestPlan.StripMarkers(y) == x
  {
    match d
    case Method => TestPlan.TestMethods(plan)
    case Class => TestPlan.TestClasses(plan)
  }

  /** A JUnit class with one method is offered as `cls.meth` per method and as `cls` per class. */
  lemma DiscoverNamesJUnitTests(engine: string, cls: string, meth: string, plan: TestPlan.Plan, k: nat, m: nat)
    requires TestPlan.PlainName(engine) && TestPlan.PlainName(cls) && TestPlan.PlainName(meth)
    requires |plan.roots| > 0 && k < |plan.roots[0].children| && m < |plan.roots[0].children[k].children|
    requires plan.roots[0].children[k].uniqueId == TestPlan.ClassUid(engine, cls)
    requires plan.roots[0].children[k].children[m].uniqueId == TestPlan.MethodUid(engine, cls, meth)
    ensures DiscoverTests(plan, Method).Success? ==> cls + "." + meth in DiscoverTests(plan, Method).value
    ensures DiscoverTests(plan, Class).Success? ==> cls in DiscoverTests(plan, Class).value
  {
    TestPlan.JUnitNamesListed(engine, cls, meth, plan, k, m);
  }

  /** A JUnit 4 runner below the first engine makes discovery fail, whichever granularity is chosen. */
  lemma RunnerInPlanFailsDiscovery(plan: TestPlan.Plan, d: DistributeTestsBy, k: nat)
    requires |plan.roots| > 0 && k < |plan.roots[0].children|
    requires plan.roots[0].children[k].uniqueId == "[engine:junit-vintage]/[runner:a.B]"
    ensures DiscoverTests(plan, d) == Failure(NullPointer)
  {
    var c := plan.roots[0].children[k];
    TestPlan.RunnerIdIsNull(c.uniqueId);
    TestPlan.ChildDescendants(plan.roots[0].children, k, c);
    TestPlan.CollectsExactlyTheDescendants(plan, None);
  }

  /** A listing task: its Gradle path and the names it discovered, in list order. */
  datatype Lister = Lister(path: string, allTests: seq<string>)

  /** The allocator behind a listing task: tests, fork index, fork count and seed to a shard's tests. */
  type Allocator = (seq<string>, Int32, Int32, Int32) -> seq<string>

  /** `seedToUse`: 0 without a seed, otherwise seed + path hash + revision in `int` arithmetic. */
  function SeedToUse(seed: Option<Int32>, path: string, gitSha: Int32): (r: Int32)
    ensures seed.None? ==> r == 0
    ensures seed.Some? ==> Congruent(r, seed.value + HashPolynomial(path) + gitSha)
  {
    match seed
    case None => 0
    case Some(s) =>
      AddThree(s, HashCode(path), gitSha);
      CongruentScaleShift(HashCode(path), HashPolynomial(path), 1, s + gitSha);
      CongruentTrans(Add(Add(s, HashCode(path)), gitSha), s + HashCode(path) + gitSha, s + HashPolynomial(path) + gitSha);
      Add(Add(s, HashCode(path)), gitSha)
  }

  /**
   * `getTestsForFork`: reads the revision (default "0") in base 36 first, then rejects a fork
   * index that is not below the fork count, then hands the request to the allocator.
   */
  function TestsForFork(l: Lister, revision: Option<string>, fork: Int32, forks: Int32, seed: Option<Int32>,
                        allocate: Allocator): (r: Result<seq<string>, Exc>)
    ensures ParseBase36IntValue(revision.GetOr("0")).None? ==> r == Failure(NumberFormat)
    ensures ParseBase36IntValue(revision.GetOr("0")).Some? ==> (r.Failure? <==> fork >= forks)
    ensures r.Failure? && ParseBase36IntValue(revision.GetOr("0")).Some? ==> r.error == IllegalArgument
    ensures r.Success? ==>
      r.value == allocate(l.allTests, fork, forks, SeedToUse(seed, l.path, ParseBase36IntValue(revision.GetOr("0")).value))
  {
    match ParseBase36IntValue(revision.GetOr("0"))
    case None => Failure(NumberFormat)
    case Some(gitSha) =>
      if fork >= forks then Failure(IllegalArgument)
      else Success(allocate(l.allTests, fork, forks, SeedToUse(seed, l.path, gitSha)))
  }

  /** Without a revision property the revision contributes nothing to the seed. */
  lemma DefaultRevisionAddsNothing(l: Lister, fork: Int32, forks: Int32, s: Int32, allocate: Allocator)
    requires fork < forks
    ensures TestsForFork(l, None, fork, forks, Some(s), allocate) ==
      Success(allocate(l.allTests, fork, forks, Add(s, HashCode(l.path))))
  {
    assert DigitsValue("0"[..0], 36) == Some(0);
    assert ParseSigned("0", 36) == Some(0);
    assert ParseBase36IntValue("0") == Some(0);
    assert Add(Add(s, HashCode(l.path)), 0) == Add(s, HashCode(l.path));
  }

  /** Without a seed the allocator always receives seed 0, whatever the path and revision. */
  lemma UnseededRequestsIgnorePath(l1: Lister, l2: Lister, revision: Option<string>, fork: Int32, forks: Int32, allocate: Allocator)
    requires l1.allTests == l2.allTests
    ensures TestsForFork(l1, revision, fork, forks, None, allocate) == TestsForFork(l2, revision, fork, forks, None, allocate)
  {
  }

  /** The bounds check is one-sided: a negative fork index below the count is passed on. */
  lemma NegativeForkPassesTheCheck(l: Lister, fork: Int32, forks: Int32, seed: Option<Int32>, allocate: Allocator)
    requires fork < 0 <= forks
    ensures TestsForFork(l, None, fork, forks, seed, allocate).Success?
  {
    assert DigitsValue("0"[..0], 36) == Some(0);
    assert ParseSigned("0", 36) == Some(0);
  }

  /** An unreadable revision fails before the fork index is looked at. */
  lemma BadRevisionFailsFirst(l: Lister, fork: Int32, forks: Int32, seed: Option<Int32>, allocate: Allocator)
    ensures TestsForFork(l, Some("-"), fork, forks, seed, allocate) == Failure(NumberFormat)
  {
  }
}

=== FILE: plugin_test_group.dfy ===
/**
 * The plugin's `ParallelTestGroup` task: a group of test tasks run together on pods,
 * configured by the build script through scalar setters and list-appending calls.
 */
module PluginTestGroup {
  import opened Wrappers
  import opened JavaInt
  import BuildArgs
  import ListTests

  datatype Group = Group(
    distribution: ListTests.DistributeTestsBy,
    groups: seq<string>,
    shardCount: Int32,
    coresToUse: Int32,
    gbOfMemory: Int32,
    printToStdOut: bool,
    logLevel: BuildArgs.PodLogLevel,
    sidecarImage: Option<string>,
    additionalArgs: seq<string>,
    taints: seq<string>)

  /** A freshly registered group. */
  const Default: Group := Group(ListTests.Method, [], 20, 4, 4, true, BuildArgs.Info, None, [], [])

  /** One configuration call, with its arguments. */
  datatype Call =
    | Distribute(dist: ListTests.DistributeTestsBy)
    | TestGroups(names: seq<string>)
    | NumberOfShards(shards: Int32)
    | CoresPerFork(cores: Int32)
    | MemoryInGbPerFork(gb: Int32)
    | StreamOutput(toStdOut: bool)
    | PodLogLevel(level: BuildArgs.PodLogLevel)
    | SidecarImage(image: Option<string>)
    | AdditionalArgs(args: seq<string>)
    | NodeTaints(taints: seq<string>)

  /** Which field a call writes. */
  function Field(c: Call): nat {
    match c
    case Distribute(_) => 0
    case TestGroups(_) => 1
    case NumberOfShards(_) => 2
    case CoresPerFork(_) => 3
    case MemoryInGbPerFork(_) => 4
    case StreamOutput(_) => 5
    case PodLogLevel(_) => 6
    case SidecarImage(_) => 7
    case AdditionalArgs(_) => 8
    case NodeTaints(_) => 9
  }

  /** The calls that add to a list instead of replacing a value. */
  predicate Appends(c: Call) {
    Field(c) == 1 || Field(c) == 8 || Field(c) == 9
  }

  /** The strings an appending call adds. */
  function Items(c: Call): seq<string> {
    match c
    case TestGroups(ns) => ns
    case AdditionalArgs(xs) => xs
    case NodeTaints(ts) => ts
    case _ => []
  }

  /** What the getter of `c`'s field returns, as the call that would store it. */
  function Get(g: Group, c: Call): (r: Call)
    ensures Field(r) == Field(c)
  {
    match c
    case Distribute(_) => Distribute(g.distribution)
    case TestGroups(_) => TestGroups(g.groups)
    case NumberOfShards(_) => NumberOfShards(g.shardCount)
    case CoresPerFork(_) => CoresPerFork(g.coresToUse)
    case MemoryInGbPerFork(_) => MemoryInGbPerFork(g.gbOfMemory)
    case StreamOutput(_) => StreamOutput(g.printToStdOut)
    case PodLogLevel(_) => PodLogLevel(g.logLevel)
    case SidecarImage(_) => SidecarImage(g.sidecarImage)
    case AdditionalArgs(_) => AdditionalArgs(g.additionalArgs)
    case NodeTaints(_) => NodeTaints(g.taints)
  }

  /**
   * One call: a setter stores its value, an appending call adds its items at the end,
   * and no other field changes.
   */
  function Apply(g: Group, c: Call): (r: Group)
    ensures !Appends(c) ==> Get(r, c) == c
    ensures Appends(c) ==> Items(Get(r, c)) == Items(Get(g, c)) + Items(c)
    ensures forall t :: Field(t) != Field(c) ==> Get(r, t) == Get(g, t)
  {
    match c
    case Distribute(d) => g.(distribution := d)
    case TestGroups(ns) => g.(groups := g.groups + ns)
    case NumberOfShards(n) => g.(shardCount := n)
    case CoresPerFork(n) => g.(coresToUse := n)
    case MemoryInGbPerFork(n) => g.(gbOfMemory := n)
    case StreamOutput(b) => g.(printToStdOut := b)
    case PodLogLevel(l) => g.(logLevel := l)
    case SidecarImage(i) => g.(sidecarImage := i)
    case AdditionalArgs(xs) => g.(additionalArgs := g.additionalArgs + xs)
    case NodeTaints(ts) => g.(taints := g.taints + ts)
  }

  /** The calls of a build script, applied in order. */
  function Configure(g: Group, cs: seq<Call>): Group
  {
    if |cs| == 0 then g else Apply(Configure(g, cs[..|cs| - 1]), cs[|cs| - 1])
  }

  /** Each scalar getter returns the value of the last call to its setter. */
  lemma {:induction false} LastSettingWins(g: Group, cs: seq<Call>, i: int)
    requires 0 <= i < |cs| && !Appends(cs[i])
    requires forall j :: i < j < |cs| ==> Field(cs[j]) != Field(cs[i])
    ensures Get(Configure(g, cs), cs[i]) == cs[i]
  {
    if i < |cs| - 1 {
      LastSettingWins(g, cs[..|cs| - 1], i);
    }
  }

  /** A field that no call touches keeps its value. */
  lemma {:induction false} UntouchedFieldKept(g: Group, cs: seq<Call>, t: Call)
    requires forall j :: 0 <= j < |cs| ==> Field(cs[j]) != Field(t)
    ensures Get(Configure(g, cs), t) == Get(g, t)
  {
    if |cs| > 0 {
      UntouchedFieldKept(g, cs[..|cs| - 1], t);
    }
  }

  /** Everything the calls that write `t`'s field add, in call order. */
  function Added(cs: seq<Call>, t: Call): seq<string>
  {
    if |cs| == 0 then []
    else Added(cs[..|cs| - 1], t) + (if Field(cs[|cs| - 1]) == Field(t) then Items(cs[|cs| - 1]) else [])
  }

  /**
   * A list field (groups, extra arguments, taints) holds its initial contents followed by
   * every item any call added to it, in order; nothing is ever removed.
   */
  lemma {:induction false} ListsOnlyGrow(g: Group, cs: seq<Call>, t: Call)
    requires Appends(t)
    ensures Items(Get(Configure(g, cs), t)) == Items(Get(g, t)) + Added(cs, t)
  {
    if |cs| > 0 {
      var init := cs[..|cs| - 1];
      var c := cs[|cs| - 1];
      ListsOnlyGrow(g, init, t);
      var before := Configure(g, init);
      var after := Apply(before, c);
      if Field(c) == Field(t) {
        SameFieldSameGet(before, c, t);
        SameFieldSameGet(after, c, t);
        assert Items(Get(after, t)) == Items(Get(before, t)) + Items(c);
        assert Added(cs, t) == Added(init, t) + Items(c);
      } else {
        assert Get(after, t) == Get(before, t);
        assert Added(cs, t) == Added(init, t) + [];
      }
    }
  }

  lemma SameFieldSameGet(g: Group, a: Call, b: Call)
    requires Field(a) == Field(b)
    ensures Get(g, a) == Get(g, b)
  {
  }

  /** `testGroups("a", "b")` on a fresh group gives exactly those groups, in that order. */
  lemma TestGroupsInOrder(a: string, b: string)
    ensures Configure(Default, [TestGroups([a, b])]).groups == [a, b]
  {
    assert [TestGroups([a, b])][..0] == [];
  }
}

=== FILE: pod_naming.dfy ===
/**
 * Pod names and the stable run identity of `KubesTest.runDistributedTests`:
 * `generatePodName`, the stable seed and the pre-clean selection of leftover pods.
 */
module PodNaming {
  import opened Wrappers
  import opened JavaInt
  import opened JavaStrings
  import opened JavaNumbers

  /** Kubernetes' limit on a pod name, as `generatePodName` hard-codes it. */
  const MaxPodNameLength: nat := 63

  /** The name before truncation: `task.toLowerCase() + "-" + stableRunId + "-" + random + "-" + i`. */
  function ProvisionalName(task: string, stableRunId: string, random: string, i: nat): string {
    ToLower(task) + "-" + stableRunId + "-" + random + "-" + NatToString(i)
  }

  /** `generatePodName`: keeps the last (at most) 63 characters of the provisional name. */
  function GeneratePodName(task: string, stableRunId: string, random: string, i: nat): (r: string)
    ensures var p := ProvisionalName(task, stableRunId, random, i);
      && |r| == (if |p| < MaxPodNameLength then |p| else MaxPodNameLength)
      && EndsWith(p, r)
      && (|p| <= MaxPodNameLength ==> r == p)
  {
    var p := ProvisionalName(task, stableRunId, random, i);
    var from := if |p| - MaxPodNameLength > 0 then |p| - MaxPodNameLength else 0;
    p[from..]
  }

  /** A pod name always ends with `-` and the shard index, which truncation never reaches. */
  lemma NameEndsWithIndex(task: string, stableRunId: string, random: string, i: nat)
    requires i <= MAX_INT
    ensures LastSegment(GeneratePodName(task, stableRunId, random, i), '-') == NatToString(i)
  {
    var head := ToLower(task) + "-" + stableRunId + "-" + random;
    var d := NatToString(i);
    var p := ProvisionalName(task, stableRunId, random, i);
    assert p == head + "-" + d;
    NatToStringShort(i);
    var name := GeneratePodName(task, stableRunId, random, i);
    var from := |p| - |name|;
    assert from <= |head|;
    assert name == head[from..] + "-" + d;
    assert '-' !in d;
    LastSegmentAfter(head[from..], d, '-');
  }

  function Pow10(e: nat): nat {
    if e == 0 then 1 else 10 * Pow10(e - 1)
  }

  /** A number below 10^e has at most e decimal digits. */
  lemma {:induction false} DigitsBelow(n: nat, e: nat)
    requires 1 <= e
    requires n < Pow10(e)
    ensures |NatToString(n)| <= e
  {
    if n >= 10 {
      assert n / 10 < Pow10(e - 1);
      DigitsBelow(n / 10, e - 1);
    }
  }

  lemma NatToStringShort(i: nat)
    requires i <= MAX_INT
    ensures |NatToString(i)| <= 10
  {
    assert Pow10(10) == 10_000_000_000;
    DigitsBelow(i, 10);
  }

  /** Two shards of one run never share a pod name, however long the task name is. */
  lemma PodNamesDistinct(task: string, stableRunId: string, random: string, i: nat, j: nat)
    requires i <= MAX_INT && j <= MAX_INT
    requires i != j
    ensures GeneratePodName(task, stableRunId, random, i) != GeneratePodName(task, stableRunId, random, j)
  {
    NameEndsWithIndex(task, stableRunId, random, i);
    NameEndsWithIndex(task, stableRunId, random, j);
    if NatToString(i) == NatToString(j) {
      NatToStringInjective(i, j);
    }
  }

  /** The pod names of a run with `n` shards: shard `i` runs in pod `i`. */
  function PodNames(task: string, stableRunId: string, random: string, n: nat): (names: seq<string>)
    requires n <= MAX_INT + 1
    ensures |names| == n
    ensures forall i, j :: 0 <= i < j < n ==> names[i] != names[j]
  {
    var names := seq(n, i requires 0 <= i < n => GeneratePodName(task, stableRunId, random, i));
    assert forall i, j :: 0 <= i < j < n ==> names[i] != names[j] by {
      forall i, j | 0 <= i < j < n
        ensures names[i] != names[j]
      {
        PodNamesDistinct(task, stableRunId, random, i, j);
      }
    }
    names
  }

  /**
   * The seed of the stable run id: the 32-bit sum of the hash codes of the build id
   * (system property `buildId`, default "0"), the user (`user.name`, default
   * "UNKNOWN_USER") and the task to execute.
   */
  function StableSeed(buildId: Option<string>, user: Option<string>, taskToExecute: string): (seed: Int32)
    ensures seed == Wrap(HashCode(buildId.GetOr("0")) + HashCode(user.GetOr("UNKNOWN_USER")) + HashCode(taskToExecute))
  {
    var b, u, t := HashCode(buildId.GetOr("0")), HashCode(user.GetOr("UNKNOWN_USER")), HashCode(taskToExecute);
    AddThree(b, u, t);
    Add(Add(b, u), t)
  }

  /**
   * The stable run id: a fresh-looking base-36 text drawn from a generator seeded with
   * `StableSeed`. The generator is a parameter.
   */
  function StableRunId(rnd: Int32 -> string, buildId: Option<string>, user: Option<string>, taskToExecute: string): string
  {
    rnd(StableSeed(buildId, user, taskToExecute))
  }

  /** Re-running the same task of the same build by the same user yields the same stable run id. */
  lemma StableRunIdRepeats(rnd: Int32 -> string, buildId: Option<string>, user: Option<string>, task: string,
                           buildId': Option<string>, user': Option<string>)
    requires buildId.GetOr("0") == buildId'.GetOr("0")
    requires user.GetOr("UNKNOWN_USER") == user'.GetOr("UNKNOWN_USER")
    ensures StableRunId(rnd, buildId, user, task) == StableRunId(rnd, buildId', user', task)
  {
  }

  /** The pods a run deletes before starting: every existing pod whose name contains the stable run id. */
  function PodsToPreClean(existing: seq<string>, stableRunId: string): (doomed: seq<string>)
    ensures forall x :: x in doomed <==> x in existing && Contains(x, stableRunId)
    ensures |doomed| <= |existing|
  {
    if |existing| == 0 then []
    else (if Contains(existing[0], stableRunId) then [existing[0]] else [])
         + PodsToPreClean(existing[1..], stableRunId)
  }

  /**
   * A pod name keeps the whole stable run id when the id, the random part and the index
   * fit in 63 characters; the task-name prefix is what truncation eats first.
   */
  lemma NameKeepsStableRunId(task: string, stableRunId: string, random: string, i: nat)
    requires |stableRunId| + |random| + |NatToString(i)| + 3 <= MaxPodNameLength
    ensures Contains(GeneratePodName(task, stableRunId, random, i), stableRunId)
  {
    var lower := ToLower(task);
    var rest := "-" + random + "-" + NatToString(i);
    var p := ProvisionalName(task, stableRunId, random, i);
    assert p == lower + "-" + stableRunId + rest;
    var name := GeneratePodName(task, stableRunId, random, i);
    var from := |p| - |name|;
    assert from <= |lower|;
    assert name == (lower + "-")[from..] + stableRunId + rest;
    assert OccursAt(name, stableRunId, |(lower + "-")[from..]|);
    ContainsIff(name, stableRunId);
  }

  /**
   * Pods left behind by an earlier run of the same build, user and task are deleted by
   * the pre-clean, whatever random part that run drew, as long as the stable id survives truncation.
   */
  lemma LeftoverPodsArePreCleaned(existing: seq<string>, task: string, stableRunId: string,
                                  oldRandom: string, i: nat)
    requires |stableRunId| + |oldRandom| + |NatToString(i)| + 3 <= MaxPodNameLength
    requires GeneratePodName(task, stableRunId, oldRandom, i) in existing
    ensures GeneratePodName(task, stableRunId, oldRandom, i) in PodsToPreClean(existing, stableRunId)
  {
    NameKeepsStableRunId(task, stableRunId, oldRandom, i);
  }
}

=== FILE: pod_shape.dfy ===
/**
 * The pod a shard runs in (`KubesTest.buildPodRequest` and the two shapes it chooses
 * between): a worker container alone, or a worker plus a database sidecar sharing the
 * per-fork CPU and memory budget.
 */
module PodShape {
  import opened Wrappers
  import opened JavaInt
  import opened JavaStrings
  import opened JavaNumbers

  /** Where the shared test-run volume is mounted in the worker. */
  const TestRunDir: string := "/test-runs"

  const GiB: nat := 0x4000_0000

  /** A container: name, image (may be null), CPU and memory request quantities, its one environment variable. */
  datatype Container = Container(name: string, image: Option<string>, cpu: string, memory: string, env: (string, string))

  /** A toleration of the taint `key=<value>:NoSchedule`. */
  datatype Toleration = Toleration(key: string, value: string, operator: string, effect: string)

  /** The parts of the pod request the model tracks. */
  datatype PodRequest = PodRequest(
    name: string,
    cacheHostPath: string,
    claimName: string,
    tolerations: seq<Toleration>,
    containers: seq<Container>,
    restartPolicy: string)

  /** The inputs `buildPodRequest` reads from the task. */
  datatype PodConfig = PodConfig(
    task: string,
    dockerTag: Option<string>,
    sidecarImage: Option<string>,
    additionalArgs: seq<string>,
    taints: seq<string>,
    cores: Int32,
    memoryGb: Int32)

  datatype Shape = WorkerOnly | WorkerAndSidecar

  /** Some extra argument mentions `azure`: the database is Azure SQL, not a sidecar. */
  predicate UsesAzure(args: seq<string>) {
    exists i :: 0 <= i < |args| && Contains(args[i], "azure")
  }

  /** Azure wins over a sidecar image; a sidecar image alone adds the database container. */
  function ChooseShape(cfg: PodConfig): (shape: Shape)
    ensures shape == WorkerAndSidecar <==> !UsesAzure(cfg.additionalArgs) && cfg.sidecarImage.Some?
  {
    if UsesAzure(cfg.additionalArgs) then WorkerOnly
    else if cfg.sidecarImage.Some? then WorkerAndSidecar
    else WorkerOnly
  }

  /**
   * The environment variable each container ends up with: the builder call names
   * `DRIVER_NODE_MEMORY` and then `DRIVER_WEB_MEMORY` on the same variable, so the second name stays.
   */
  const DriverMemory: (string, string) := ("DRIVER_WEB_MEMORY", "1024m")

  /** The worker container with the given resource requests. */
  function Worker(podName: string, cfg: PodConfig, cpu: string, memory: string): Container {
    Container(podName, cfg.dockerTag, cpu, memory, DriverMemory)
  }

  /** The part common to both shapes. */
  function BasePod(podName: string, podIdx: int, cfg: PodConfig, containers: seq<Container>): (p: PodRequest)
    ensures p.name == podName && p.claimName == podName && p.restartPolicy == "Never"
    ensures p.containers == containers
    ensures |p.tolerations| == |cfg.taints|
    ensures forall i :: 0 <= i < |cfg.taints| ==> p.tolerations[i] == Toleration("key", cfg.taints[i], "Equal", "NoSchedule")
  {
    PodRequest(podName, "/gradle/" + IntToString(podIdx) + "-" + cfg.task, podName,
               seq(|cfg.taints|, i requires 0 <= i < |cfg.taints| => Toleration("key", cfg.taints[i], "Equal", "NoSchedule")),
               containers, "Never")
  }

  /** `buildPodRequestWithOnlyWorkerNode`, as written: the memory quantity carries no unit. */
  function WorkerOnlyPod(podName: string, podIdx: int, cfg: PodConfig): PodRequest {
    BasePod(podName, podIdx, cfg, [Worker(podName, cfg, IntToString(cfg.cores), IntToString(cfg.memoryGb))])
  }

  /** `buildPodRequestWithWorkerNodeAndDbContainer`: the sidecar takes one core and 1Gi from the worker. */
  function WorkerAndSidecarPod(podName: string, podIdx: int, cfg: PodConfig): PodRequest
    requires cfg.sidecarImage.Some?
  {
    BasePod(podName, podIdx, cfg,
            [Worker(podName, cfg, IntToString(Wrap(cfg.cores - 1)), IntToString(Wrap(cfg.memoryGb - 1)) + "Gi"),
             Container(podName + "-pg", cfg.sidecarImage, "1", "1Gi", DriverMemory)])
  }

  /** `buildPodRequest`, as written. */
  function BuildPodRequest(podName: string, podIdx: int, cfg: PodConfig): (p: PodRequest)
    ensures ChooseShape(cfg) == WorkerOnly ==> |p.containers| == 1
    ensures ChooseShape(cfg) == WorkerAndSidecar ==> |p.containers| == 2 && p.containers[1].name == podName + "-pg"
    ensures p.containers[0].name == podName && p.containers[0].image == cfg.dockerTag
    ensures ChooseShape(cfg) == WorkerOnly ==>
              p.containers[0].cpu == IntToString(cfg.cores) && p.containers[0].memory == IntToString(cfg.memoryGb)
    ensures ChooseShape(cfg) == WorkerAndSidecar ==>
              && p.containers[0].cpu == IntToString(Wrap(cfg.cores - 1))
              && p.containers[0].memory == IntToString(Wrap(cfg.memoryGb - 1)) + "Gi"
              && p.containers[1].cpu == "1" && p.containers[1].memory == "1Gi"
              && p.containers[1].image == cfg.sidecarImage
  {
    match ChooseShape(cfg)
    case WorkerOnly => WorkerOnlyPod(podName, podIdx, cfg)
    case WorkerAndSidecar => WorkerAndSidecarPod(podName, podIdx, cfg)
  }

  /** A CPU quantity: a whole number of cores. */
  function QuantityCores(q: string): Option<int> {
    ParseInt(q)
  }

  /** A memory quantity in bytes: a plain number is bytes, a `Gi` suffix multiplies by 2^30. */
  function QuantityBytes(q: string): Option<int> {
    if EndsWith(q, "Gi") then
      match ParseInt(q[..|q| - 2])
      case Some(n) => Some(n * GiB)
      case None => None
    else ParseInt(q)
  }

  function TotalCores(cs: seq<Container>): Option<int> {
    if |cs| == 0 then Some(0)
    else match (QuantityCores(cs[0].cpu), TotalCores(cs[1..]))
      case (Some(a), Some(b)) => Some(a + b)
      case _ => None
  }

  function TotalBytes(cs: seq<Container>): Option<int> {
    if |cs| == 0 then Some(0)
    else match (QuantityBytes(cs[0].memory), TotalBytes(cs[1..]))
      case (Some(a), Some(b)) => Some(a + b)
      case _ => None
  }

  lemma GiQuantity(n: Int32)
    ensures QuantityBytes(IntToString(n) + "Gi") == Some(n * GiB)
  {
    var q := IntToString(n) + "Gi";
    assert q[..|q| - 2] == IntToString(n);
    ParseIntOfToString(n);
  }

  /**
   * As written, a worker-only pod asks for `memoryGbPerFork` bytes: with the default
   * 6, the request is "6", six bytes, while the sidecar shape asks for gigabytes.
   */
  lemma WorkerOnlyMemoryIsBytes(podName: string, podIdx: int, cfg: PodConfig)
    requires ChooseShape(cfg) == WorkerOnly
    ensures TotalBytes(BuildPodRequest(podName, podIdx, cfg).containers) == Some(cfg.memoryGb)
  {
    var p := BuildPodRequest(podName, podIdx, cfg);
    ParseIntOfToString(cfg.memoryGb);
    assert !EndsWith(IntToString(cfg.memoryGb), "Gi") by {
      var s := IntToString(cfg.memoryGb);
      assert s[|s| - 1] != 'i';
    }
    assert p.containers[1..] == [];
  }

  /** `buildPodRequestWithOnlyWorkerNode` with the memory unit the field name promises. */
  function WorkerOnlyPodCorrected(podName: string, podIdx: int, cfg: PodConfig): PodRequest {
    BasePod(podName, podIdx, cfg, [Worker(podName, cfg, IntToString(cfg.cores), IntToString(cfg.memoryGb) + "Gi")])
  }

  function BuildPodRequestCorrected(podName: string, podIdx: int, cfg: PodConfig): (p: PodRequest)
    ensures ChooseShape(cfg) == WorkerOnly ==> |p.containers| == 1
    ensures ChooseShape(cfg) == WorkerAndSidecar ==> |p.containers| == 2 && p.containers[1].name == podName + "-pg"
    ensures p.containers[0].name == podName && p.containers[0].image == cfg.dockerTag
    ensures ChooseShape(cfg) == WorkerOnly ==>
              p.containers[0].cpu == IntToString(cfg.cores) && p.containers[0].memory == IntToString(cfg.memoryGb) + "Gi"
    ensures ChooseShape(cfg) == WorkerAndSidecar ==>
              && p.containers[0].cpu == IntToString(Wrap(cfg.cores - 1))
              && p.containers[0].memory == IntToString(Wrap(cfg.memoryGb - 1)) + "Gi"
              && p.containers[1].cpu == "1" && p.containers[1].memory == "1Gi"
              && p.containers[1].image == cfg.sidecarImage
  {
    match ChooseShape(cfg)
    case WorkerOnly => WorkerOnlyPodCorrected(podName, podIdx, cfg)
    case WorkerAndSidecar => WorkerAndSidecarPod(podName, podIdx, cfg)
  }

  lemma TotalsOfOne(x: Container, cx: int, bx: int)
    requires QuantityCores(x.cpu) == Some(cx) && QuantityBytes(x.memory) == Some(bx)
    ensures TotalCores([x]) == Some(cx) && TotalBytes([x]) == Some(bx)
  {
    assert [x][1..] == [];
  }

  lemma TotalsOfPair(x: Container, y: Container, cx: int, cy: int, bx: int, bytesY: int)
    requires QuantityCores(x.cpu) == Some(cx) && QuantityBytes(x.memory) == Some(bx)
    requires QuantityCores(y.cpu) == Some(cy) && QuantityBytes(y.memory) == Some(bytesY)
    ensures TotalCores([x, y]) == Some(cx + cy) && TotalBytes([x, y]) == Some(bx + bytesY)
  {
    assert [x, y][1..] == [y];
    TotalsOfOne(y, cy, bytesY);
  }

  /** The sidecar's fixed request: one core and one GiB. */
  lemma SidecarQuantities()
    ensures QuantityCores("1") == Some(1) && QuantityBytes("1Gi") == Some(GiB)
  {
    ParseIntOfToString(1);
    GiQuantity(1);
    assert IntToString(1) == "1";
    assert IntToString(1) + "Gi" == "1Gi";
  }

  /** A container asking for `cores` CPUs and `gb` GiB, written as the corrected code writes them. */
  lemma WholeQuantities(cores: Int32, gb: Int32)
    ensures QuantityCores(IntToString(cores)) == Some(cores as int)
    ensures QuantityBytes(IntToString(gb) + "Gi") == Some(gb * GiB)
  {
    ParseIntOfToString(cores);
    GiQuantity(gb);
  }

  lemma CorrectedWorkerOnlyBudget(podName: string, podIdx: int, cfg: PodConfig)
    ensures TotalCores(WorkerOnlyPodCorrected(podName, podIdx, cfg).containers) == Some(cfg.cores as int)
    ensures TotalBytes(WorkerOnlyPodCorrected(podName, podIdx, cfg).containers) == Some(cfg.memoryGb * GiB)
  {
    var w := Worker(podName, cfg, IntToString(cfg.cores), IntToString(cfg.memoryGb) + "Gi");
    assert WorkerOnlyPodCorrected(podName, podIdx, cfg).containers == [w];
    WholeQuantities(cfg.cores, cfg.memoryGb);
    TotalsOfOne(w, cfg.cores, cfg.memoryGb * GiB);
  }

  /** A worker asking for `c1` cores and `m1` GiB next to the sidecar: one more of each in total. */
  lemma WorkerBesideSidecar(podName: string, cfg: PodConfig, c1: Int32, m1: Int32)
    ensures var pair := [Worker(podName, cfg, IntToString(c1), IntToString(m1) + "Gi"),
                         Container(podName + "-pg", cfg.sidecarImage, "1", "1Gi", DriverMemory)];
            TotalCores(pair) == Some(c1 + 1) && TotalBytes(pair) == Some((m1 + 1) * GiB)
  {
    var w := Worker(podName, cfg, IntToString(c1), IntToString(m1) + "Gi");
    var side := Container(podName + "-pg", cfg.sidecarImage, "1", "1Gi", DriverMemory);
    WholeQuantities(c1, m1);
    SidecarQuantities();
    TotalsOfPair(w, side, c1, 1, m1 * GiB, GiB);
    assert m1 * GiB + GiB == (m1 + 1) * GiB;
  }

  lemma SidecarBudget(podName: string, podIdx: int, cfg: PodConfig)
    requires cfg.sidecarImage.Some?
    requires MIN_INT < cfg.cores && MIN_INT < cfg.memoryGb
    ensures TotalCores(WorkerAndSidecarPod(podName, podIdx, cfg).containers) == Some(cfg.cores as int)
    ensures TotalBytes(WorkerAndSidecarPod(podName, podIdx, cfg).containers) == Some(cfg.memoryGb * GiB)
  {
    var c1: Int32, m1: Int32 := cfg.cores - 1, cfg.memoryGb - 1;
    assert Wrap(cfg.cores - 1) == c1 && Wrap(cfg.memoryGb - 1) == m1;
    var pair := [Worker(podName, cfg, IntToString(c1), IntToString(m1) + "Gi"),
                 Container(podName + "-pg", cfg.sidecarImage, "1", "1Gi", DriverMemory)];
    assert WorkerAndSidecarPod(podName, podIdx, cfg).containers == pair;
    WorkerBesideSidecar(podName, cfg, c1, m1);
    assert m1 + 1 == cfg.memoryGb;
  }

  /**
   * With the unit restored, both shapes request exactly the per-fork budget: `cores` CPUs
   * and `memoryGb` GiB in total, however they are split between worker and sidecar.
   */
  lemma CorrectedPodRequestsTheBudget(podName: string, podIdx: int, cfg: PodConfig)
    requires MIN_INT < cfg.cores && MIN_INT < cfg.memoryGb
    ensures TotalCores(BuildPodRequestCorrected(podName, podIdx, cfg).containers) == Some(cfg.cores as int)
    ensures TotalBytes(BuildPodRequestCorrected(podName, podIdx, cfg).containers) == Some(cfg.memoryGb * GiB)
  {
    if ChooseShape(cfg) == WorkerOnly {
      CorrectedWorkerOnlyBudget(podName, podIdx, cfg);
    } else {
      SidecarBudget(podName, podIdx, cfg);
    }
  }
}

=== FILE: result_search.dfy ===
/**
 * `KubesTest.findFolderContainingBinaryResultsFile`: a breadth-first walk of the results
 * downloaded from a pod, collecting the parent folder of every entry whose absolute path
 * ends with `results.bin`.
 */
module ResultSearch {
  import opened JavaStrings

  /** The file name the walk looks for. */
  const BinaryResultsFile: string := "results.bin"

  /** A file-system entry; a directory whose listing fails is a directory with no children. */
  datatype Entry = File(name: string) | Dir(name: string, children: seq<Entry>)

  /** An entry waiting in the queue, with its absolute path and the path of its parent folder. */
  datatype Pending = Pending(entry: Entry, path: string, parent: string)

  function Size(e: Entry): nat
    decreases e
  {
    match e
    case File(_) => 1
    case Dir(_, cs) => 1 + SizeAll(cs)
  }

  function SizeAll(cs: seq<Entry>): nat
    decreases cs
  {
    if |cs| == 0 then 0 else Size(cs[0]) + SizeAll(cs[1..])
  }

  /** The path of a child of the folder at `dir`. */
  function ChildPath(dir: string, child: Entry): string {
    dir + "/" + child.name
  }

  /** The queue entries for the children of the folder at `dir`, in listing order. */
  function ChildItems(cs: seq<Entry>, dir: string): (items: seq<Pending>)
    ensures |items| == |cs|
    ensures forall i :: 0 <= i < |cs| ==> items[i] == Pending(cs[i], ChildPath(dir, cs[i]), dir)
  {
    seq(|cs|, i requires 0 <= i < |cs| => Pending(cs[i], ChildPath(dir, cs[i]), dir))
  }

  /**
   * Reference definition: the folders found under `e` (at `path`, inside `parent`), in
   * depth-first order.
   */
  function Found(e: Entry, path: string, parent: string, target: string): seq<string>
    decreases e
  {
    (if EndsWith(path, target) then [parent] else [])
    + (match e
       case File(_) => []
       case Dir(_, cs) => FoundAll(cs, path, target))
  }

  function FoundAll(cs: seq<Entry>, dir: string, target: string): seq<string>
    decreases cs
  {
    if |cs| == 0 then [] else Found(cs[0], ChildPath(dir, cs[0]), dir, target) + FoundAll(cs[1..], dir, target)
  }

  /** The folders still to be found from the entries of a queue. */
  function FoundInQueue(q: seq<Pending>, target: string): seq<string> {
    if |q| == 0 then [] else Found(q[0].entry, q[0].path, q[0].parent, target) + FoundInQueue(q[1..], target)
  }

  function QueueSize(q: seq<Pending>): nat {
    if |q| == 0 then 0 else Size(q[0].entry) + QueueSize(q[1..])
  }

  lemma {:induction false} QueueAppend(a: seq<Pending>, b: seq<Pending>, target: string)
    ensures FoundInQueue(a + b, target) == FoundInQueue(a, target) + FoundInQueue(b, target)
    ensures QueueSize(a + b) == QueueSize(a) + QueueSize(b)
  {
    if |a| == 0 {
      assert a + b == b;
    } else {
      assert (a + b)[1..] == a[1..] + b;
      QueueAppend(a[1..], b, target);
    }
  }

  lemma {:induction false} ChildItemsAgree(cs: seq<Entry>, dir: string, target: string)
    ensures FoundInQueue(ChildItems(cs, dir), target) == FoundAll(cs, dir, target)
    ensures QueueSize(ChildItems(cs, dir)) == SizeAll(cs)
  {
    if |cs| > 0 {
      assert ChildItems(cs, dir)[1..] == ChildItems(cs[1..], dir);
      ChildItemsAgree(cs[1..], dir, target);
    }
  }

  /** The folder an inspected entry contributes by itself. */
  function Hit(p: Pending, target: string): seq<string> {
    if EndsWith(p.path, target) then [p.parent] else []
  }

  /** The queue entries an inspected entry adds: the children of a directory, none for a file. */
  function Expand(p: Pending): seq<Pending> {
    match p.entry
    case File(_) => []
    case Dir(_, cs) => ChildItems(cs, p.path)
  }

  /** Inspecting the head of the queue keeps the folders still to be found and shrinks the queue. */
  lemma Step(queue: seq<Pending>, target: string)
    requires |queue| > 0
    ensures multiset(FoundInQueue(queue, target))
         == multiset(Hit(queue[0], target)) + multiset(FoundInQueue(queue[1..] + Expand(queue[0]), target))
    ensures QueueSize(queue[1..] + Expand(queue[0])) < QueueSize(queue)
  {
    var item, rest := queue[0], queue[1..];
    QueueAppend(rest, Expand(item), target);
    match item.entry
    case File(_) =>
    case Dir(_, cs) =>
      ChildItemsAgree(cs, item.path, target);
  }

  /**
   * The walk: every folder of the reference definition is reported, as often as it is
   * found there, and nothing else.
   */
  method FindResultFolders(start: Entry, startPath: string, startParent: string, target: string)
    returns (folders: seq<string>)
    ensures multiset(folders) == multiset(Found(start, startPath, startParent, target))
  {
    var queue := [Pending(start, startPath, startParent)];
    folders := [];
    assert FoundInQueue(queue, target) == Found(start, startPath, startParent, target) + FoundInQueue([], target);
    while |queue| > 0
      invariant multiset(folders) + multiset(FoundInQueue(queue, target))
             == multiset(Found(start, startPath, startParent, target))
      decreases QueueSize(queue)
    {
      Step(queue, target);
      folders := folders + Hit(queue[0], target);
      queue := queue[1..] + Expand(queue[0]);
    }
  }

  /** Where the results of a pod are copied: `<buildDir>/test-results-xml/<podName>`. */
  function DownloadFolder(buildDir: string, podName: string): string {
    buildDir + "/test-results-xml/" + podName
  }

  /** `downloadTestXmlFromPod` after the copy: the folders holding a binary results file. */
  method DownloadedResultFolders(buildDir: string, podName: string, downloaded: Entry)
    returns (folders: seq<string>)
    ensures multiset(folders)
         == multiset(Found(downloaded, DownloadFolder(buildDir, podName), buildDir + "/test-results-xml", BinaryResultsFile))
  {
    folders := FindResultFolders(downloaded, DownloadFolder(buildDir, podName), buildDir + "/test-results-xml", BinaryResultsFile);
  }

  /** The match is on the end of the path, so any name ending in `results.bin` counts. */
  lemma SuffixNameMatches(dir: string)
    ensures Found(File("old-results.bin"), ChildPath(dir, File("old-results.bin")), dir, BinaryResultsFile) == [dir]
  {
    var path := ChildPath(dir, File("old-results.bin"));
    assert path[|path| - |BinaryResultsFile|..] == BinaryResultsFile;
  }
}

=== FILE: retry.dfy ===
/**
 * The plugin's bounded retry primitive (`Retry.fixedWithDelay`, `Retry.fixed`,
 * `RetryStrategy.call` and `RetryStrategy.run`).
 *
 * The operation is stateful in Java; here it is the function from the 0-based index of an
 * invocation to what that invocation did, so a strategy call is a pure function of it.
 */
module Retry {
  import opened Wrappers

  /** What one invocation of the operation did. */
  datatype Outcome<+T> = Returned(value: T) | Threw(cause: Throwable)

  /** How a call of the strategy ended. */
  datatype Ending<+T> =
    | Succeeded(value: T)       // the first invocation that returned
    | Exhausted(last: Throwable) // `RetryException` whose cause is the last caught exception
    | Escaped(thrown: Throwable) // something propagated without being retried

  /**
   * A finished call: how it ended, how many times the operation ran, the delays slept
   * and the "will try another n times" counts logged, in order.
   */
  datatype Run<+T> = Run(ending: Ending<T>, invocations: nat, sleeps: seq<int>, warnings: seq<int>)

  /** A strategy the factory accepted. */
  datatype Strategy = Strategy(times: int, delay: int)
  type ValidStrategy = s: Strategy | s.times >= 1 witness Strategy(1, 0)

  /** `Thread.sleep` rejects a negative delay with `IllegalArgumentException`. */
  const NegativeSleep: Throwable := Exception(IllegalArgument)

  /** `Retry.fixedWithDelay(times, delay, logger)`: rejects `times < 1` before anything runs. */
  function FixedWithDelay(times: int, delay: int): (r: Result<ValidStrategy, Exc>)
    ensures r.Failure? <==> times < 1
    ensures r.Failure? ==> r.error == IllegalArgument
    ensures r.Success? ==> r.value.times == times && r.value.delay == delay
  {
    if times < 1 then Failure(IllegalArgument) else Success(Strategy(times, delay))
  }

  /** `Retry.fixed(times, logger)`. */
  function Fixed(times: int): (r: Result<ValidStrategy, Exc>)
    ensures r.Failure? <==> times < 1
    ensures r.Success? ==> r.value.times == times && r.value.delay == 0
  {
    FixedWithDelay(times, 0)
  }

  /** Invocation `k` threw something the `catch (Exception e)` clause catches. */
  predicate Caught<T>(o: Outcome<T>) {
    o.Threw? && o.cause.Exception?
  }

  /** The loop of `call` from `run` on, as the Java `while (run < times)` executes it. */
  function CallFrom<T>(s: ValidStrategy, op: nat -> Outcome<T>, run: nat): (r: Run<T>)
    requires run < s.times
    ensures run < r.invocations <= s.times
    ensures forall k :: run <= k < r.invocations - 1 ==> Caught(op(k))
    ensures r.ending.Succeeded? <==> op(r.invocations - 1).Returned?
    ensures r.ending.Succeeded? ==> r.ending.value == op(r.invocations - 1).value
    ensures r.ending.Exhausted? ==> r.invocations == s.times && Caught(op(s.times - 1))
                                    && r.ending.last == op(s.times - 1).cause
    ensures r.ending.Escaped? ==>
              (s.delay < 0 && Caught(op(r.invocations - 1)) && r.ending.thrown == NegativeSleep)
              || (op(r.invocations - 1) == Threw(r.ending.thrown) && r.ending.thrown.Error?)
    ensures Caught(op(r.invocations - 1)) && r.invocations < s.times ==> r.ending == Escaped(NegativeSleep)
    ensures |r.warnings| == r.invocations - run - (if Caught(op(r.invocations - 1)) then 0 else 1)
    ensures forall j :: 0 <= j < |r.warnings| ==> r.warnings[j] == s.times - (run + j + 1)
    ensures s.delay >= 0 ==> r.sleeps == seq(|r.warnings|, _ => s.delay)
    ensures s.delay < 0 ==> r.sleeps == []
    decreases s.times - run
  {
    match op(run)
    case Returned(v) => Run(Succeeded(v), run + 1, [], [])
    case Threw(t) =>
      if t.Error? then Run(Escaped(t), run + 1, [], [])
      else
        var warning := s.times - (run + 1);
        if s.delay < 0 then Run(Escaped(NegativeSleep), run + 1, [], [warning])
        else if run + 1 == s.times then Run(Exhausted(t), run + 1, [s.delay], [warning])
        else
          var rest := CallFrom(s, op, run + 1);
          Run(rest.ending, rest.invocations, [s.delay] + rest.sleeps, [warning] + rest.warnings)
  }

  /** `RetryStrategy.call(op)`: the counter and the last cause start afresh on every call. */
  function Call<T>(s: ValidStrategy, op: nat -> Outcome<T>): (r: Run<T>)
    ensures 0 < r.invocations <= s.times
    ensures forall k :: 0 <= k < r.invocations - 1 ==> Caught(op(k))
    ensures r.ending.Succeeded? <==> op(r.invocations - 1).Returned?
    ensures r.ending.Succeeded? ==> r.ending.value == op(r.invocations - 1).value
    ensures r.ending.Exhausted? ==> r.invocations == s.times && Caught(op(s.times - 1))
                                    && r.ending.last == op(s.times - 1).cause
    ensures r.ending.Escaped? ==>
              (s.delay < 0 && Caught(op(r.invocations - 1)) && r.ending.thrown == NegativeSleep)
              || (op(r.invocations - 1) == Threw(r.ending.thrown) && r.ending.thrown.Error?)
    ensures Caught(op(r.invocations - 1)) && r.invocations < s.times ==> r.ending == Escaped(NegativeSleep)
    ensures |r.warnings| == r.invocations - (if Caught(op(r.invocations - 1)) then 0 else 1)
    ensures forall j :: 0 <= j < |r.warnings| ==> r.warnings[j] == s.times - (j + 1)
    ensures s.delay >= 0 ==> r.sleeps == seq(|r.warnings|, _ => s.delay)
    ensures s.delay < 0 ==> r.sleeps == []
  {
    CallFrom(s, op, 0)
  }

  /**
   * With a usable delay, the call succeeds exactly when some invocation within the budget
   * returns and every earlier one threw an `Exception`.
   */
  lemma SucceedsIffSomeAttemptReturns<T>(s: ValidStrategy, op: nat -> Outcome<T>)
    requires s.delay >= 0
    ensures Call(s, op).ending.Succeeded? <==>
      exists k :: 0 <= k < s.times && op(k).Returned? && forall j :: 0 <= j < k ==> Caught(op(j))
  {
    var r := Call(s, op);
    if exists k :: 0 <= k < s.times && op(k).Returned? && forall j :: 0 <= j < k ==> Caught(op(j)) {
      var k :| 0 <= k < s.times && op(k).Returned? && forall j :: 0 <= j < k ==> Caught(op(j));
      assert k == r.invocations - 1;
    }
  }

  /** An operation that always throws an `Exception` runs exactly `times` times and exhausts. */
  lemma AlwaysThrowingExhausts<T>(s: ValidStrategy, op: nat -> Outcome<T>)
    requires s.delay >= 0
    requires forall k :: 0 <= k < s.times ==> Caught(op(k))
    ensures Call(s, op).invocations == s.times
    ensures Call(s, op).ending == Exhausted(op(s.times - 1).cause)
    ensures |Call(s, op).sleeps| == s.times
  {
    var r := Call(s, op);
    assert Caught(op(r.invocations - 1));
  }

  /** A `Runnable` either completes or throws. */
  datatype Completion = Completed | Failed(cause: Throwable)

  function AsCallable(c: Completion): Outcome<bool> {
    match c
    case Completed => Returned(true)
    case Failed(t) => Threw(t)
  }

  /** `RetryStrategy.run(op)`: `call` of an operation that runs `op` and returns `true`. */
  function RunRunnable(s: ValidStrategy, op: nat -> Completion): (r: Run<bool>)
    ensures 0 < r.invocations <= s.times
    ensures r.ending.Succeeded? <==> op(r.invocations - 1).Completed?
    ensures r.ending.Succeeded? ==> r.ending.value
    ensures r.ending.Exhausted? ==> r.invocations == s.times && r.ending.last == op(s.times - 1).cause
  {
    Call(s, k => AsCallable(op(k)))
  }
}

=== FILE: shard_attempts.dfy ===
/**
 * One shard of a distributed run (`KubesTest.buildRunPodWithRetriesOrThrow`): up to
 * `numberOfRetries` attempts through `Retry.fixed`, each creating a pod, running the build
 * and reading its exit code, then a recovery pod when every attempt failed.
 *
 * The cluster is abstract: `env(k)` says what attempt `k` of the shard saw.
 */
module ShardAttempts {
  import opened Wrappers
  import opened JavaInt
  import opened ExitStatus
  import Retry

  /** The attempts `runDistributedTests` grants every shard. */
  const NumberOfRetries: int := 3

  /** The result code reported for a shard whose attempts were all used up. */
  const RecoveredCode: int := 255

  /** `CompletableFuture.join` wraps whatever completed the future exceptionally. */
  const Joined: Throwable := Exception(Other("CompletionException"))

  /** Copying the reports out of the pod: the folders holding binary results, or what the copy threw. */
  datatype Download = Downloaded(folders: seq<string>) | DownloadFailed(cause: Throwable)

  /** What one attempt saw. */
  datatype PodRun =
    | SetupFailed(cause: Throwable)   // creating the log file, replacing or starting the pod
    | ExecFailed                      // the exec listener's `onFailure`
    | Closed(channel: ErrorChannel, download: Download, cleanup: Option<Throwable>)
                                      // `onClose`, then the report download and the pod/claim removal

  /** `KubePodResult`: the shard index, its result code, its log file and its binary results folders. */
  datatype KubePodResult = KubePodResult(podIdx: int, resultCode: int, output: string, binaryResults: seq<string>)

  /** What the recovery pod yields after the attempts are used up. */
  datatype Recovery = Recovered(folders: seq<string>) | RecoveryInterrupted | RecoveryFailed(cause: Throwable)

  /** What the shard's future completes with. */
  datatype ShardOutcome = Completed(result: KubePodResult) | Aborted(cause: Throwable)

  /** The outcome and the number of attempts (pods) the retry loop used. */
  datatype ShardRun = ShardRun(outcome: ShardOutcome, attempts: nat)

  /** The attempt closed normally with a non-zero exit code: the case that bumps `testRetries`. */
  predicate NonZeroExit(run: PodRun) {
    run.Closed? && ExitCode(run.channel).Success? && ExitCode(run.channel).value != 0
  }

  /**
   * The value of the `testRetries` counter when attempt `k` starts. `getAndIncrement` sits
   * behind `resCode != 0 &&`, so only non-zero exits count, not failed attempts.
   */
  function NonZeroExitsBefore(env: nat -> PodRun, k: nat): (n: nat)
    ensures n <= k
  {
    if k == 0 then 0 else NonZeroExitsBefore(env, k - 1) + (if NonZeroExit(env(k - 1)) then 1 else 0)
  }

  /** The body of the retried callable for attempt `k`. */
  function Attempt(idx: int, retries: int, logFile: string, env: nat -> PodRun, k: nat): (o: Retry.Outcome<KubePodResult>)
    ensures o.Returned? ==>
      && env(k).Closed? && env(k).download.Downloaded? && env(k).cleanup.None?
      && ExitCode(env(k).channel).Success?
      && o.value == KubePodResult(idx, ExitCode(env(k).channel).value, logFile, env(k).download.folders)
    ensures Clean(env(k)) ==>
      && (o.Threw? <==> NonZeroExit(env(k)) && NonZeroExitsBefore(env, k) < retries - 1)
      && (o.Threw? ==> o.cause == Exception(InvalidUserCode))
  {
    match env(k)
    case SetupFailed(t) => Retry.Threw(t)
    case ExecFailed => Retry.Threw(Joined)
    case Closed(channel, download, cleanup) =>
      match ExitCode(channel)
      case Failure(_) => Retry.Threw(Joined)
      case Success(code) =>
        if code != 0 && NonZeroExitsBefore(env, k) < retries - 1 then
          if download.DownloadFailed? then Retry.Threw(download.cause) else Retry.Threw(Exception(InvalidUserCode))
        else if download.DownloadFailed? then Retry.Threw(download.cause)
        else if cleanup.Some? then Retry.Threw(cleanup.value)
        else Retry.Returned(KubePodResult(idx, code, logFile, download.folders))
  }

  function AttemptOp(idx: int, retries: int, logFile: string, env: nat -> PodRun): nat -> Retry.Outcome<KubePodResult> {
    (k: nat) => Attempt(idx, retries, logFile, env, k)
  }

  /**
   * The whole shard: the retry loop, then, when it gives up, one recovery pod whose reports
   * are returned under result code 255. An interrupted recovery and anything escaping the
   * loop abort the shard.
   */
  function ExecuteShard(idx: int, retries: int, logFile: string, env: nat -> PodRun, recovery: Recovery): (r: ShardRun)
    ensures retries < 1 ==> r == ShardRun(Aborted(Exception(IllegalArgument)), 0)
    ensures retries >= 1 ==> 1 <= r.attempts <= retries
    ensures r.outcome.Completed? ==> r.outcome.result.podIdx == idx && r.outcome.result.output == logFile
    ensures r.outcome.Completed? && r.attempts < retries ==>
      Attempt(idx, retries, logFile, env, r.attempts - 1) == Retry.Returned(r.outcome.result)
    ensures r.outcome.Completed? ==>
      || Attempt(idx, retries, logFile, env, r.attempts - 1) == Retry.Returned(r.outcome.result)
      || (recovery.Recovered? && r.outcome.result == KubePodResult(idx, RecoveredCode, logFile, recovery.folders))
    ensures forall k :: 0 <= k < r.attempts - 1 ==> Retry.Caught(Attempt(idx, retries, logFile, env, k))
  {
    match Retry.Fixed(retries)
    case Failure(e) => ShardRun(Aborted(Exception(e)), 0)
    case Success(s) =>
      var op := AttemptOp(idx, retries, logFile, env);
      assert forall k: nat :: op(k) == Attempt(idx, retries, logFile, env, k);
      var run := Retry.Call(s, op);
      var outcome := match run.ending
        case Succeeded(res) => Completed(res)
        case Escaped(t) => Aborted(t)
        case Exhausted(_) =>
          match recovery
          case Recovered(folders) => Completed(KubePodResult(idx, RecoveredCode, logFile, folders))
          case RecoveryInterrupted => Aborted(Exception(InvalidUserCode))
          case RecoveryFailed(t) => Aborted(t);
      ShardRun(outcome, run.invocations)
  }

  /** The attempts before `k` all failed with an `Exception`, so the loop went on to attempt `k`. */
  predicate CaughtBefore(idx: int, retries: int, logFile: string, env: nat -> PodRun, k: nat) {
    forall j :: 0 <= j < k ==> Retry.Caught(Attempt(idx, retries, logFile, env, j))
  }

  /** An attempt that returns within the budget after only caught failures completes the shard with its result. */
  lemma ReturningAttemptCompletes(idx: int, retries: int, logFile: string, env: nat -> PodRun, recovery: Recovery, k: nat)
    requires k < retries && CaughtBefore(idx, retries, logFile, env, k)
    requires Attempt(idx, retries, logFile, env, k).Returned?
    ensures ExecuteShard(idx, retries, logFile, env, recovery)
         == ShardRun(Completed(Attempt(idx, retries, logFile, env, k).value), k + 1)
  {
    var s := Retry.Strategy(retries, 0);
    var op := AttemptOp(idx, retries, logFile, env);
    assert forall j: nat :: op(j) == Attempt(idx, retries, logFile, env, j);
    var run := Retry.Call(s, op);
    assert run.invocations - 1 == k;
  }

  /** An `Error` thrown by an attempt within the budget, after only caught failures, aborts the shard with it. */
  lemma ErrorAbortsTheShard(idx: int, retries: int, logFile: string, env: nat -> PodRun, recovery: Recovery, k: nat)
    requires k < retries && CaughtBefore(idx, retries, logFile, env, k)
    requires Attempt(idx, retries, logFile, env, k).Threw? && Attempt(idx, retries, logFile, env, k).cause.Error?
    ensures ExecuteShard(idx, retries, logFile, env, recovery)
         == ShardRun(Aborted(Attempt(idx, retries, logFile, env, k).cause), k + 1)
  {
    var s := Retry.Strategy(retries, 0);
    var op := AttemptOp(idx, retries, logFile, env);
    assert forall j: nat :: op(j) == Attempt(idx, retries, logFile, env, j);
    var run := Retry.Call(s, op);
    assert run.invocations - 1 == k;
  }

  /**
   * When every attempt failed with an `Exception`, all of them were used, and the recovery
   * pod decides: its reports under code 255, an `InvalidUserCodeException` when it was
   * interrupted, or whatever it threw.
   */
  lemma ExhaustedAttemptsRecover(idx: int, retries: int, logFile: string, env: nat -> PodRun, recovery: Recovery)
    requires retries >= 1 && CaughtBefore(idx, retries, logFile, env, retries)
    ensures ExecuteShard(idx, retries, logFile, env, recovery).attempts == retries
    ensures recovery.Recovered? ==> ExecuteShard(idx, retries, logFile, env, recovery).outcome
                                    == Completed(KubePodResult(idx, RecoveredCode, logFile, recovery.folders))
    ensures recovery.RecoveryInterrupted? ==> ExecuteShard(idx, retries, logFile, env, recovery).outcome
                                              == Aborted(Exception(InvalidUserCode))
    ensures recovery.RecoveryFailed? ==> ExecuteShard(idx, retries, logFile, env, recovery).outcome
                                         == Aborted(recovery.cause)
  {
    var s := Retry.Strategy(retries, 0);
    var op := AttemptOp(idx, retries, logFile, env);
    assert forall j: nat :: op(j) == Attempt(idx, retries, logFile, env, j);
    Retry.AlwaysThrowingExhausts(s, op);
  }

  /**
   * A shard completes exactly when some attempt within the budget returns after only
   * caught failures, or when every attempt fails that way and the recovery pod delivers.
   */
  lemma CompletesIff(idx: int, retries: int, logFile: string, env: nat -> PodRun, recovery: Recovery)
    ensures ExecuteShard(idx, retries, logFile, env, recovery).outcome.Completed? <==>
      || (exists k: nat :: k < retries && Attempt(idx, retries, logFile, env, k).Returned? && CaughtBefore(idx, retries, logFile, env, k))
      || (recovery.Recovered? && retries >= 1 && CaughtBefore(idx, retries, logFile, env, retries))
  {
    var r := ExecuteShard(idx, retries, logFile, env, recovery);
    if exists k: nat :: k < retries && Attempt(idx, retries, logFile, env, k).Returned? && CaughtBefore(idx, retries, logFile, env, k) {
      var k: nat :| k < retries && Attempt(idx, retries, logFile, env, k).Returned? && CaughtBefore(idx, retries, logFile, env, k);
      ReturningAttemptCompletes(idx, retries, logFile, env, recovery, k);
    } else if retries >= 1 && CaughtBefore(idx, retries, logFile, env, retries) {
      ExhaustedAttemptsRecover(idx, retries, logFile, env, recovery);
    } else if retries >= 1 {
      var s := Retry.Strategy(retries, 0);
      var op := AttemptOp(idx, retries, logFile, env);
      assert forall j: nat :: op(j) == Attempt(idx, retries, logFile, env, j);
      var run := Retry.Call(s, op);
      assert !run.ending.Succeeded? && !run.ending.Exhausted?;
    }
  }

  /**
   * `submitBuild`'s task: the shard's persistent volume claim is created first, and if that
   * throws the shard aborts before any pod is attempted; otherwise the retry loop runs.
   */
  function SubmitBuild(idx: int, retries: int, logFile: string, pvc: Option<Throwable>, env: nat -> PodRun,
                       recovery: Recovery): (r: ShardRun)
    ensures pvc.Some? ==> r == ShardRun(Aborted(pvc.value), 0)
    ensures r.attempts == 0 <==> pvc.Some? || retries < 1
    ensures pvc.None? ==> r == ExecuteShard(idx, retries, logFile, env, recovery)
  {
    match pvc
    case Some(t) => ShardRun(Aborted(t), 0)
    case None => ExecuteShard(idx, retries, logFile, env, recovery)
  }

  /** An attempt that closed with a readable exit code and whose reports and cleanup went through. */
  predicate Clean(run: PodRun) {
    && run.Closed?
    && ExitCode(run.channel).Success?
    && run.download.Downloaded?
    && run.cleanup.None?
  }

  /** Clean attempts that were all retried each bumped the counter. */
  lemma {:induction false} RetriedCleanAttemptsCount(idx: int, retries: int, logFile: string, env: nat -> PodRun, n: nat)
    requires forall k :: 0 <= k < n ==> Clean(env(k))
    requires forall k :: 0 <= k < n ==> Retry.Caught(Attempt(idx, retries, logFile, env, k))
    ensures NonZeroExitsBefore(env, n) == n
  {
    if n > 0 {
      RetriedCleanAttemptsCount(idx, retries, logFile, env, n - 1);
      var o := Attempt(idx, retries, logFile, env, n - 1);
      assert Clean(env(n - 1)) && o.Threw?;
      assert NonZeroExit(env(n - 1));
      assert NonZeroExitsBefore(env, n) == NonZeroExitsBefore(env, n - 1) + 1;
    }
  }

  /**
   * A shard whose pods all run and report cleanly is never given up: the attempt that
   * reaches the budget's last slot returns its exit code instead of being retried. The
   * result is the first zero exit, or the last attempt's code.
   */
  lemma CleanAttemptsNeverExhaust(idx: int, retries: int, logFile: string, env: nat -> PodRun, recovery: Recovery)
    requires retries >= 1
    requires forall k :: 0 <= k < retries ==> Clean(env(k))
    ensures var r := ExecuteShard(idx, retries, logFile, env, recovery);
      && r.outcome.Completed?
      && Clean(env(r.attempts - 1))
      && r.outcome.result == KubePodResult(idx, ExitCode(env(r.attempts - 1).channel).value, logFile,
                                           env(r.attempts - 1).download.folders)
      && (r.outcome.result.resultCode == 0 || r.attempts == retries)
      && (forall k :: 0 <= k < r.attempts - 1 ==> Clean(env(k)) && ExitCode(env(k).channel).value != 0)
  {
    var s := Retry.Strategy(retries, 0);
    var op := AttemptOp(idx, retries, logFile, env);
    assert forall k: nat :: op(k) == Attempt(idx, retries, logFile, env, k);
    assert Retry.Fixed(retries) == Success(s);
    var run := Retry.Call(s, op);
    var last := run.invocations - 1;
    RetriedCleanAttemptsCount(idx, retries, logFile, env, last);
    assert Clean(env(last));
    assert op(last).Returned?;
    assert run.ending.Succeeded?;
    forall k | 0 <= k < last
      ensures ExitCode(env(k).channel).value != 0
    {
      assert Retry.Caught(Attempt(idx, retries, logFile, env, k));
    }
    assert ExecuteShard(idx, retries, logFile, env, recovery) == ShardRun(Completed(run.ending.value), run.invocations);
  }

  /** The shape of the usual recovery: a failing run, a retry, then a passing run in a fresh pod. */
  lemma RetryThenPass(idx: int, logFile: string, env: nat -> PodRun, recovery: Recovery, first: seq<string>, second: seq<string>)
    requires env(0) == Closed(ReportedExit(1), Downloaded(first), None)
    requires env(1) == Closed(ReportedExit(0), Downloaded(second), None)
    ensures ExecuteShard(idx, NumberOfRetries, logFile, env, recovery)
         == ShardRun(Completed(KubePodResult(idx, 0, logFile, second)), 2)
  {
    ExitCodeRoundTrip(1);
    ExitCodeRoundTrip(0);
    var s := Retry.Strategy(NumberOfRetries, 0);
    var op := AttemptOp(idx, NumberOfRetries, logFile, env);
    assert op(0) == Retry.Threw(Exception(InvalidUserCode));
    assert op(1).Returned?;
    var run := Retry.Call(s, op);
    assert run.invocations == 2;
  }

  /**
   * The last-attempt rule counts non-zero exits, not attempts: after one pod that never
   * started, two failing test runs both retry, the budget runs out, and the shard reports
   * the recovery pod's results under code 255 instead of the real exit code.
   */
  lemma InfrastructureFailureUsesUpTheBudget(idx: int, logFile: string, env: nat -> PodRun, folders: seq<string>, f1: seq<string>, f2: seq<string>)
    requires env(0) == SetupFailed(Exception(IO))
    requires env(1) == Closed(ReportedExit(1), Downloaded(f1), None)
    requires env(2) == Closed(ReportedExit(1), Downloaded(f2), None)
    ensures ExecuteShard(idx, NumberOfRetries, logFile, env, Recovered(folders))
         == ShardRun(Completed(KubePodResult(idx, RecoveredCode, logFile, folders)), 3)
  {
    ExitCodeRoundTrip(1);
    var s := Retry.Strategy(NumberOfRetries, 0);
    var op := AttemptOp(idx, NumberOfRetries, logFile, env);
    assert NonZeroExitsBefore(env, 2) == 1;
    assert op(0) == Retry.Threw(Exception(IO));
    assert op(1) == Retry.Threw(Exception(InvalidUserCode));
    assert op(2) == Retry.Threw(Exception(InvalidUserCode));
    Retry.AlwaysThrowingExhausts(s, op);
  }

  /** When no attempt gets a pod running, an interrupted recovery aborts the shard. */
  lemma InterruptedRecoveryAborts(idx: int, logFile: string, env: nat -> PodRun)
    requires forall k :: 0 <= k < NumberOfRetries ==> env(k).SetupFailed? && env(k).cause.Exception?
    ensures ExecuteShard(idx, NumberOfRetries, logFile, env, RecoveryInterrupted)
         == ShardRun(Aborted(Exception(InvalidUserCode)), NumberOfRetries)
  {
    var s := Retry.Strategy(NumberOfRetries, 0);
    var op := AttemptOp(idx, NumberOfRetries, logFile, env);
    assert forall k: nat :: op(k) == Attempt(idx, NumberOfRetries, logFile, env, k);
    Retry.AlwaysThrowingExhausts(s, op);
  }

  /** An `Error` is not retried: it ends the shard after the attempt that threw it. */
  lemma ErrorEndsTheShard(idx: int, logFile: string, env: nat -> PodRun, recovery: Recovery, name: string)
    requires env(0) == SetupFailed(Error(name))
    ensures ExecuteShard(idx, NumberOfRetries, logFile, env, recovery) == ShardRun(Aborted(Error(name)), 1)
  {
    var s := Retry.Strategy(NumberOfRetries, 0);
    var op := AttemptOp(idx, NumberOfRetries, logFile, env);
    assert op(0) == Retry.Threw(Error(name));
    var run := Retry.Call(s, op);
    assert run.invocations == 1;
  }
}

=== FILE: src_retry.dfy ===
/**
 * The older retry primitive (`Retry.fixed` and `RetryStrategy.run` of the main source tree):
 * the same counted loop without a delay and without the `Runnable` overload.
 */
module SrcRetry {
  import opened Wrappers
  import Retry

  /** `Retry.fixed(times, logger)`: rejects `times < 1` at construction. */
  function Fixed(times: int): (r: Result<Retry.ValidStrategy, Exc>)
    ensures r.Failure? <==> times < 1
    ensures r.Failure? ==> r.error == IllegalArgument
    ensures r.Success? ==> r.value.times == times
  {
    if times < 1 then Failure(IllegalArgument) else Success(Retry.Strategy(times, 0))
  }

  /** The loop of `run(op)` from `run` on; nothing is slept, so the trace has no sleeps. */
  function RunFrom<T>(times: int, op: nat -> Retry.Outcome<T>, run: nat): (r: Retry.Run<T>)
    requires run < times
    ensures run < r.invocations <= times
    ensures r.sleeps == []
    ensures forall k :: run <= k < r.invocations - 1 ==> Retry.Caught(op(k))
    ensures r.ending.Succeeded? <==> op(r.invocations - 1).Returned?
    ensures r.ending.Exhausted? ==> r.invocations == times && Retry.Caught(op(times - 1))
                                    && r.ending.last == op(times - 1).cause
    ensures |r.warnings| == r.invocations - run - (if Retry.Caught(op(r.invocations - 1)) then 0 else 1)
    ensures forall j :: 0 <= j < |r.warnings| ==> r.warnings[j] == times - (run + j + 1)
    decreases times - run
  {
    match op(run)
    case Returned(v) => Retry.Run(Retry.Succeeded(v), run + 1, [], [])
    case Threw(t) =>
      if t.Error? then Retry.Run(Retry.Escaped(t), run + 1, [], [])
      else
        var warning := times - (run + 1);
        if run + 1 == times then Retry.Run(Retry.Exhausted(t), run + 1, [], [warning])
        else
          var rest := RunFrom(times, op, run + 1);
          Retry.Run(rest.ending, rest.invocations, [], [warning] + rest.warnings)
  }

  /** `RetryStrategy.run(op)`. */
  function Run<T>(s: Retry.ValidStrategy, op: nat -> Retry.Outcome<T>): (r: Retry.Run<T>)
    ensures 0 < r.invocations <= s.times
    ensures r.sleeps == []
    ensures r.ending.Succeeded? <==> op(r.invocations - 1).Returned?
    ensures r.ending.Exhausted? ==> r.invocations == s.times && r.ending.last == op(s.times - 1).cause
    ensures forall j :: 0 <= j < |r.warnings| ==> r.warnings[j] == s.times - (j + 1)
    ensures r.ending.Exhausted? ==> |r.warnings| == s.times && r.warnings[s.times - 1] == 0
  {
    RunFrom(s.times, op, 0)
  }

  /** What a caller and its log can observe of a run: everything but the sleeps. */
  function Observable<T>(r: Retry.Run<T>): (Retry.Ending<T>, nat, seq<int>) {
    (r.ending, r.invocations, r.warnings)
  }

  lemma {:induction false} RunFromAgrees<T>(s: Retry.ValidStrategy, op: nat -> Retry.Outcome<T>, run: nat)
    requires s.delay == 0
    requires run < s.times
    ensures Observable(RunFrom(s.times, op, run)) == Observable(Retry.CallFrom(s, op, run))
    decreases s.times - run
  {
    match op(run)
    case Returned(v) =>
      assert RunFrom(s.times, op, run) == Retry.Run(Retry.Succeeded(v), run + 1, [], []);
      assert Retry.CallFrom(s, op, run) == Retry.Run(Retry.Succeeded(v), run + 1, [], []);
    case Threw(t) =>
      if t.Error? {
        assert RunFrom(s.times, op, run) == Retry.Run(Retry.Escaped(t), run + 1, [], []);
        assert Retry.CallFrom(s, op, run) == Retry.Run(Retry.Escaped(t), run + 1, [], []);
      } else if run + 1 == s.times {
        assert RunFrom(s.times, op, run) == Retry.Run(Retry.Exhausted(t), run + 1, [], [0]);
        assert Retry.CallFrom(s, op, run) == Retry.Run(Retry.Exhausted(t), run + 1, [0], [0]);
      } else {
        RunFromAgrees(s, op, run + 1);
        var a := RunFrom(s.times, op, run + 1);
        var b := Retry.CallFrom(s, op, run + 1);
        var w := s.times - (run + 1);
        assert RunFrom(s.times, op, run) == Retry.Run(a.ending, a.invocations, [], [w] + a.warnings);
        assert Retry.CallFrom(s, op, run) == Retry.Run(b.ending, b.invocations, [0] + b.sleeps, [w] + b.warnings);
      }
  }

  /**
   * The two copies agree: the main tree's `run` ends the same way, after the same number of
   * invocations and with the same warnings, as the plugin's `call` on `fixed(times)`;
   * only the zero-length sleeps differ.
   */
  lemma CopiesAgree<T>(times: int, op: nat -> Retry.Outcome<T>)
    ensures Fixed(times).Failure? <==> Retry.Fixed(times).Failure?
    ensures Fixed(times).Success? ==>
      var r := Run(Fixed(times).value, op);
      var c := Retry.Call(Retry.Fixed(times).value, op);
      Observable(r) == Observable(c)
  {
    if times >= 1 {
      RunFromAgrees(Fixed(times).value, op, 0);
    }
  }
}

=== FILE: src_test_group.dfy ===
/**
 * The second `ParallelTestGroup`: pod resources are not fields of the group but come
 * from an `InfrastructureProfile` handed to it, which is null until `profile(...)` is called.
 */
module SrcTestGroup {
  import opened Wrappers
  import opened JavaInt
  import BuildArgs
  import ListTests
  import InfrastructureProfile

  datatype Group = Group(
    logLevel: BuildArgs.PodLogLevel,
    groups: seq<string>,
    profile: Option<InfrastructureProfile.Profile>,
    distribution: ListTests.DistributeTestsBy,
    sidecarImage: Option<string>,
    additionalArgs: seq<string>)

  /** A freshly registered group: no profile yet. */
  const Default: Group := Group(BuildArgs.Info, [], None, ListTests.Method, None, [])

  /** One configuration call, with its arguments. */
  datatype Call =
    | UseProfile(p: Option<InfrastructureProfile.Profile>)
    | PodLogLevel(level: BuildArgs.PodLogLevel)
    | Distribute(dist: ListTests.DistributeTestsBy)
    | TestGroups(names: seq<string>)
    | SidecarImage(image: Option<string>)
    | AdditionalArgs(args: seq<string>)

  /** Which field a call writes. */
  function Field(c: Call): nat {
    match c
    case UseProfile(_) => 0
    case PodLogLevel(_) => 1
    case Distribute(_) => 2
    case TestGroups(_) => 3
    case SidecarImage(_) => 4
    case AdditionalArgs(_) => 5
  }

  /** The calls that add to a list instead of replacing a value. */
  predicate Appends(c: Call) {
    Field(c) == 3 || Field(c) == 5
  }

  function Items(c: Call): seq<string> {
    match c
    case TestGroups(ns) => ns
    case AdditionalArgs(xs) => xs
    case _ => []
  }

  /** What the getter of `c`'s field returns, as the call that would store it. */
  function Get(g: Group, c: Call): (r: Call)
    ensures Field(r) == Field(c)
  {
    match c
    case UseProfile(_) => UseProfile(g.profile)
    case PodLogLevel(_) => PodLogLevel(g.logLevel)
    case Distribute(_) => Distribute(g.distribution)
    case TestGroups(_) => TestGroups(g.groups)
    case SidecarImage(_) => SidecarImage(g.sidecarImage)
    case AdditionalArgs(_) => AdditionalArgs(g.additionalArgs)
  }

  /** One call: `profile(p)` and the setters replace, `testGroups` and `additionalArgs` append. */
  function Apply(g: Group, c: Call): (r: Group)
    ensures !Appends(c) ==> Get(r, c) == c
    ensures Appends(c) ==> Items(Get(r, c)) == Items(Get(g, c)) + Items(c)
    ensures forall t :: Field(t) != Field(c) ==> Get(r, t) == Get(g, t)
  {
    match c
    case UseProfile(p) => g.(profile := p)
    case PodLogLevel(l) => g.(logLevel := l)
    case Distribute(d) => g.(distribution := d)
    case TestGroups(ns) => g.(groups := g.groups + ns)
    case SidecarImage(i) => g.(sidecarImage := i)
    case AdditionalArgs(xs) => g.(additionalArgs := g.additionalArgs + xs)
  }

  function Configure(g: Group, cs: seq<Call>): Group
  {
    if |cs| == 0 then g else Apply(Configure(g, cs[..|cs| - 1]), cs[|cs| - 1])
  }

  lemma SameFieldSameGet(g: Group, a: Call, b: Call)
    requires Field(a) == Field(b)
    ensures Get(g, a) == Get(g, b)
  {
  }

  /** Each replacing call's value stands until the next call to the same method. */
  lemma {:induction false} LastSettingWins(g: Group, cs: seq<Call>, i: int)
    requires 0 <= i < |cs| && !Appends(cs[i])
    requires forall j :: i < j < |cs| ==> Field(cs[j]) != Field(cs[i])
    ensures Get(Configure(g, cs), cs[i]) == cs[i]
  {
    if i < |cs| - 1 {
      LastSettingWins(g, cs[..|cs| - 1], i);
    }
  }

  /** Everything the calls that write `t`'s field add, in call order. */
  function Added(cs: seq<Call>, t: Call): seq<string>
  {
    if |cs| == 0 then []
    else Added(cs[..|cs| - 1], t) + (if Field(cs[|cs| - 1]) == Field(t) then Items(cs[|cs| - 1]) else [])
  }

  /** Groups and extra arguments hold every item added to them, in call order. */
  lemma {:induction false} ListsOnlyGrow(g: Group, cs: seq<Call>, t: Call)
    requires Appends(t)
    ensures Items(Get(Configure(g, cs), t)) == Items(Get(g, t)) + Added(cs, t)
  {
    if |cs| > 0 {
      var init := cs[..|cs| - 1];
      var c := cs[|cs| - 1];
      ListsOnlyGrow(g, init, t);
      var before := Configure(g, init);
      var after := Apply(before, c);
      if Field(c) == Field(t) {
        SameFieldSameGet(before, c, t);
        SameFieldSameGet(after, c, t);
        assert Items(Get(after, t)) == Items(Get(before, t)) + Items(c);
        assert Added(cs, t) == Added(init, t) + Items(c);
      } else {
        assert Get(after, t) == Get(before, t);
        assert Added(cs, t) == Added(init, t) + [];
      }
    }
  }

  /**
   * `getShardCount`, `getCoresToUse`, `getGbOfMemory`, `getPrintToStdOut` and
   * `getNodeTaints`: the profile's value, or a `NullPointerException` without a profile.
   */
  function FromProfile(g: Group, s: InfrastructureProfile.Setting): (r: Result<InfrastructureProfile.Setting, Exc>)
    ensures r.Failure? <==> g.profile.None?
    ensures r.Failure? ==> r.error == NullPointer
    ensures r.Success? ==> InfrastructureProfile.Field(r.value) == InfrastructureProfile.Field(s)
  {
    match g.profile
    case None => Failure(NullPointer)
    case Some(p) => Success(InfrastructureProfile.Get(p, s))
  }

  /**
   * A group whose last `profile(...)` call handed it a profile configured by `ss` reads each
   * resource from the last setting of that profile.
   */
  lemma ReadsTheLastProfile(cs: seq<Call>, i: int, ss: seq<InfrastructureProfile.Setting>, k: int)
    requires 0 <= i < |cs| && cs[i] == UseProfile(Some(InfrastructureProfile.Configure(InfrastructureProfile.Default, ss)))
    requires forall j :: i < j < |cs| ==> Field(cs[j]) != Field(cs[i])
    requires 0 <= k < |ss| && forall j :: k < j < |ss| ==> InfrastructureProfile.Field(ss[j]) != InfrastructureProfile.Field(ss[k])
    ensures FromProfile(Configure(Default, cs), ss[k]) == Success(ss[k])
  {
    LastSettingWins(Default, cs, i);
    InfrastructureProfile.LastSettingWins(InfrastructureProfile.Default, ss, k);
  }

  /** Without any `profile(...)` call every resource getter fails. */
  lemma {:induction false} NoProfileNoResources(cs: seq<Call>, s: InfrastructureProfile.Setting)
    requires forall j :: 0 <= j < |cs| ==> !cs[j].UseProfile?
    ensures FromProfile(Configure(Default, cs), s) == Failure(NullPointer)
  {
    if |cs| > 0 {
      NoProfileNoResources(cs[..|cs| - 1], s);
      assert Field(cs[|cs| - 1]) != Field(UseProfile(None));
    }
  }
}

=== FILE: supported_database.dfy ===
/**
 * The databases a parallel test group can run against: the suffix of the database
 * sidecar container, its environment, and the MSSQL administrator password read from
 * the group's extra arguments.
 */
module SupportedDatabase {
  import opened Wrappers
  import opened JavaStrings

  datatype Database = Postgres | Mssql | Azure

  /** The enum constant's name, as `toString` gives it. */
  function Name(d: Database): string {
    match d
    case Postgres => "POSTGRES"
    case Mssql => "MSSQL"
    case Azure => "AZURE"
  }

  /** `asLowerCase`: the constant's name in lower case. */
  function AsLowerCase(d: Database): (r: string)
    ensures |r| == |Name(d)|
  {
    ToLower(Name(d))
  }

  /** The lower-case names are the ones build scripts use, and they tell the databases apart. */
  lemma LowerCaseNames(d: Database, e: Database)
    ensures AsLowerCase(Postgres) == "postgres"
    ensures AsLowerCase(Mssql) == "mssql"
    ensures AsLowerCase(Azure) == "azure"
    ensures AsLowerCase(d) == AsLowerCase(e) ==> d == e
  {
    assert ToLower("POSTGRES") == "postgres";
    assert ToLower("MSSQL") == "mssql";
    assert ToLower("AZURE") == "azure";
  }

  /** `getDBContainerSuffix`: Azure SQL runs outside the pod, so it has no sidecar to name. */
  function ContainerSuffix(d: Database): (r: Result<string, Exc>)
    ensures r.Failure? <==> d == Azure
    ensures r.Failure? ==> r.error == IllegalState
    ensures r.Success? ==> |r.value| > 1 && r.value[0] == '-' && AsLowerCase(d)[0] == r.value[1]
  {
    match d
    case Postgres =>
      assert AsLowerCase(d)[0] == LowerChar('P');
      Success("-pg")
    case Mssql =>
      assert AsLowerCase(d)[0] == LowerChar('M');
      Success("-mssql")
    case Azure => Failure(IllegalState)
  }

  /** The two sidecar suffixes differ. */
  lemma SuffixesDiffer()
    ensures ContainerSuffix(Postgres).value != ContainerSuffix(Mssql).value
  {
    assert |ContainerSuffix(Postgres).value| != |ContainerSuffix(Mssql).value|;
  }

  /** The argument text that marks an MSSQL password argument. */
  const PasswordKey: string := "test.db.admin.password"

  predicate IsPasswordArg(arg: string) {
    Contains(arg, PasswordKey)
  }

  /**
   * The password parts of the arguments, in order: each matching argument with
   * everything up to its last `=` removed (`replaceAll(".*=", "")`).
   */
  function PasswordParts(args: seq<string>): (parts: seq<string>)
    ensures |parts| <= |args|
    ensures forall k :: 0 <= k < |parts| ==> '=' !in parts[k]
  {
    if |args| == 0 then []
    else (if IsPasswordArg(args[0]) then [LastSegment(args[0], '=')] else []) + PasswordParts(args[1..])
  }

  /** `getMSSQLDBPassword`. */
  function MssqlPassword(args: seq<string>): (r: Result<string, Exc>)
    ensures r.Failure? <==> forall i :: 0 <= i < |args| ==> !IsPasswordArg(args[i])
    ensures r.Failure? ==> r.error == IllegalArgument
  {
    if forall i :: 0 <= i < |args| ==> !IsPasswordArg(args[i]) then Failure(IllegalArgument)
    else Success(Concat(PasswordParts(args)))
  }

  lemma {:induction false} PartsAppend(a: seq<string>, b: seq<string>)
    ensures PasswordParts(a + b) == PasswordParts(a) + PasswordParts(b)
  {
    if |a| > 0 {
      assert (a + b)[1..] == a[1..] + b;
      PartsAppend(a[1..], b);
    } else {
      assert a + b == b;
    }
  }

  lemma {:induction false} NoPartsWithoutKey(args: seq<string>)
    requires forall i :: 0 <= i < |args| ==> !IsPasswordArg(args[i])
    ensures PasswordParts(args) == []
  {
    if |args| > 0 {
      NoPartsWithoutKey(args[1..]);
    }
  }

  lemma {:induction false} ConcatHasNoEquals(xs: seq<string>)
    requires forall k :: 0 <= k < |xs| ==> '=' !in xs[k]
    ensures '=' !in Concat(xs)
  {
    if |xs| > 0 {
      ConcatHasNoEquals(xs[1..]);
    }
  }

  /** Whatever the arguments say, a password that is read never contains `=`. */
  lemma PasswordHasNoEquals(args: seq<string>)
    requires MssqlPassword(args).Success?
    ensures '=' !in MssqlPassword(args).value
  {
    ConcatHasNoEquals(PasswordParts(args));
  }

  lemma PartsOfOne(arg: string)
    ensures PasswordParts([arg]) == if IsPasswordArg(arg) then [LastSegment(arg, '=')] else []
  {
    assert [arg][1..] == [];
  }

  /** `key=pw` is a password argument whose password part is `pw`. */
  lemma KeyedArg(key: string, pw: string)
    requires IsPasswordArg(key) && '=' !in pw
    ensures IsPasswordArg(key + "=" + pw)
    ensures LastSegment(key + "=" + pw, '=') == pw
  {
    ContainsExtended("", key, "=" + pw, PasswordKey);
    assert "" + key + ("=" + pw) == key + "=" + pw;
    LastSegmentAfter(key, pw, '=');
    assert key + "=" + pw == key + ['='] + pw;
  }

  lemma {:induction false} PartsAround(pre: seq<string>, arg: string, post: seq<string>)
    requires forall i :: 0 <= i < |pre| ==> !IsPasswordArg(pre[i])
    requires forall i :: 0 <= i < |post| ==> !IsPasswordArg(post[i])
    ensures PasswordParts(pre + [arg] + post) == PasswordParts([arg])
  {
    PartsAppend(pre + [arg], post);
    PartsAppend(pre, [arg]);
    NoPartsWithoutKey(pre);
    NoPartsWithoutKey(post);
  }

  /**
   * A single `...test.db.admin.password...=pw` argument among unrelated ones yields `pw`,
   * provided `pw` itself holds no `=`.
   */
  lemma PasswordRead(pre: seq<string>, key: string, pw: string, post: seq<string>)
    requires forall i :: 0 <= i < |pre| ==> !IsPasswordArg(pre[i])
    requires forall i :: 0 <= i < |post| ==> !IsPasswordArg(post[i])
    requires IsPasswordArg(key) && '=' !in pw
    ensures MssqlPassword(pre + [key + "=" + pw] + post) == Success(pw)
  {
    var arg := key + "=" + pw;
    KeyedArg(key, pw);
    PartsOfOne(arg);
    PartsAround(pre, arg, post);
    var args := pre + [arg] + post;
    assert args[|pre|] == arg;
    assert Concat([pw]) == pw + "" == pw;
  }

  /** A password argument without `=` is taken whole, key text included. */
  lemma ArgWithoutEqualsKeptWhole(arg: string)
    requires IsPasswordArg(arg) && '=' !in arg
    ensures MssqlPassword([arg]) == Success(arg)
  {
    PartsOfOne(arg);
    assert [arg][0] == arg;
    assert Concat([arg]) == arg + "" == arg;
  }

  /** Two password arguments are run together, in argument order. */
  lemma TwoPasswordArgsConcatenate(k1: string, p1: string, k2: string, p2: string)
    requires IsPasswordArg(k1) && IsPasswordArg(k2) && '=' !in p1 && '=' !in p2
    ensures MssqlPassword([k1 + "=" + p1, k2 + "=" + p2]) == Success(p1 + p2)
  {
    var a1 := k1 + "=" + p1;
    var a2 := k2 + "=" + p2;
    KeyedArg(k1, p1);
    KeyedArg(k2, p2);
    PartsOfOne(a1);
    PartsOfOne(a2);
    PartsAppend([a1], [a2]);
    assert [a1] + [a2] == [a1, a2];
    assert [a1, a2][0] == a1;
    assert [p1, p2][1..] == [p2];
    assert Concat([p2]) == p2 + "" == p2;
    assert Concat([p1, p2]) == p1 + p2;
  }

  /** `getEnvVars`: the environment of the database container. */
  function EnvVars(d: Database, args: seq<string>): (r: Result<map<string, string>, Exc>)
    ensures r.Failure? <==> d == Mssql && MssqlPassword(args).Failure?
    ensures r.Failure? ==> r.error == IllegalArgument
    ensures d == Postgres ==> r == Success(map["POSTGRES_HOST_AUTH_METHOD" := "trust"])
    ensures d == Azure ==> r == Success(map[])
    ensures d == Mssql && r.Success? ==>
      r.value.Keys == {"ACCEPT_EULA", "SA_PASSWORD"} && r.value["ACCEPT_EULA"] == "Y" &&
      r.value["SA_PASSWORD"] == MssqlPassword(args).value
  {
    match d
    case Postgres => Success(map["POSTGRES_HOST_AUTH_METHOD" := "trust"])
    case Mssql =>
      var pw :- MssqlPassword(args);
      Success(map["ACCEPT_EULA" := "Y", "SA_PASSWORD" := pw])
    case Azure => Success(map[])
  }

  /** An MSSQL group configured with one password argument hands that password to the container. */
  lemma MssqlContainerGetsThePassword(pre: seq<string>, key: string, pw: string, post: seq<string>)
    requires forall i :: 0 <= i < |pre| ==> !IsPasswordArg(pre[i])
    requires forall i :: 0 <= i < |post| ==> !IsPasswordArg(post[i])
    requires IsPasswordArg(key) && '=' !in pw
    ensures EnvVars(Mssql, pre + [key + "=" + pw] + post) == Success(map["ACCEPT_EULA" := "Y", "SA_PASSWORD" := pw])
  {
    PasswordRead(pre, key, pw, post);
  }
}

=== FILE: task_naming.dfy ===
/**
 * How the plugin names the tasks and directories it creates, and how it reads integer
 * project properties. Both the sub-project and root-project helpers and the plugin's
 * `capitalize` build names as prefix + name with its first character upper-cased.
 */
module TaskNaming {
  import opened Wrappers
  import opened JavaInt
  import opened JavaNumbers
  import opened JavaStrings
  import PodShape
  import ListTests

  const ListTestsFor: string := "listTestsFor"
  const PrintTestsFor: string := "printTestsFor"
  const Parallel: string := "parallel"
  const PreAllocateFor: string := "preAllocateFor"
  const DeAllocateFor: string := "deAllocateFor"
  const UserDefined: string := "userDefined"
  const UserDefinedReports: string := "userDefinedReports"

  /**
   * `name.substring(0, 1).toUpperCase() + name.substring(1)`; the first `substring`
   * throws on the empty name.
   */
  function Capitalize(name: string): (r: Result<string, Exc>)
    ensures r.Failure? <==> |name| == 0
    ensures r.Failure? ==> r.error == IndexOutOfBounds
    ensures r.Success? ==> |r.value| == |name| && r.value[1..] == name[1..]
    ensures r.Success? ==> LowerChar(r.value[0]) == LowerChar(name[0]) && !('a' <= r.value[0] <= 'z')
  {
    if |name| == 0 then Failure(IndexOutOfBounds)
    else Success(ToUpper1(name[..1]) + name[1..])
  }

  /** `toUpperCase` of a one-character string. */
  function ToUpper1(s: string): (r: string)
    requires |s| == 1
    ensures |r| == 1 && r[0] == UpperChar(s[0])
  {
    [UpperChar(s[0])]
  }

  /** Capitalising twice changes nothing more. */
  lemma CapitalizeIdempotent(name: string)
    requires |name| > 0
    ensures Capitalize(Capitalize(name).value) == Capitalize(name)
  {
    var c := Capitalize(name).value;
    assert c[0] == UpperChar(name[0]);
    assert UpperChar(c[0]) == c[0];
    assert [c[0]] + c[1..] == c;
  }

  /** `newTaskName(prefix, task)`. */
  function NewTaskName(prefix: string, name: string): (r: Result<string, Exc>)
    ensures r.Failure? <==> |name| == 0
    ensures r.Success? ==> StartsWith(r.value, prefix) && |r.value| == |prefix| + |name|
    ensures r.Success? ==> r.value[|prefix| + 1..] == name[1..]
  {
    var cap :- Capitalize(name);
    assert (prefix + cap)[..|prefix|] == prefix;
    assert (prefix + cap)[|prefix| + 1..] == cap[1..];
    Success(prefix + cap)
  }

  /** Capitalising a word whose first letter is given separately. */
  lemma CapitalizeWord(first: string, rest: string)
    requires |first| == 1
    ensures Capitalize(first + rest) == Success([UpperChar(first[0])] + rest)
  {
    assert (first + rest)[..1] == first;
    assert (first + rest)[1..] == rest;
  }

  /** The three tasks created for a `Test` task called `test`. */
  lemma TasksForTest()
    ensures NewTaskName(ListTestsFor, "test") == Success("listTestsForTest")
    ensures NewTaskName(PrintTestsFor, "test") == Success("printTestsForTest")
    ensures NewTaskName(Parallel, "test") == Success("parallelTest")
  {
    CapitalizeWord("t", "est");
    assert "t" + "est" == "test";
    assert [UpperChar('t')] + "est" == "Test";
    assert ListTestsFor + "Test" == "listTestsForTest";
    assert PrintTestsFor + "Test" == "printTestsForTest";
    assert Parallel + "Test" == "parallelTest";
  }

  /** Names whose rest differs get different task names under one prefix. */
  lemma TaskNamesKeepTheRest(prefix: string, a: string, b: string)
    requires |a| > 0 && |b| > 0 && a[1..] != b[1..]
    ensures NewTaskName(prefix, a) != NewTaskName(prefix, b)
  {
  }

  /**
   * The parallel-test task of a group named `reportsX` and the reports task of a group
   * named `x` get the same name, because one prefix extends the other.
   */
  lemma UserDefinedNamesCanCollide()
    ensures NewTaskName(UserDefined, "reportsA") == NewTaskName(UserDefinedReports, "a")
  {
    CapitalizeWord("r", "eportsA");
    assert "r" + "eportsA" == "reportsA";
    assert [UpperChar('r')] + "eportsA" == "ReportsA";
    CapitalizeWord("a", "");
    assert "a" + "" == "a";
    assert [UpperChar('a')] + "" == "A";
    assert UserDefined + "ReportsA" == UserDefinedReports + "A";
  }

  /** The pre- and de-allocation task names of one group always differ. */
  lemma AllocationTaskNamesDiffer(group: string)
    requires |group| > 0
    ensures NewTaskName(PreAllocateFor, group).value != NewTaskName(DeAllocateFor, group).value
  {
    var pre := NewTaskName(PreAllocateFor, group).value;
    var de := NewTaskName(DeAllocateFor, group).value;
    assert pre[0] == 'p' && de[0] == 'd';
  }

  /** `getClassesTaskFor`: the compile task of the source set behind a test task. */
  function ClassesTaskName(task: string): (r: string)
    ensures |r| == |task| + 7 && EndsWith(r, "Classes") && r[..|task|] == task
  {
    task + "Classes"
  }

  /** `createReportsDirFor`: `TEST_RUN_DIR/test-reports/<sub-project>-<task>`. */
  function ReportsDir(subProject: string, task: string): (r: string)
    ensures StartsWith(r, PodShape.TestRunDir + "/test-reports/")
    ensures EndsWith(r, "-" + task)
  {
    var base := PodShape.TestRunDir + "/test-reports/";
    var r := base + subProject + "-" + task;
    assert r[..|base|] == base;
    assert r[|r| - |"-" + task|..] == "-" + task;
    r
  }

  /** Two tasks of one sub-project report into different directories. */
  lemma ReportsDirsDiffer(subProject: string, t1: string, t2: string)
    requires t1 != t2
    ensures ReportsDir(subProject, t1) != ReportsDir(subProject, t2)
  {
    var base := PodShape.TestRunDir + "/test-reports/" + subProject + "-";
    assert ReportsDir(subProject, t1) == base + t1;
    assert ReportsDir(subProject, t2) == base + t2;
    assert (base + t1)[|base|..] == t1;
  }

  /** `createUserDefinedReportsDirFor`: `<root build dir>/userDefinedReports<Group>`. */
  function UserDefinedReportsDir(buildDir: string, group: string): (r: Result<string, Exc>)
    ensures r.Success? <==> NewTaskName(UserDefinedReports, group).Success?
    ensures r.Success? ==> r.value == buildDir + "/" + NewTaskName(UserDefinedReports, group).value
  {
    var name :- NewTaskName(UserDefinedReports, group);
    Success(buildDir + "/" + name)
  }

  /**
   * `getPropertyAsInt`: the default when the project has no such property, otherwise
   * `Integer.parseInt` of its text, which throws on anything that is not an `int`.
   */
  function PropertyAsInt(props: map<string, string>, name: string, default: Int32): (r: Result<Int32, Exc>)
    ensures name !in props ==> r == Success(default)
    ensures r.Failure? <==> name in props && ParseInt(props[name]).None?
    ensures r.Failure? ==> r.error == NumberFormat
    ensures r.Success? && name in props ==> r.value == ParseInt(props[name]).value
  {
    if name !in props then Success(default)
    else
      match ParseInt(props[name])
      case Some(v) => Success(v)
      case None => Failure(NumberFormat)
  }

  /** A property set to a printed `int` reads back as that `int`, whatever the default. */
  lemma PropertyReadBack(props: map<string, string>, name: string, v: Int32, default: Int32)
    ensures PropertyAsInt(props[name := IntToString(v)], name, default) == Success(v)
  {
    ParseIntOfToString(v);
  }

  /** `isTaskRequested`: the task was named on the command line. */
  predicate IsTaskRequested(requested: set<string>, name: string) {
    name in requested
  }

  /** `createGlobalAllocator`: the number of forks the bucketing allocator splits into. */
  function GlobalAllocatorForks(props: map<string, string>): (r: Result<Int32, Exc>)
    ensures "dockerForks" !in props ==> r == Success(1)
    ensures "dockerForks" in props ==> (r.Success? <==> ParseInt(props["dockerForks"]).Some?)
    ensures "dockerForks" in props && r.Success? ==> r.value == ParseInt(props["dockerForks"]).value
    ensures r.Failure? ==> r.error == NumberFormat
  {
    PropertyAsInt(props, "dockerForks", 1)
  }

  /** The seed the `printTestsFor...` task asks for. */
  const PrintSeed: Int32 := 42

  /**
   * The `printTestsFor...` task: the tests of fork `dockerFork` (default 0) of
   * `dockerForks` (default 1), listed with seed 42.
   */
  function PrintedTests(l: ListTests.Lister, props: map<string, string>, revision: Option<string>,
                        allocate: ListTests.Allocator): (r: Result<seq<string>, Exc>)
    ensures PropertyAsInt(props, "dockerFork", 0).Failure? ==> r.Failure?
    ensures PropertyAsInt(props, "dockerForks", 1).Failure? ==> r.Failure?
  {
    var fork :- PropertyAsInt(props, "dockerFork", 0);
    var forks :- PropertyAsInt(props, "dockerForks", 1);
    ListTests.TestsForFork(l, revision, fork, forks, Some(PrintSeed), allocate)
  }

  /** With no properties at all, the print task shows fork 0 of 1 with seed 42 plus the path hash. */
  lemma PrintDefaults(l: ListTests.Lister, allocate: ListTests.Allocator)
    ensures PrintedTests(l, map[], None, allocate) == Success(allocate(l.allTests, 0, 1, Add(PrintSeed, HashCode(l.path))))
  {
    ListTests.DefaultRevisionAddsNothing(l, 0, 1, PrintSeed, allocate);
  }

  /** Asking the print task for fork n of n fails the bounds check. */
  lemma PrintForkOutOfRange(l: ListTests.Lister, n: Int32, allocate: ListTests.Allocator)
    ensures PrintedTests(l, map["dockerFork" := IntToString(n), "dockerForks" := IntToString(n)], None, allocate) ==
      Failure(IllegalArgument)
  {
    var props := map["dockerFork" := IntToString(n), "dockerForks" := IntToString(n)];
    assert props == map["dockerFork" := IntToString(n)]["dockerForks" := IntToString(n)];
    PropertyReadBack(map["dockerFork" := IntToString(n)], "dockerForks", n, 1);
    PropertyReadBack(map[], "dockerFork", n, 0);
    assert props["dockerFork"] == IntToString(n);
    assert PropertyAsInt(props, "dockerFork", 0) == Success(n);
    ListTests.NegativeForkPassesTheCheck(l, -1, 0, Some(PrintSeed), allocate);
  }
}

=== FILE: test_filter.dfy ===
/**
 * The worker-side test filter: before a modified test task runs, it includes the tests the
 * allocator gave to this fork and excludes those the ledger says already passed.
 */
module TestFilter {
  import opened Wrappers
  import Ledger
  import JavaStrings

  /** The exclude pattern that disables a task whose fork received no tests. */
  const MatchEverything: string := "*"

  /** The patterns a test task's filter ends up with. */
  datatype FilterSpec = FilterSpec(includes: seq<string>, excludes: seq<string>, failOnNoMatchingTests: bool)

  /** The elements of `xs` that occur in `ys`, in the order of `xs` (`stream().filter(ys::contains)`). */
  function Keep(xs: seq<string>, ys: seq<string>): (r: seq<string>)
    ensures forall x :: x in r <==> x in xs && x in ys
    ensures |r| <= |xs|
    ensures |ys| == 0 ==> r == []
  {
    if |xs| == 0 then []
    else (if xs[0] in ys then [xs[0]] else []) + Keep(xs[1..], ys)
  }

  /** `List.removeAll`: every element of `xs` that occurs in `ys` goes, the rest keep their order. */
  function Drop(xs: seq<string>, ys: seq<string>): (r: seq<string>)
    ensures forall x :: x in r <==> x in xs && x !in ys
    ensures |r| <= |xs|
  {
    if |xs| == 0 then []
    else (if xs[0] in ys then [] else [xs[0]]) + Drop(xs[1..], ys)
  }

  /** Keeping and dropping the same elements splits a list without losing or adding any. */
  lemma {:induction false} KeepDropPartition(xs: seq<string>, ys: seq<string>)
    ensures multiset(Keep(xs, ys)) + multiset(Drop(xs, ys)) == multiset(xs)
  {
    if |xs| > 0 {
      var x, rest := xs[0], xs[1..];
      var k, d := Keep(rest, ys), Drop(rest, ys);
      KeepDropPartition(rest, ys);
      assert multiset(xs) == multiset{x} + multiset(rest) by {
        assert xs == [x] + rest;
      }
      if x in ys {
        assert multiset(Keep(xs, ys)) == multiset{x} + multiset(k) by {
          assert Keep(xs, ys) == [x] + k;
        }
        assert multiset(Drop(xs, ys)) == multiset(d) by {
          assert Drop(xs, ys) == [] + d;
        }
      } else {
        assert multiset(Keep(xs, ys)) == multiset(k) by {
          assert Keep(xs, ys) == [] + k;
        }
        assert multiset(Drop(xs, ys)) == multiset{x} + multiset(d) by {
          assert Drop(xs, ys) == [x] + d;
        }
      }
    }
  }

  /** Keeping from a list none of whose elements occur gives nothing. */
  lemma {:induction false} KeepNothing(xs: seq<string>, ys: seq<string>)
    requires forall i :: 0 <= i < |xs| ==> xs[i] !in ys
    ensures Keep(xs, ys) == []
  {
    if |xs| > 0 {
      KeepNothing(xs[1..], ys);
    }
  }

  /** Dropping elements that do not occur leaves the list as it was. */
  lemma {:induction false} DropNothing(xs: seq<string>, ys: seq<string>)
    requires forall i :: 0 <= i < |xs| ==> xs[i] !in ys
    ensures Drop(xs, ys) == xs
  {
    if |xs| > 0 {
      DropNothing(xs[1..], ys);
      assert xs == [xs[0]] + xs[1..];
    }
  }

  /** The filter both copies compute from the ledger entries and this fork's includes. */
  function FilterFor(executed: seq<string>, includes: seq<string>): (f: FilterSpec)
    ensures !f.failOnNoMatchingTests
    ensures |includes| == 0 ==> f.excludes == [MatchEverything] && f.includes == []
    ensures forall x :: x in f.includes <==> x in includes && x !in executed
    ensures |includes| > 0 ==> forall x :: x in f.excludes <==> x in includes && x in executed
  {
    var intersection := Keep(executed, includes);
    var prefix := if |includes| == 0 then [MatchEverything] else [];
    FilterSpec(Drop(includes, intersection), prefix + intersection, false)
  }

  /**
   * A fork's tests are split between the two pattern lists: none appears in both, and every
   * planned test appears in one of them.
   */
  lemma FilterPartitionsIncludes(executed: seq<string>, includes: seq<string>)
    requires |includes| > 0
    ensures forall x :: x in FilterFor(executed, includes).includes ==> x !in FilterFor(executed, includes).excludes
    ensures forall x :: x in includes ==>
      (x in FilterFor(executed, includes).includes) != (x in FilterFor(executed, includes).excludes)
  {
  }

  /** `getExecutedTests`: each ledger line with a `*` appended; a failed read gives no entries. */
  function ExecutedTests(ledger: Option<string>): (r: seq<string>)
    ensures ledger.None? ==> r == []
    ensures ledger.Some? ==> |r| == |Ledger.Lines(ledger.value)|
    ensures ledger.Some? ==> forall i :: 0 <= i < |r| ==> r[i] == Ledger.Lines(ledger.value)[i] + "*"
  {
    match ledger
    case None => []
    case Some(text) => Starred(Ledger.Lines(text))
  }

  function Starred(lines: seq<string>): (r: seq<string>)
    ensures |r| == |lines|
    ensures forall i :: 0 <= i < |r| ==> r[i] == lines[i] + "*"
  {
    if |lines| == 0 then [] else [lines[0] + "*"] + Starred(lines[1..])
  }

  /** `filterTestTask` in the test distributor. */
  function DistributorFilter(ledger: Option<string>, includes: seq<string>): (f: FilterSpec)
    ensures ledger.None? ==> f == FilterFor([], includes)
  {
    FilterFor(ExecutedTests(ledger), includes)
  }

  /**
   * The filter closure of the plugin's copy, as written: the starred list is built and thrown
   * away, so raw ledger lines are compared, and a failed read leaves the list null.
   */
  function PluginFilterAsWritten(ledger: Option<string>, includes: seq<string>): (r: Result<FilterSpec, Exc>)
    ensures ledger.None? <==> r == Failure(NullPointer)
  {
    match ledger
    case None => Failure(NullPointer)
    case Some(text) => Success(FilterFor(Ledger.Lines(text), includes))
  }

  /** The plugin's filter as evidently intended: the same as the distributor's. */
  function PluginFilter(ledger: Option<string>, includes: seq<string>): (r: Result<FilterSpec, Exc>)
    ensures r.Success?
  {
    Success(DistributorFilter(ledger, includes))
  }

  predicate IsPattern(x: string) {
    |x| > 0 && x[|x| - 1] == '*'
  }

  /**
   * The allocator's include patterns end in `*` and ledger lines do not, so the plugin as
   * written never excludes anything and reruns every test that already passed.
   */
  lemma PluginAsWrittenRerunsEverything(text: string, includes: seq<string>)
    requires forall i :: 0 <= i < |includes| ==> IsPattern(includes[i])
    requires forall i :: 0 <= i < |Ledger.Lines(text)| ==> !IsPattern(Ledger.Lines(text)[i])
    requires |includes| > 0
    ensures PluginFilterAsWritten(Some(text), includes).Success?
    ensures PluginFilterAsWritten(Some(text), includes).value.includes == includes
    ensures PluginFilterAsWritten(Some(text), includes).value.excludes == []
  {
    var lines := Ledger.Lines(text);
    forall i | 0 <= i < |lines|
      ensures lines[i] !in includes
    {
    }
    KeepNothing(lines, includes);
    DropNothing(includes, []);
  }

  /** A concrete instance: one passed test, planned again by the allocator. */
  lemma PluginAsWrittenMissesAPassedTest()
    ensures PluginFilterAsWritten(Some("a.B.t\n"), ["a.B.t*"]) == Success(FilterSpec(["a.B.t*"], [], false))
    ensures DistributorFilter(Some("a.B.t\n"), ["a.B.t*"]) == FilterSpec([], ["a.B.t*"], false)
  {
    var text := "a.B.t\n";
    assert text == "a.B.t" + ['\n'] + "";
    JavaStrings.SplitAfter("a.B.t", "", '\n');
    assert Ledger.Lines(text) == ["a.B.t"];
    PluginAsWrittenRerunsEverything(text, ["a.B.t*"]);
    assert "a.B.t" + "*" == "a.B.t*";
    assert ExecutedTests(Some(text)) == ["a.B.t*"];
    assert Keep(["a.B.t*"], ["a.B.t*"]) == ["a.B.t*"];
    assert Drop(["a.B.t*"], ["a.B.t*"]) == [];
  }

  /**
   * Restart: with a line-separated ledger and the distributor's filter, a test the allocator
   * plans as `entry*` is excluded exactly when its entry passed in an earlier run.
   */
  lemma RestartSkipsPassedTests(prev: seq<string>, events: seq<Ledger.TestEvent>, includes: seq<string>)
    requires forall i :: 0 <= i < |prev| ==> '\n' !in prev[i]
    requires Ledger.NoLineFeeds(events)
    requires |includes| > 0
    ensures var f := DistributorFilter(Some(Ledger.Record(Ledger.LinesText(prev), events)), includes);
      forall entry :: entry + "*" in includes ==>
        (entry + "*" in f.excludes <==> entry in prev + Ledger.Passed(events))
  {
    var lines := prev + Ledger.Passed(events);
    Ledger.RecordRoundTrip(prev, events);
    var executed := ExecutedTests(Some(Ledger.Record(Ledger.LinesText(prev), events)));
    assert |executed| == |lines|;
    forall entry | entry + "*" in includes
      ensures entry + "*" in executed <==> entry in lines
    {
      if entry in lines {
        var i :| 0 <= i < |lines| && lines[i] == entry;
        assert executed[i] == entry + "*";
      }
      if entry + "*" in executed {
        var i :| 0 <= i < |executed| && executed[i] == entry + "*";
        assert lines[i] + "*" == entry + "*";
        assert lines[i] == (lines[i] + "*")[..|lines[i]|];
        assert entry == (entry + "*")[..|entry|];
      }
    }
  }

  /** A test task as the distributor sees it. */
  datatype TestTask = TestTask(path: string, name: string, requested: bool, ignoreForDistribution: bool)

  /** What `distribute` does for one test task. */
  datatype Distribution = Distribution(listsAndModifies: bool, generatesParallelTask: bool)

  function Distribute(t: TestTask): (d: Distribution)
    ensures d.listsAndModifies ==> d.generatesParallelTask
    ensures t.ignoreForDistribution ==> d == Distribution(false, false)
  {
    Distribution(t.requested && !t.ignoreForDistribution, !t.ignoreForDistribution)
  }

  /**
   * A task is rewritten for distribution iff it was requested and not opted out, while a
   * parallel task exists for every task that is not opted out, requested or not.
   */
  lemma DistributeBranches(t: TestTask)
    ensures Distribute(t).listsAndModifies <==> t.requested && !t.ignoreForDistribution
    ensures Distribute(t).generatesParallelTask <==> !t.ignoreForDistribution
    ensures !t.requested && !t.ignoreForDistribution ==> Distribute(t) == Distribution(false, true)
  {
  }
}

=== FILE: test_plan.dfy ===
/**
 * `TestPlanUtils`: the names of the tests a JUnit Platform test plan holds, read out of
 * each identifier's unique id, split into test classes and test methods.
 */
module TestPlan {
  import opened Wrappers
  import opened JavaStrings

  /** What marks a unique id, and a converted name, as belonging to a method. */
  const MethodMarker: string := "()"

  /** A node of the test plan: its unique id, whether it is a test, and its children. */
  datatype TestIdentifier = TestIdentifier(uniqueId: string, isTest: bool, children: seq<TestIdentifier>)

  /** A test plan; its roots are the test engines. */
  datatype Plan = Plan(roots: seq<TestIdentifier>)

  /**
   * `convertTestIdentifierToString`: with a method marker, the class segment, `.` and the
   * method segment, where string concatenation renders a missing segment as "null";
   * without one, the class segment itself, which is a null reference when the id has none.
   */
  function ConvertId(uid: string): (r: Option<string>)
    ensures r.None? <==> !Contains(uid, MethodMarker) && SubstringBetween(uid, "class:", "]").None?
  {
    var cls := SubstringBetween(uid, "class:", "]");
    if Contains(uid, MethodMarker) then Some(NullToText(cls) + "." + NullToText(SubstringBetween(uid, "method:", "]")))
    else cls
  }

  /**
   * A JUnit 4 runner's unique id has no class segment and no method marker, so it converts
   * to a null reference.
   */
  lemma RunnerIdIsNull(uid: string)
    requires uid == "[engine:junit-vintage]/[runner:a.B]"
    ensures ConvertId(uid) == None
  {
    var engine, runner := "[engine:junit-vintage]/", "[runner:a.B]";
    assert uid == engine + runner;
    assert '(' !in engine && 'c' !in engine;
    assert '(' !in runner && 'c' !in runner;
    WithoutSegmentsIsNull(uid);
  }

  /** An id with neither a `(` nor a `c` can hold neither the method marker nor a class segment. */
  lemma WithoutSegmentsIsNull(uid: string)
    requires '(' !in uid && 'c' !in uid
    ensures ConvertId(uid) == None
  {
    LacksFirstChar(uid, MethodMarker);
    LacksFirstChar(uid, "class:");
  }

  /** A Java class, method or engine name: none of the characters a unique id uses as syntax. */
  predicate PlainName(n: string) {
    forall i :: 0 <= i < |n| ==> n[i] != ':' && n[i] != ']' && n[i] != '(' && n[i] != ')'
  }

  /** The unique id JUnit gives a test class. */
  function ClassUid(engine: string, cls: string): string {
    "[engine:" + engine + "]/[class:" + cls + "]"
  }

  /** The unique id JUnit gives a test method without parameters. */
  function MethodUid(engine: string, cls: string, meth: string): string {
    ClassUid(engine, cls) + "/[method:" + meth + "()]"
  }

  /** `class:` is first found where the class segment starts. */
  lemma ClassKeyFirst(engine: string)
    requires PlainName(engine)
    ensures NoOccurrenceIn("[engine:" + engine + "]/[" + "class:"[..5], "class:", 0, |"[engine:" + engine + "]/["|)
  {
    var a := "[engine:" + engine + "]/[";
    var y := a + "class:"[..5];
    assert y == "[engine:" + engine + "]/[class";
    forall j | 0 <= j < |a|
      ensures !OccursAt(y, "class:", j)
    {
      if j == 2 {
        OccursAtChar(y, "class:", j, 0);
        assert y[2] == 'n';
      } else {
        OccursAtChar(y, "class:", j, 5);
        if j + 5 < 8 {
          assert y[j + 5] == "[engine:"[j + 5];
        } else if j + 5 < 8 + |engine| {
          assert y[j + 5] == engine[j + 5 - 8];
        } else {
          assert y[j + 5] == "]/[class"[j + 5 - 8 - |engine|];
        }
      }
    }
  }

  /** `method:` is first found where the method segment starts. */
  lemma MethodKeyFirst(engine: string, cls: string)
    requires PlainName(engine) && PlainName(cls)
    ensures NoOccurrenceIn(ClassUid(engine, cls) + "/[" + "method:"[..6], "method:", 0, |ClassUid(engine, cls) + "/["|)
  {
    var a := ClassUid(engine, cls) + "/[";
    var y := a + "method:"[..6];
    var k := 8 + |engine| + 9;
    assert y == "[engine:" + engine + "]/[class:" + cls + "]/[method";
    forall j | 0 <= j < |a|
      ensures !OccursAt(y, "method:", j)
    {
      if j == 1 {
        OccursAtChar(y, "method:", j, 0);
        assert y[1] == 'e';
      } else if j == 10 + |engine| {
        OccursAtChar(y, "method:", j, 0);
        assert y[j] == "]/[class:"[2];
      } else {
        OccursAtChar(y, "method:", j, 6);
        if j + 6 < 8 {
          assert y[j + 6] == "[engine:"[j + 6];
        } else if j + 6 < 8 + |engine| {
          assert y[j + 6] == engine[j + 6 - 8];
        } else if j + 6 < k {
          assert y[j + 6] == "]/[class:"[j + 6 - 8 - |engine|];
        } else if j + 6 < k + |cls| {
          assert y[j + 6] == cls[j + 6 - k];
        } else {
          assert y[j + 6] == "]/[method"[j + 6 - k - |cls|];
        }
      }
    }
  }

  /** The method marker's first character does not occur in plain names and fixed syntax. */
  lemma NoParenIn(engine: string, cls: string)
    requires PlainName(engine) && PlainName(cls)
    ensures !Contains(ClassUid(engine, cls), MethodMarker)
  {
    var uid := ClassUid(engine, cls);
    forall i | 0 <= i < |uid|
      ensures uid[i] != '('
    {
      if i < 8 {
        assert uid[i] == "[engine:"[i];
      } else if i < 8 + |engine| {
        assert uid[i] == engine[i - 8];
      } else if i < 17 + |engine| {
        assert uid[i] == "]/[class:"[i - 8 - |engine|];
      } else if i < 17 + |engine| + |cls| {
        assert uid[i] == cls[i - 17 - |engine|];
      }
    }
    LacksFirstChar(uid, MethodMarker);
  }

  /** A class's unique id converts to the class name, which has no method marker. */
  lemma ConvertClassId(engine: string, cls: string)
    requires PlainName(engine) && PlainName(cls)
    ensures ConvertId(ClassUid(engine, cls)) == Some(cls)
    ensures !Contains(cls, MethodMarker)
  {
    var a := "[engine:" + engine + "]/[";
    assert ClassUid(engine, cls) == a + "class:" + cls + "]" + "";
    ClassKeyFirst(engine);
    BetweenFound(a, "class:", cls, "]", "");
    NoParenIn(engine, cls);
    LacksFirstChar(cls, MethodMarker);
  }

  lemma MethodClassSegment(engine: string, cls: string, meth: string)
    requires PlainName(engine) && PlainName(cls)
    ensures SubstringBetween(MethodUid(engine, cls, meth), "class:", "]") == Some(cls)
  {
    var a := "[engine:" + engine + "]/[";
    assert MethodUid(engine, cls, meth) == a + "class:" + cls + "]" + ("/[method:" + meth + "()]");
    ClassKeyFirst(engine);
    BetweenFound(a, "class:", cls, "]", "/[method:" + meth + "()]");
  }

  lemma MethodSegment(engine: string, cls: string, meth: string)
    requires PlainName(engine) && PlainName(cls) && PlainName(meth)
    ensures SubstringBetween(MethodUid(engine, cls, meth), "method:", "]") == Some(meth + MethodMarker)
    ensures Contains(MethodUid(engine, cls, meth), MethodMarker)
  {
    var uid := MethodUid(engine, cls, meth);
    var a := ClassUid(engine, cls) + "/[";
    assert uid == a + "method:" + (meth + "()") + "]" + "";
    MethodKeyFirst(engine, cls);
    BetweenFound(a, "method:", meth + "()", "]", "");
    assert OccursAt(uid, MethodMarker, |uid| - 3);
    ContainsIff(uid, MethodMarker);
  }

  /** Dropping the markers from a plain name followed by one marker gives the name back. */
  lemma StripTrailingMarker(name: string)
    requires '(' !in name
    ensures Contains(name + MethodMarker, MethodMarker)
    ensures StripMarkers(name + MethodMarker) == name
  {
    assert OccursAt(name + MethodMarker, MethodMarker, |name|);
    ContainsIff(name + MethodMarker, MethodMarker);
    NoOccurrenceInPrefix(name, MethodMarker, MethodMarker);
    ReplaceAllAfterPrefix(name, MethodMarker, MethodMarker, "");
    ReplaceWholeTarget(MethodMarker, "");
    assert name + "" == name;
  }

  /**
   * A method's unique id converts to `class.method()`, and dropping the marker leaves the
   * class name, a dot and the method name.
   */
  lemma ConvertMethodId(engine: string, cls: string, meth: string)
    requires PlainName(engine) && PlainName(cls) && PlainName(meth)
    ensures ConvertId(MethodUid(engine, cls, meth)) == Some(cls + "." + meth + MethodMarker)
    ensures Contains(cls + "." + meth + MethodMarker, MethodMarker)
    ensures StripMarkers(cls + "." + meth + MethodMarker) == cls + "." + meth
  {
    MethodClassSegment(engine, cls, meth);
    MethodSegment(engine, cls, meth);
    var name := cls + "." + meth;
    assert cls + "." + (meth + MethodMarker) == name + MethodMarker;
    StripTrailingMarker(name);
  }

  /** `replaceAll("\\(\\)", "")`: every method marker removed. */
  function StripMarkers(name: string): string {
    ReplaceAll(name, MethodMarker, "")
  }

  /** `(` is never directly followed by another `(`; true of every Java name. */
  predicate NoDoubleOpen(s: string) {
    forall i :: 0 <= i < |s| - 1 ==> !(s[i] == '(' && s[i + 1] == '(')
  }

  predicate NoMarkerAt(t: string) {
    forall i :: 0 <= i < |t| - 1 ==> !(t[i] == '(' && t[i + 1] == ')')
  }

  lemma NoMarkerAtMeansNoMarker(t: string)
    requires NoMarkerAt(t)
    ensures !Contains(t, MethodMarker)
  {
    ContainsIff(t, MethodMarker);
    forall i | OccursAt(t, MethodMarker, i)
      ensures t[i] != '(' || t[i + 1] != ')'
    {
      assert i < |t| - 1;
    }
    forall i | 0 <= i
      ensures !OccursAt(t, MethodMarker, i)
    {
      OccursAtChar(t, MethodMarker, i, 0);
      OccursAtChar(t, MethodMarker, i, 1);
    }
  }

  lemma {:induction false} StripShape(s: string)
    requires NoDoubleOpen(s)
    ensures NoMarkerAt(StripMarkers(s))
    ensures |s| > 0 && s[0] != '(' ==> |StripMarkers(s)| > 0 && StripMarkers(s)[0] == s[0]
    decreases |s|
  {
    if |s| == 0 {
    } else if StartsWith(s, MethodMarker) {
      StripShape(s[2..]);
      assert StripMarkers(s) == "" + StripMarkers(s[2..]);
      assert "" + StripMarkers(s[2..]) == StripMarkers(s[2..]);
    } else {
      var rest := StripMarkers(s[1..]);
      StripShape(s[1..]);
      assert StripMarkers(s) == [s[0]] + rest;
      if s[0] == '(' && |s| > 1 {
        assert s[1] != ')';
        assert s[1] != '(';
      }
    }
  }

  /**
   * Removing the markers from a name with no `((` leaves no marker behind. The condition is
   * needed: see `StripCanLeaveMarker`.
   */
  lemma StripLeavesNoMarker(s: string)
    requires NoDoubleOpen(s)
    ensures !Contains(StripMarkers(s), MethodMarker)
  {
    StripShape(s);
    NoMarkerAtMeansNoMarker(StripMarkers(s));
  }

  /** One pass of `replaceAll` can create a marker out of the text around the one it removes. */
  lemma StripCanLeaveMarker()
    ensures StripMarkers("(())") == MethodMarker
  {
    assert "(())"[1] != MethodMarker[1];
    assert !StartsWith("(())", MethodMarker);
    assert "(())"[1..] == "())";
    assert StartsWith("())", MethodMarker);
    assert "())"[2..] == ")";
    assert !StartsWith(")", MethodMarker);
    assert StripMarkers(")") == ")";
    assert StripMarkers("())") == ")";
  }

  /** Every node below `n`, depth first, not including `n` itself. */
  function Descendants(n: TestIdentifier): seq<TestIdentifier>
    decreases n
  {
    DescendantsAll(n.children)
  }

  function DescendantsAll(ns: seq<TestIdentifier>): seq<TestIdentifier>
    decreases ns
  {
    if |ns| == 0 then [] else [ns[0]] + Descendants(ns[0]) + DescendantsAll(ns[1..])
  }

  /** The descendants of every root, root by root. */
  function PlanNodes(roots: seq<TestIdentifier>): seq<TestIdentifier> {
    if |roots| == 0 then [] else Descendants(roots[0]) + PlanNodes(roots[1..])
  }

  /**
   * `convertToSet`: the converted unique id of every node below the engines; the `HashSet`
   * accepts a null reference like any other element.
   */
  function ConvertToSet(plan: Plan): set<Option<string>> {
    set d | d in PlanNodes(plan.roots) :: ConvertId(d.uniqueId)
  }

  /**
   * `getTestClasses`: the converted names without a method marker. The filter calls
   * `contains` on every element, so a null one throws `NullPointerException`.
   */
  function TestClasses(plan: Plan): (r: Result<set<string>, Exc>)
    ensures r.Failure? <==> None in ConvertToSet(plan)
    ensures r.Failure? ==> r.error == NullPointer
    ensures r.Success? ==> forall x :: x in r.value <==> Some(x) in ConvertToSet(plan) && !Contains(x, MethodMarker)
  {
    if None in ConvertToSet(plan) then Failure(NullPointer)
    else Success(set o | o in ConvertToSet(plan) && o.Some? && !Contains(o.value, MethodMarker) :: o.value)
  }

  /**
   * `getTestMethods`: the converted names with a method marker, with the markers removed;
   * a null element throws `NullPointerException` as in `getTestClasses`.
   */
  function TestMethods(plan: Plan): (r: Result<set<string>, Exc>)
    ensures r.Failure? <==> None in ConvertToSet(plan)
    ensures r.Failure? ==> r.error == NullPointer
    ensures r.Success? ==> forall x :: x in r.value <==>
      exists y :: Some(y) in ConvertToSet(plan) && Contains(y, MethodMarker) && StripMarkers(y) == x
  {
    if None in ConvertToSet(plan) then Failure(NullPointer)
    else Success(set o | o in ConvertToSet(plan) && o.Some? && Contains(o.value, MethodMarker) :: StripMarkers(o.value))
  }

  lemma {:induction false} PlanNodesMembership(roots: seq<TestIdentifier>, d: TestIdentifier)
    ensures d in PlanNodes(roots) <==> exists r :: 0 <= r < |roots| && d in Descendants(roots[r])
  {
    if |roots| > 0 {
      PlanNodesMembership(roots[1..], d);
      if d in PlanNodes(roots[1..]) {
        var r :| 0 <= r < |roots[1..]| && d in Descendants(roots[1..][r]);
        assert d in Descendants(roots[r + 1]);
      }
      if exists r :: 0 <= r < |roots| && d in Descendants(roots[r]) {
        var r :| 0 <= r < |roots| && d in Descendants(roots[r]);
        if r > 0 {
          assert roots[1..][r - 1] == roots[r];
        }
      }
    }
  }

  /**
   * The plan's names are exactly the converted ids of the nodes below some engine, whether
   * or not those nodes are tests; the engines themselves contribute nothing.
   */
  lemma CollectsExactlyTheDescendants(plan: Plan, x: Option<string>)
    ensures x in ConvertToSet(plan) <==>
      exists r, d :: 0 <= r < |plan.roots| && d in Descendants(plan.roots[r]) && ConvertId(d.uniqueId) == x
  {
    if x in ConvertToSet(plan) {
      var d :| d in PlanNodes(plan.roots) && ConvertId(d.uniqueId) == x;
      PlanNodesMembership(plan.roots, d);
    }
    if exists r, d :: 0 <= r < |plan.roots| && d in Descendants(plan.roots[r]) && ConvertId(d.uniqueId) == x {
      var r, d :| 0 <= r < |plan.roots| && d in Descendants(plan.roots[r]) && ConvertId(d.uniqueId) == x;
      PlanNodesMembership(plan.roots, d);
    }
  }

  /** A plan holding only engines has no names. */
  lemma EnginesAloneHaveNoNames(plan: Plan)
    requires forall r :: 0 <= r < |plan.roots| ==> plan.roots[r].children == []
    ensures ConvertToSet(plan) == {}
  {
    forall x | x in ConvertToSet(plan)
      ensures false
    {
      CollectsExactlyTheDescendants(plan, x);
    }
  }

  /**
   * The two lists fail together, exactly when some node's id converts to null. Otherwise
   * every name lands in exactly one of them: those without a marker are classes, and those
   * with one are methods once the marker is removed.
   */
  lemma ClassesAndMethodsPartition(plan: Plan, x: string)
    ensures TestClasses(plan).Failure? <==> TestMethods(plan).Failure?
    ensures TestClasses(plan).Failure? <==>
      exists r, d :: 0 <= r < |plan.roots| && d in Descendants(plan.roots[r]) && ConvertId(d.uniqueId).None?
    ensures Some(x) in ConvertToSet(plan) && TestClasses(plan).Success? ==>
      (x in TestClasses(plan).value <==> !Contains(x, MethodMarker))
    ensures Some(x) in ConvertToSet(plan) && Contains(x, MethodMarker) && TestMethods(plan).Success? ==>
      StripMarkers(x) in TestMethods(plan).value
  {
    CollectsExactlyTheDescendants(plan, None);
  }

  /** No method name keeps a marker, as long as no converted name holds `((`. */
  lemma MethodsHaveNoMarker(plan: Plan)
    requires forall x :: Some(x) in ConvertToSet(plan) ==> NoDoubleOpen(x)
    ensures TestMethods(plan).Success? ==> forall y :: y in TestMethods(plan).value ==> !Contains(y, MethodMarker)
  {
    if TestMethods(plan).Success? {
      forall y | y in TestMethods(plan).value
        ensures !Contains(y, MethodMarker)
      {
        var x :| Some(x) in ConvertToSet(plan) && Contains(x, MethodMarker) && StripMarkers(x) == y;
        StripLeavesNoMarker(x);
      }
    }
  }

  /** The children of a node are among its descendants, and so are theirs. */
  lemma {:induction false} ChildDescendants(ns: seq<TestIdentifier>, i: int, d: TestIdentifier)
    requires 0 <= i < |ns|
    requires d == ns[i] || d in Descendants(ns[i])
    ensures d in DescendantsAll(ns)
    decreases |ns|
  {
    if i > 0 {
      ChildDescendants(ns[1..], i - 1, d);
    }
  }

  /**
   * For a JUnit plan, an engine with a test class holding a test method, the class is
   * listed as a class and the method as `class.method`.
   */
  lemma JUnitNamesListed(engine: string, cls: string, meth: string, plan: Plan, k: nat, m: nat)
    requires PlainName(engine) && PlainName(cls) && PlainName(meth)
    requires |plan.roots| > 0 && k < |plan.roots[0].children| && m < |plan.roots[0].children[k].children|
    requires plan.roots[0].children[k].uniqueId == ClassUid(engine, cls)
    requires plan.roots[0].children[k].children[m].uniqueId == MethodUid(engine, cls, meth)
    ensures TestClasses(plan).Success? ==> cls in TestClasses(plan).value
    ensures TestMethods(plan).Success? ==> cls + "." + meth in TestMethods(plan).value
  {
    var root := plan.roots[0];
    var c := root.children[k];
    var t := c.children[m];
    ChildDescendants(root.children, k, c);
    ChildDescendants(c.children, m, t);
    ChildDescendants(root.children, k, t);
    ConvertClassId(engine, cls);
    ConvertMethodId(engine, cls, meth);
    CollectsExactlyTheDescendants(plan, Some(cls));
    CollectsExactlyTheDescendants(plan, ConvertId(t.uniqueId));
    ClassesAndMethodsPartition(plan, cls + "." + meth + MethodMarker);
  }
}

=== FILE: wrappers.dfy ===
/** Failure-carrying wrappers and the Java exception kinds the model can raise. */
module Wrappers {

  /** A Java reference that may be null. */
  datatype Option<+T> = None | Some(value: T) {
    function GetOr(default: T): T {
      match this
      case Some(v) => v
      case None => default
    }
  }

  /** The kinds of `java.lang.Exception` the modelled code throws or lets escape. */
  datatype Exc =
    | IllegalArgument      // java.lang.IllegalArgumentException
    | IllegalState         // java.lang.IllegalStateException
    | NumberFormat         // java.lang.NumberFormatException
    | NullPointer          // java.lang.NullPointerException
    | IndexOutOfBounds     // java.lang.StringIndexOutOfBoundsException
    | Gradle               // org.gradle.api.GradleException
    | InvalidUserCode      // org.gradle.api.InvalidUserCodeException
    | RetryFailed          // Retry.RetryException
    | IO                   // java.io.IOException
    | Other(name: string)  // any other checked or runtime exception

  /** A `java.lang.Throwable`: either an `Exception` or something that is not one (an `Error`). */
  datatype Throwable = Exception(kind: Exc) | Error(name: string)

  /** A value or the exception that was thrown instead of producing it. */
  datatype Result<+T, +E> = Success(value: T) | Failure(error: E) {
    predicate IsFailure() {
      Failure?
    }

    function PropagateFailure<U>(): Result<U, E>
      requires Failure?
    {
      Failure(error)
    }

    function Extract(): T
      requires Success?
    {
      value
    }
  }
}
